=== FILE: README.md ===
# CloudIoTPy core in Dafny

A model of the core of CloudIoTPy. CloudIoTPy is a Python agent that reads sensors and sends the readings to AWS IoT Core or Azure IoT Hub, and it keeps messages in an offline queue while the cloud cannot be reached. The model covers the following parts:

- **Offline storage.** The `OfflineStorage` interface and its two backends:
  - a JSON file that is rewritten whole on every change (`JsonStorage`);
  - a SQLite table whose row ids travel with the messages as `_db_id` (`SqliteStorage`).

  `OfflineStorage` states the interface's promises once, for both backends. `StorageService` covers `add_message`, `flush_data` (batches of 10, stopping at the first failed send) and the choice of backend from the configuration.
- **Configuration.** The `ConfigLoader` validation of mandatory keys, `load_config` on an already parsed file, `get_nested_value`, and every typed getter.
- **Provider clients.**
  - `AwsClient`: construction checks, connect/reconnect/disconnect/send, the decision `_on_command_message` takes, and `get_client_info`.
  - `AzureClient`: the same lifecycle, the status and payload of a direct-method response, and `get_client_info`.
  - `Backoff`: the exponential backoff loop that both clients' `reconnect` run.
- **Preprocessor.** `TelemetryPreprocessor`: `should_send` and the recursive flattening of nested readings.
- **Manager.** `IotManager`: building the client from the configuration, and routing between the client, the offline queue, the preprocessor and the sensor service. Every manager operation returns the calls it made, in order, so the routing can be stated.

Values are modelled as follows:

- A JSON value is the `Json` datatype.
- A Python dict is an association list, `Dict.Dict`. Reading a key finds its entry, writing an existing key keeps its position, and a new key is appended.
- Everything outside the program is an input to the function that uses it:
  - the MQTT/IoT SDK's answers (connection acknowledgements, PUBACKs, method-response sends);
  - the files on disk and `os.path.exists`;
  - the current time;
  - the callbacks a user registers.

## Model

| member | source | states |
|---|---|---|
| JsonStorage.LoadEntireList | cloudiotpy/offline_storage/offline_storage_json.py:133-142 | a missing file, unparseable text or a non-list reads as the empty list; what json.load gives back is always encodable |
| JsonStorage.SaveEntireList | cloudiotpy/offline_storage/offline_storage_json.py:154-163 | the file exists exactly when the list is non-empty; an encodable list reads back unchanged; a list json.dump rejects leaves text that reads as [] |
| JsonStorage.AddMessages | cloudiotpy/offline_storage/offline_storage_json.py:61-67 | an empty add changes nothing; otherwise the stored list is the old list followed by the new messages, or is lost when a new message cannot be encoded |
| JsonStorage.LoadMessages | cloudiotpy/offline_storage/offline_storage_json.py:85-89 | the result is a prefix of the stored list, of length min(limit, size) for a positive limit, and the whole list otherwise |
| JsonStorage.RemoveFirst | cloudiotpy/offline_storage/offline_storage_json.py:116-117 | list.remove drops exactly one occurrence, the first one equal to the message |
| JsonStorage.RemoveEach | cloudiotpy/offline_storage/offline_storage_json.py:112-118 | the remaining list is the multiset difference; the count is the number of elements dropped, at most the number of messages |
| JsonStorage.RemoveEachDropsFirst | cloudiotpy/offline_storage/offline_storage_json.py:115-118 | the loop leaves exactly what one left-to-right pass leaves when it drops an element while the messages still hold an unspent copy of it: of each value the first occurrences go, and the rest stay in their stored order |
| JsonStorage.RemoveKeepsLaterDuplicate | cloudiotpy/offline_storage/offline_storage_json.py:115-118 | removing [1] from [1, 2, 1] leaves [2, 1]: the earlier duplicate goes |
| JsonStorage.RemoveMessages | cloudiotpy/offline_storage/offline_storage_json.py:109-120 | an empty removal changes nothing; the stored list afterwards is the old list with, for each message, its first unspent equal occurrence dropped, in stored order; the count equals how far the list shrank, is at most the number of messages, and the file disappears when nothing is left |
| JsonStorage.RemoveEachPrefix | cloudiotpy/offline_storage/offline_storage_json.py:112-118 | removing a list's first k elements one by one leaves exactly its suffix after k, whatever duplicates it holds |
| JsonStorage.RemoveMissingMessages | cloudiotpy/offline_storage/offline_storage_json.py:109-120 | removing messages that are not stored removes nothing and keeps the queue |
| JsonStorage.RemoveLoadedPrefix | cloudiotpy/offline_storage/offline_storage_json.py:109-120 | removing the loaded first k messages reports k and leaves the rest of the queue in order |
| JsonStorage.AddLoadRemoveRoundTrip | cloudiotpy/offline_storage/offline_storage_json.py:61-120 | on an empty store, loading after an add returns exactly what was added, and removing it again reports everything removed and deletes the file |
| SqliteStorage.InitDb | cloudiotpy/offline_storage/offline_storage_sqlite.py:171-185 | CREATE TABLE IF NOT EXISTS keeps an existing table and otherwise creates an empty, valid one |
| SqliteStorage.Encoded | cloudiotpy/offline_storage/offline_storage_sqlite.py:56-65 | the messages kept for insertion all encode, are no more than those given, and are all of them when every message encodes |
| SqliteStorage.EncodedKeeps | cloudiotpy/offline_storage/offline_storage_sqlite.py:56-65 | every message json.dumps accepts is kept, and nothing is added or kept twice |
| SqliteStorage.EncodedAppend | cloudiotpy/offline_storage/offline_storage_sqlite.py:56-65 | messages are skipped one by one: the kept messages of a concatenation are those of each part, in order |
| SqliteStorage.AddMessages | cloudiotpy/offline_storage/offline_storage_sqlite.py:51-66 | an empty add changes nothing; otherwise one row per encodable message is appended with consecutive fresh ids, keeping the table ascending |
| SqliteStorage.LoadMessages | cloudiotpy/offline_storage/offline_storage_sqlite.py:90-118 | the result is a prefix of the decoded queue, at most limit messages for a positive limit and the whole decoded queue otherwise, each message carrying a row id |
| SqliteStorage.LoadCount | cloudiotpy/offline_storage/offline_storage_sqlite.py:90-118 | LIMIT applies to rows before decoding: a limited load gives one message per decodable row among the first min(limit, rows) rows, in row order and tagged with that row's id, so exactly min(limit, rows) messages when those rows all decode |
| SqliteStorage.DecodedCarryIds | cloudiotpy/offline_storage/offline_storage_sqlite.py:99-104 | every loaded message's _db_id is the id of the row it came from |
| SqliteStorage.CollectIds | cloudiotpy/offline_storage/offline_storage_sqlite.py:139-145 | the call fails exactly when some message is not an object; otherwise every integer _db_id among the messages is collected, and there are at most as many ids as messages |
| SqliteStorage.Keep | cloudiotpy/offline_storage/offline_storage_sqlite.py:150-153 | DELETE WHERE id IN keeps exactly the rows whose id is not targeted, in order |
| SqliteStorage.KeepMembers | cloudiotpy/offline_storage/offline_storage_sqlite.py:150-153 | every row the delete keeps was in the table, and every row whose id is not targeted is kept |
| SqliteStorage.KeepAscending | cloudiotpy/offline_storage/offline_storage_sqlite.py:150-153 | the rows left by the delete stay in ascending id order |
| SqliteStorage.RemoveMessages | cloudiotpy/offline_storage/offline_storage_sqlite.py:136-161 | a message that is not an object makes the call raise and delete nothing; otherwise a row goes exactly when its id is some message's integer _db_id; the count is the rows deleted and, on a valid table, at most the number of messages |
| SqliteStorage.DeletedMatching | cloudiotpy/offline_storage/offline_storage_sqlite.py:150-161 | the rows deleted are at most the targeted ids that exist in the table |
| SqliteStorage.AddThenLoad | cloudiotpy/offline_storage/offline_storage_sqlite.py:51-118 | adding encodable objects appends them after the stored queue, each tagged with a fresh id; dropping the tag gives back the message added |
| SqliteStorage.LoadAfterAdd | cloudiotpy/offline_storage/offline_storage_sqlite.py:51-118 | after adding encodable objects without _db_id, the whole queue is the old queue followed by the objects tagged with consecutive new ids |
| SqliteStorage.UntagTag | cloudiotpy/offline_storage/offline_storage_sqlite.py:102-103 | tagging a message with _db_id and removing the tag again gives the original message |
| SqliteStorage.KeepDecodedPrefix | cloudiotpy/offline_storage/offline_storage_sqlite.py:136-161 | deleting the decoded ids of the first k rows removes exactly those rows and leaves the decoded queue without its first messages |
| SqliteStorage.RemoveLoaded | cloudiotpy/offline_storage/offline_storage_sqlite.py:90-161 | removing what a load returned deletes one row per message and leaves the rest of the queue in order |
| SqliteStorage.RemoveQueuePrefix | cloudiotpy/offline_storage/offline_storage_sqlite.py:136-161 | removing the first n queued messages deletes n rows and leaves the queue's suffix |
| OfflineStorage.AddMessages | cloudiotpy/offline_storage/offline_storage.py:31-41 | the interface's add: an empty add changes nothing and a valid store stays valid, whatever the backend |
| OfflineStorage.RemoveMessages | cloudiotpy/offline_storage/offline_storage.py:62-76 | the interface's remove: an empty removal changes nothing and a valid store stays valid |
| OfflineStorage.LoadIsOldestFirst | cloudiotpy/offline_storage/offline_storage.py:43-60 | a load returns the oldest messages in order, at most limit of them for a positive limit, and all of them otherwise; JSON returns exactly min(limit, size); SQLite returns one message per decodable row among the first min(limit, rows) rows, so exactly min(limit, rows) when they all decode |
| OfflineStorage.RemoveCountBound | cloudiotpy/offline_storage/offline_storage.py:62-76 | a removal never reports more than the messages it was given |
| OfflineStorage.RemoveQueuePrefix | cloudiotpy/offline_storage/offline_storage.py:62-76 | for both backends, removing the first n queued messages removes n and leaves the rest of the queue in order |
| OfflineStorage.AddAppends | cloudiotpy/offline_storage/offline_storage.py:31-41 | for both backends, adding encodable objects without _db_id appends them after the old queue, each read back as itself once untagged |
| OfflineStorage.JsonUnencodableAddLosesQueue | cloudiotpy/offline_storage/offline_storage_json.py:61-67 | with the JSON backend, adding a message json.dump rejects leaves an empty queue |
| OfflineStorage.SqliteUnencodableAddKeepsQueue | cloudiotpy/offline_storage/offline_storage_sqlite.py:56-65 | with SQLite, adding anything keeps the stored queue as a prefix |
| StorageService.AddMessage | cloudiotpy/offline_storage/offline_storage_service.py:64-69 | with storage disabled the message is dropped and nothing changes; otherwise a valid store stays valid |
| StorageService.AddMessageQueues | cloudiotpy/offline_storage/offline_storage_service.py:64-69 | a queued message lands at the end of the queue, with everything before it kept |
| StorageService.SentCount | cloudiotpy/offline_storage/offline_storage_service.py:92-98 | the number sent is at most the batch size, and the send right after the ones counted was refused |
| StorageService.SentCountRun | cloudiotpy/offline_storage/offline_storage_service.py:92-98 | every message counted as sent was accepted by its send, so the count is the longest accepted run from the batch start |
| StorageService.RoundRemovesSent | cloudiotpy/offline_storage/offline_storage_service.py:88-101 | a batch is the front of the queue, and removing its sent prefix leaves the queue without those messages |
| StorageService.FlushLoop | cloudiotpy/offline_storage/offline_storage_service.py:86-106 | the messages delivered are a prefix of the queue and were each accepted; the queue loses exactly them; the loop stops either at a refused send of the next message or with nothing left to load |
| StorageService.ContinueFacts | cloudiotpy/offline_storage/offline_storage_service.py:100-106 | a fully sent batch followed by the rest of the flush is a flush of the whole queue |
| StorageService.Flush | cloudiotpy/offline_storage/offline_storage_service.py:80-106 | nothing happens without storage, a client, or a connection; otherwise the delivered messages are a queue prefix, each accepted, exactly they leave the queue, and the flush stops only at an empty load or at a refused send of the new head |
| StorageService.FirstSendFails | cloudiotpy/offline_storage/offline_storage_service.py:93-106 | when the first send fails, the flush sends once and changes nothing |
| StorageService.SentCountAppend | cloudiotpy/offline_storage/offline_storage_service.py:92-98 | the run of successes over two concatenated batches continues into the second only when the first is sent whole |
| StorageService.JsonFlushDeliversLongestRun | cloudiotpy/offline_storage/offline_storage_service.py:86-106 | with the JSON backend a flush delivers exactly the longest run of accepted messages from the oldest, across batches |
| StorageService.SqliteUndecodableHeadBlocksFlush | cloudiotpy/offline_storage/offline_storage_service.py:88-90 | ten undecodable rows at the head of the SQLite table make every batch empty, so nothing is ever flushed |
| StorageService.CreateOfflineStorage | cloudiotpy/offline_storage/offline_storage_service.py:117-130 | a missing path raises; "json" and "sqlite" (any case, surrounding spaces ignored) pick the backend, and any other type disables storage |
| ConfigLoader.MissingMessage | cloudiotpy/config/config_loader.py:104-105 | the ValueError text starts with the fixed prefix, and every missing key occurs in the text after it |
| ConfigLoader.KeysMissingNone | cloudiotpy/config/config_loader.py:82-84 | a section reports no missing keys exactly when every mandatory key is in it |
| ConfigLoader.SectionsMissingNone | cloudiotpy/config/config_loader.py:71-84 | no section or key is reported missing exactly when every mandatory section is present with its keys |
| ConfigLoader.FalsyKeysNone | cloudiotpy/config/config_loader.py:89-100 | the provider block reports nothing exactly when every credential is present and truthy |
| ConfigLoader.ValidateConfigComplete | cloudiotpy/config/config_loader.py:71-105 | validation passes exactly when every mandatory section and key is there and the provider is aws or azure with all its credentials truthy |
| ConfigLoader.MissingIotClientReported | cloudiotpy/config/config_loader.py:78-80 | a configuration without iot_client fails, naming iot_client first |
| ConfigLoader.UnknownProviderReported | cloudiotpy/config/config_loader.py:87-105 | a provider other than aws or azure is always rejected and named |
| ConfigLoader.ProviderMissingNone | cloudiotpy/config/config_loader.py:87-100 | the provider checks report nothing exactly when the provider is aws or azure and its block holds all its credentials, truthy |
| ConfigLoader.KeysMissingListed | cloudiotpy/config/config_loader.py:82-84 | a mandatory key the `in` test does not find is reported as section.key |
| ConfigLoader.SectionsMissingListed | cloudiotpy/config/config_loader.py:76-84 | a missing mandatory section is reported by name, and each missing key of a present section as section.key |
| ConfigLoader.FalsyKeysListed | cloudiotpy/config/config_loader.py:89-100 | an absent or falsy credential is reported with the provider prefix |
| ConfigLoader.ValidateListsMissingSections | cloudiotpy/config/config_loader.py:71-105 | unless validation raises some other exception, it fails naming every missing mandatory section and every missing section.key |
| ConfigLoader.ValidateListsProviderGaps | cloudiotpy/config/config_loader.py:87-105 | unless validation raises some other exception, every absent or falsy credential of the chosen provider is named as iot_client.provider.key, and an unknown provider is named |
| ConfigLoader.LoadConfig | cloudiotpy/config/config_loader.py:128-146 | a valid object file replaces the configuration and is returned; a missing, unparseable, non-object or invalid file returns {} and keeps the previous configuration |
| ConfigLoader.LoadConfigTwice | cloudiotpy/config/config_loader.py:128-146 | loading the same file a second time changes nothing more, whether the first load accepted it or not |
| ConfigLoader.NestedPath | cloudiotpy/config/config_loader.py:165-172 | a dotted path walks one dict level per dot-separated key, giving the default as soon as a level is missing or not a dict |
| ConfigLoader.NestedTwoLevel | cloudiotpy/config/config_loader.py:165-172 | a two-part path is the value of two lookups, or the default when either is missing |
| ConfigLoader.GetCloudProvider | cloudiotpy/config/config_loader.py:183-184 | the configured provider lower-cased letter by letter (aws stays aws), "" when unset; the result has no upper-case letter |
| ConfigLoader.GetOfflineStoragePath | cloudiotpy/config/config_loader.py:200-203 | a configured non-empty string path is returned (as a path naming that file); an unset, empty or non-string path raises |
| ConfigLoader.GetOfflineStorageType | cloudiotpy/config/config_loader.py:214-215 | the configured type lower-cased letter by letter, "sqlite" when unset; the result has no upper-case letter |
| ConfigLoader.GetLogLevel | cloudiotpy/config/config_loader.py:226-227 | the configured level upper-cased letter by letter, "INFO" when unset; the result has no lower-case letter |
| Text.Lower | cloudiotpy/config/config_loader.py:184 | str.lower on ASCII: each upper-case letter becomes the letter 32 code points on, every other character is kept, and the length is kept |
| Text.Upper | cloudiotpy/config/config_loader.py:227 | str.upper on ASCII: each lower-case letter becomes the letter 32 code points back, every other character is kept, and the length is kept |
| Text.CaseFolding | cloudiotpy/config/config_loader.py:184 | lower-casing ignores a prior upper- or lower-casing, and symmetrically for upper-casing |
| Text.StripTrims | cloudiotpy/offline_storage/offline_storage_service.py:117 | str.strip returns a contiguous slice of its input, and everything it cut off on either side is whitespace |
| Text.StripUnchanged | cloudiotpy/offline_storage/offline_storage_service.py:117 | a string that neither starts nor ends with whitespace is returned as is by str.strip |
| ConfigLoader.GetLogFile | cloudiotpy/config/config_loader.py:238 | the configured log file, None when unset |
| ConfigLoader.GetReadInterval | cloudiotpy/config/config_loader.py:249-250 | for any configured value, it raises exactly when int() does and is otherwise max(5, int(value)); 300 when unset |
| ConfigLoader.ReadIntervalOfText | cloudiotpy/config/config_loader.py:249-250 | an interval stored as the decimal text of an integer i gives max(5, i) |
| ConfigLoader.GetMaxRetries | cloudiotpy/config/config_loader.py:261-262 | for any configured value, it raises exactly when int() does and is otherwise max(0, int(value)); 0 when unset |
| ConfigLoader.MaxRetriesOfText | cloudiotpy/config/config_loader.py:261-262 | a retry count stored as the decimal text of an integer i gives max(0, i) |
| Text.ParseIntOfString | cloudiotpy/config/config_loader.py:250 | int() reads back str(i) as i for every integer i, negative ones included |
| ConfigLoader.GetSensorConfig | cloudiotpy/config/config_loader.py:273 | the sensor section, {} when unset |
| ConfigLoader.GetProviderConfig | cloudiotpy/config/config_loader.py:289-291 | the block iot_client.<provider>, for the given or the configured provider, {} when unset |
| Backoff.RetryFrom | cloudiotpy/iot/providers/aws_client.py:182-193 | at most max_retries attempts; success exactly when the last attempt succeeded, and every earlier one failed; all attempts used on failure; the n-th wait is 2 * 2^(n-1) |
| Backoff.Retry | cloudiotpy/iot/providers/aws_client.py:182-193 | the loop from attempt 1: no attempt for max_retries <= 0, and every failed attempt is waited for, the last one included |
| Backoff.RetryOracle | cloudiotpy/iot/providers/aws_client.py:182-193 | when each attempt's result depends only on its number, the outcomes are exactly those results and the loop succeeds iff some attempt within the bound is good |
| Backoff.RetryFromOracle | cloudiotpy/iot/providers/aws_client.py:182-193 | from any attempt k, with an attempt-numbered oracle, the outcomes are the oracle's answers from k on, and the loop succeeds iff some attempt from k to max_retries is good |
| Backoff.TotalWait | cloudiotpy/iot/providers/aws_client.py:182-190 | n failed attempts wait 2 * (2^n - 1) seconds in total, before jitter |
| Backoff.FailedRetryWaits | cloudiotpy/iot/providers/aws_client.py:182-193 | a failed loop waits exactly the schedule 2, 4, 8, ... for all its attempts |
| AwsClient.Create | cloudiotpy/iot/providers/aws_client.py:68-105 | construction succeeds iff the certificate, key and given root CA files exist and endpoint, client id and both paths are truthy; a missing certificate is reported first |
| AwsClient.Connect | cloudiotpy/iot/providers/aws_client.py:119-161 | a connected client stays connected; otherwise it becomes connected iff the CONNACK arrived, and a connected client has a handle |
| AwsClient.SubscriptionDoesNotMatter | cloudiotpy/iot/providers/aws_client.py:147-161 | a failed command subscription does not undo the connection |
| AwsClient.Reconnect | cloudiotpy/iot/providers/aws_client.py:178-193 | a connected client returns true with no attempt; otherwise it runs the shared backoff loop over connect, and ends connected iff it returns true |
| AwsClient.ReconnectSucceedsOnFirstAck | cloudiotpy/iot/providers/aws_client.py:178-193 | attempt n succeeds iff the SDK acknowledged it; reconnect succeeds iff some attempt within max_retries is acknowledged, and it stops at that attempt |
| AwsClient.Disconnect | cloudiotpy/iot/providers/aws_client.py:200-212 | the client ends disconnected, even if the SDK call fails; a disconnected client is unchanged |
| AwsClient.SendTelemetry | cloudiotpy/iot/providers/aws_client.py:241-262 | true only for a connected client with a handle, an encodable payload and an acknowledged publish |
| AwsClient.OnCommandMessage | cloudiotpy/iot/providers/aws_client.py:307-350 | an unparseable payload or no callback is ignored; a non-object payload makes the handler raise; a response needs an object payload and a callback |
| AwsClient.CommandResponse | cloudiotpy/iot/providers/aws_client.py:319-350 | a response is published iff the command is truthy and the callback returns something other than None; it goes to the command's response topic and carries the response, the command and a Z-suffixed timestamp |
| AwsClient.ClientInfo | cloudiotpy/iot/providers/aws_client.py:287-293 | exactly the keys provider, status, endpoint and client_id, with status mirroring the connected flag |
| AzureClient.Create | cloudiotpy/iot/providers/azure_client.py:58-59 | construction succeeds iff the connection string is truthy, giving a disconnected client |
| AzureClient.Connect | cloudiotpy/iot/providers/azure_client.py:110-137 | a connected client stays connected; otherwise success connects it and failure drops the handle |
| AzureClient.Reconnect | cloudiotpy/iot/providers/azure_client.py:154-170 | a connected client returns true with no attempt; otherwise the shared backoff loop runs over connect |
| AzureClient.ReconnectSucceedsOnFirstSuccess | cloudiotpy/iot/providers/azure_client.py:154-170 | reconnect succeeds iff some attempt within max_retries succeeds, and it stops at the first |
| AzureClient.FailedReconnectDropsHandle | cloudiotpy/iot/providers/azure_client.py:124-133 | after a failed reconnect with at least one attempt, the client has no handle |
| AzureClient.Disconnect | cloudiotpy/iot/providers/azure_client.py:177-187 | the client ends disconnected; a disconnected client is unchanged |
| AzureClient.SendTelemetry | cloudiotpy/iot/providers/azure_client.py:216-226 | true only for a connected client with a handle, an encodable payload and a delivered message |
| AzureClient.HandleMethodRequest | cloudiotpy/iot/providers/azure_client.py:71-98 | a callback's value is answered with 200; no callback or a None value gives 404; a raising callback gives 500 with the error text; a failing response send gives a 500 attempt next |
| AzureClient.MethodStatus | cloudiotpy/iot/providers/azure_client.py:71-98 | the first response is 200, 404 or 500 exactly in the cases above |
| AzureClient.ClientInfo | cloudiotpy/iot/providers/azure_client.py:252-259 | provider, and status mirroring the connected flag; connection_id is the connection string up to its first ';' (e.g. "HostName=..."), "unknown" when the string is falsy; a truthy connection string that is not text makes the call raise |
| TelemetryPreprocessor.ShouldSend | cloudiotpy/preprocessor/telemetry_preprocessor.py:47 | every reading is sent |
| TelemetryPreprocessor.SanitizeKey | cloudiotpy/preprocessor/telemetry_preprocessor.py:88 | each '.' becomes '_' and every other character stays in place, so the key has no '.' afterwards |
| TelemetryPreprocessor.Preprocess | cloudiotpy/preprocessor/telemetry_preprocessor.py:65 | the flattened reading has distinct, dot-free keys, no object values, exactly the joined leaf paths as keys, and under each key the value of the last leaf on that path |
| TelemetryPreprocessor.FlattenShape | cloudiotpy/preprocessor/telemetry_preprocessor.py:84-96 | flattening gives distinct keys, no object values, exactly the leaf paths' keys, and no '.' when the parent key has none |
| TelemetryPreprocessor.FlattenGet | cloudiotpy/preprocessor/telemetry_preprocessor.py:84-96 | reading any key of a flattened object gives the value of the last leaf, in entry order, whose joined path is that key, and nothing when no leaf has that path |
| TelemetryPreprocessor.LeafValueAtKeys | cloudiotpy/preprocessor/telemetry_preprocessor.py:84-96 | a leaf value exists for a key exactly when the key is one of the joined leaf paths |
| TelemetryPreprocessor.FlattenAppend | cloudiotpy/preprocessor/telemetry_preprocessor.py:86-95 | one more entry updates the flattened dict with its flattened value, or sets its joined key |
| TelemetryPreprocessor.LaterEntryWins | cloudiotpy/preprocessor/telemetry_preprocessor.py:93-95 | when keys collide, the later leaf's value is the one read back |
| TelemetryPreprocessor.EmptyObjectVanishes | cloudiotpy/preprocessor/telemetry_preprocessor.py:91-93 | an empty nested object contributes no key |
| TelemetryPreprocessor.NestedLeafJoined | cloudiotpy/preprocessor/telemetry_preprocessor.py:89-95 | a nested leaf is found under its parent key and its own key joined with '_' |
| TelemetryPreprocessor.FlatUnchanged | cloudiotpy/preprocessor/telemetry_preprocessor.py:84-100 | an already flat reading with dot-free, distinct keys comes back unchanged, order included |
| IotManager.Connect | cloudiotpy/iot/iot_manager.py:78-91 | one connect call, then exactly one flush iff it succeeded; on failure the queue is untouched |
| IotManager.ConnectDrainsQueue | cloudiotpy/iot/iot_manager.py:78-85 | a connect leaves the queue with only a prefix removed, every removed message acknowledged and encodable; a failed connect removes nothing |
| IotManager.ConnectStops | cloudiotpy/iot/iot_manager.py:78-85 | after a successful connect the flush has stopped only at an empty load or at a refused send of the new head |
| IotManager.FlushThroughDrains | cloudiotpy/iot/iot_manager.py:83-85 | a flush through the manager's client removes only an acknowledged, encodable prefix, and when connected stops only at an empty load or a refused send of the new head |
| IotManager.Reconnect | cloudiotpy/iot/iot_manager.py:104-117 | raises iff get_max_retries raises; otherwise it reconnects with the configured retries |
| IotManager.ReconnectWith | cloudiotpy/iot/iot_manager.py:105-117 | one reconnect call with max_retries, then exactly one flush iff it succeeded; on failure the queue is untouched |
| IotManager.ReconnectStops | cloudiotpy/iot/iot_manager.py:105-117 | after a successful reconnect the flush has stopped only at an empty load or at a refused send of the new head |
| IotManager.Disconnect | cloudiotpy/iot/iot_manager.py:123 | the client ends disconnected; the queue is untouched |
| IotManager.SendTelemetry | cloudiotpy/iot/iot_manager.py:152-163 | when disconnected the data is queued without a send; a failed send queues it; only a successful send returns true, and then nothing is queued |
| IotManager.DisconnectedSendQueues | cloudiotpy/iot/iot_manager.py:152-155 | while disconnected, the outcome does not depend on the SDK, and the reading is appended to the queue |
| IotManager.Start | cloudiotpy/iot/iot_manager.py:170-174 | connect, and on success start the sensors; on failure the result, client and queue are those of reconnect with the configured retries, then the sensors start; a raising reconnect ends start before the sensors |
| IotManager.StartReconnectsOnlyOnFailure | cloudiotpy/iot/iot_manager.py:170-174 | start reconnects iff the first connect fails; it starts the sensors once and flushes at most once |
| IotManager.Shutdown | cloudiotpy/iot/iot_manager.py:180-188 | the sensors are stopped, then the client disconnects, even when stopping raised |
| IotManager.HandleSensorData | cloudiotpy/iot/iot_manager.py:261-263 | each reading is flattened, then sent or queued |
| IotManager.FlatReadingSentAsIs | cloudiotpy/iot/iot_manager.py:261-263 | an already flat reading reaches send_telemetry unchanged |
| IotManager.CreateIotClient | cloudiotpy/iot/iot_manager.py:205-225 | an unknown provider gives no client; a built client is disconnected, of the configured provider, with truthy credentials |
| IotManager.AzureConfigBuildsAzure | cloudiotpy/iot/iot_manager.py:222-223 | an Azure block with a truthy connection string builds an Azure client around it |
| IotManager.AwsConfigBuildsAws | cloudiotpy/iot/iot_manager.py:208-221 | with string paths, an AWS client is built iff the AWS constructor accepts the resolved paths, using the block's endpoint and client id |
| IotManager.AwsBlockSelected | cloudiotpy/iot/iot_manager.py:205-208 | with provider aws, the client is built from the iot_client.aws block |
| IotManager.AwsBlockBuilds | cloudiotpy/iot/iot_manager.py:208-221 | with string paths, the AWS block gives a client iff the AWS constructor accepts the resolved paths, and then a disconnected one with the block's endpoint and client id |
| IotManager.AwsNonStringPathFails | cloudiotpy/iot/iot_manager.py:211 | a certificate path that is not a string makes the path join raise, so no client is built |

## Left out

- Locks, threads and the sensor reading thread are not modelled. Each operation runs atomically, and the sensor service is a flag recording that `start` was called and `stop` was not. It does not say that a reading thread runs: `start` returns without a thread when there is no sensor manager (cloudiotpy/sensors_integration/sensor_reading_service.py:54-56).
- Logging is not modelled, nor the `handle_exceptions` decorator beyond the default value it returns.
- The random jitter of the reconnect wait and the sleep itself are not modelled. The loop records the base delays it would wait.
- MQTT topics, QoS, TLS and the SDK calls themselves are not modelled. Their answers are inputs.
- The JSON and SQL text formats are not modelled. Stored text is abstracted to "parses to this value" or "does not parse".
- The file system and the I/O errors of writes are not modelled. The file on disk is an input.
- Floating-point values are not modelled. Numbers are integers.
- `load_config` reading the file and the configuration singleton are not modelled. `LoadConfig` takes the parsed file.
- Python's numeric equality across types is not modelled. `True == 1` holds in Python, also inside dicts and lists, but not for `Json` values, so `list.remove` in `JsonStorage.RemoveFirst` does not match `true` with `1`.
- Python's order-insensitive dict equality is not modelled. Dict equality is the equality of the association lists, so `list.remove` matches a message only in the same key order.
- Unicode case mapping and whitespace are not modelled. `lower`, `upper` and `strip` use ASCII only.
- `int()` is not modelled in full. It accepts decimal text and integers; underscores and other literal forms are not accepted.
- `str()` of lists and dicts is not modelled. It is only needed for error texts and topics.
- `os.path.join` on the project root is an input (`resolve`), and so is `os.path.exists`.
- The AWS `clean_session` flag is not modelled. It only reaches the SDK.
- The UTF-8 decode failure of an AWS command payload is not modelled. Payloads arrive parsed or unparseable.
- The manager's `on_command`, `is_connected` and `get_client_info` are not modelled. They only forward to the client; callbacks are parameters of the handlers.
- A manager whose client could not be built is not modelled. Every call on it except `shutdown` would raise; `shutdown` catches the error of its disconnect (cloudiotpy/iot/iot_manager.py:185-188). The model's manager always holds a client.
- The manager constructor (`IoTManager.__init__`) is not modelled. Its parts are: `CreateIotClient` and `CreateOfflineStorage`.
- ConfigLoader.GetOfflineStoragePath: returns the configured text, not the normalised text of `Path(path_str)` (repeated and trailing separators dropped). Both name the same file.
- SqliteStorage.RemoveMessages: ids are unbounded integers. SQLite binds only 64-bit integers, so a _db_id outside [-2^63, 2^63) makes the source's DELETE raise and return 0, which the model does not do.
- SqliteStorage.LoadMessages: the limit is an unbounded integer. A limit of 2^63 or more makes the source's SELECT raise and return [], while the model returns the first rows.
- IotManager.Shutdown: the state of the sensor service after its `stop` raised is not modelled. The flag is left as it was.

Where the docstrings and the code disagree, the model follows the code:

- `get_offline_storage_path` raises on an unset or empty path. The "no offline storage path" branch of `_create_offline_storage` is therefore unreachable, and a missing path makes creation raise.
- The backoff loop waits after a failed last attempt as well.
- `preprocess_data` is documented as returning the reading as is. It actually flattens it.
- `add_messages` is documented as appending without removing existing messages. The JSON backend rewrites the whole file, and when `json.dump` rejects a new message the write fails part-way and the whole queue is lost (`OfflineStorage.JsonUnencodableAddLosesQueue`).

=== FILE: aws_client.dfy ===
/**
 * The AWS IoT Core client (AWSIoTClient): construction checks, the
 * connected flag and MQTT connection handle driven by connect, reconnect,
 * disconnect and send_telemetry, and the decision `_on_command_message`
 * makes for an inbound command. SDK results are oracle inputs.
 */
module AwsClient {
  import opened Wrappers
  import opened Json
  import opened PyConvert
  import Dict
  import Backoff
  import opened IotClient

  /**
   * The client. `endpoint` and `clientId` are whatever the provider block
   * held (JSON null when missing); `handle` says an MQTT connection object
   * exists.
   */
  datatype Client = Client(endpoint: Json, clientId: Json, connected: bool, handle: bool)

  /** A connected client always has a connection handle. */
  predicate Valid(c: Client) {
    c.connected ==> c.handle
  }

  /** Why the constructor raised. */
  datatype InitError = FileNotFound(path: string) | Incomplete

  datatype Init = Built(client: Client) | Failed(error: InitError)

  /**
   * `__init__`: the certificate, key and (when given) root CA files must
   * exist, checked in that order; then endpoint, client id and both paths
   * must be truthy. `fileExists` answers os.path.exists.
   */
  function Create(endpoint: Json, clientId: Json, certPath: string, keyPath: string,
                  rootCaPath: Option<string>, fileExists: string -> bool): (r: Init)
    ensures r.Built? <==>
      && fileExists(certPath) && fileExists(keyPath)
      && (rootCaPath.Some? && rootCaPath.value != "" ==> fileExists(rootCaPath.value))
      && Truthy(endpoint) && Truthy(clientId) && certPath != "" && keyPath != ""
    ensures r.Built? ==> r.client == Client(endpoint, clientId, false, false) && Valid(r.client)
    ensures !fileExists(certPath) ==> r == Failed(FileNotFound(certPath))
    ensures r == Failed(Incomplete) ==>
      fileExists(certPath) && fileExists(keyPath) && !(Truthy(endpoint) && Truthy(clientId) && certPath != "" && keyPath != "")
  {
    if !fileExists(certPath) then Failed(FileNotFound(certPath))
    else if !fileExists(keyPath) then Failed(FileNotFound(keyPath))
    else if rootCaPath.Some? && rootCaPath.value != "" && !fileExists(rootCaPath.value) then Failed(FileNotFound(rootCaPath.value))
    else if !(Truthy(endpoint) && Truthy(clientId) && certPath != "" && keyPath != "") then Failed(Incomplete)
    else Built(Client(endpoint, clientId, false, false))
  }

  /**
   * One connect attempt as the SDK answers it: building the connection
   * raises, the CONNECT acknowledgement times out or fails, or it arrives
   * (and the command subscription then succeeds or not).
   */
  datatype ConnectAttempt = BuildFails | AckFails | Acked(subscribed: bool)

  /**
   * `connect`: nothing to do when already connected; otherwise a new
   * connection handle replaces the old one unless building it raised, and
   * the client is connected exactly when the acknowledgement arrived, even
   * if subscribing to commands failed afterwards.
   */
  function Connect(c: Client, attempt: ConnectAttempt): (r: (Client, bool))
    ensures Valid(c) ==> Valid(r.0)
    ensures c.connected ==> r == (c, true)
    ensures !c.connected ==> (r.1 <==> attempt.Acked?)
    ensures r.0.connected == r.1
    ensures r.0.endpoint == c.endpoint && r.0.clientId == c.clientId
  {
    if c.connected then (c, true)
    else
      match attempt
      case BuildFails => (c, false)
      case AckFails => (c.(handle := true), false)
      case Acked(_) => (c.(handle := true, connected := true), true)
  }

  /** A failed command subscription does not undo a connection. */
  lemma SubscriptionDoesNotMatter(c: Client)
    ensures Connect(c, Acked(false)) == Connect(c, Acked(true))
    ensures !c.connected ==> Connect(c, Acked(false)).0.connected
  {
  }

  /**
   * `reconnect(max_retries)`: true with no attempt when already connected,
   * otherwise the shared backoff loop over `connect`, where `attempts(n)`
   * is what the SDK does on attempt n.
   */
  function Reconnect(c: Client, maxRetries: int, attempts: nat -> ConnectAttempt): (r: Backoff.Retried<Client>)
    requires Valid(c)
    ensures Valid(r.state)
    ensures c.connected ==> r == Backoff.Retried(c, true, [], [])
    ensures r.state.connected == r.ok
    ensures !c.connected ==> r == Backoff.Retry(c, (s: Client, k: nat) => Connect(s, attempts(k)), maxRetries)
  {
    if c.connected then Backoff.Retried(c, true, [], [])
    else ReconnectLoop(c, maxRetries, attempts, 1)
  }

  /** The attempts loop of `reconnect`, from attempt `k` on, with the client's invariant carried along. */
  function ReconnectLoop(c: Client, maxRetries: int, attempts: nat -> ConnectAttempt, k: nat): (r: Backoff.Retried<Client>)
    requires Valid(c) && !c.connected && k >= 1
    ensures Valid(r.state)
    ensures r.state.connected == r.ok
    ensures r == Backoff.RetryFrom(c, (s: Client, k: nat) => Connect(s, attempts(k)), k, maxRetries)
    decreases if maxRetries - k + 1 > 0 then maxRetries - k + 1 else 0
  {
    if k > maxRetries then Backoff.Retried(c, false, [], [])
    else
      var (c1, ok) := Connect(c, attempts(k));
      if ok then Backoff.Retried(c1, true, [true], [])
      else
        var rest := ReconnectLoop(c1, maxRetries, attempts, k + 1);
        Backoff.Retried(rest.state, rest.ok, [false] + rest.outcomes, [Backoff.DelayAfter(k)] + rest.delays)
  }

  /**
   * A disconnected client reconnects exactly when some attempt within
   * `max_retries` gets its acknowledgement, and it stops at the first one:
   * attempt n succeeded if and only if `attempts(n)` was acknowledged.
   */
  lemma ReconnectSucceedsOnFirstAck(c: Client, maxRetries: int, attempts: nat -> ConnectAttempt)
    requires Valid(c) && !c.connected
    ensures var r := Reconnect(c, maxRetries, attempts);
      && (forall i | 0 <= i < |r.outcomes| :: r.outcomes[i] == attempts(i + 1).Acked?)
      && (r.ok <==> exists n :: 1 <= n <= maxRetries && attempts(n).Acked?)
      && (r.ok ==> attempts(|r.outcomes|).Acked?)
  {
    var step := (s: Client, k: nat) => Connect(s, attempts(k));
    var good := (k: nat) => attempts(k).Acked?;
    var disconnected := (s: Client) => !s.connected;
    forall s': Client, j: nat | disconnected(s')
      ensures step(s', j).1 == good(j) && (good(j) || disconnected(step(s', j).0))
    {
      var _ := Connect(s', attempts(j));
    }
    Backoff.RetryOracle(c, step, good, disconnected, maxRetries);
    assert forall n: nat :: good(n) == attempts(n).Acked?;
  }

  /**
   * `disconnect`: with a handle and a connection the SDK call is made and,
   * whether or not it fails, the client ends disconnected; otherwise
   * nothing changes.
   */
  function Disconnect(c: Client): (r: Client)
    ensures Valid(c) ==> Valid(r) && !r.connected
    ensures !c.connected ==> r == c
    ensures r.handle == c.handle && r.endpoint == c.endpoint && r.clientId == c.clientId
  {
    if c.handle && c.connected then c.(connected := false) else c
  }

  /**
   * `send_telemetry`: false without publishing when not connected or
   * without a handle; otherwise the payload must encode as JSON and the
   * PUBACK must arrive (`acked`).
   */
  function SendTelemetry(c: Client, data: Json, acked: bool): (r: bool)
    ensures r ==> c.connected && c.handle && Encodable(data)
    ensures c.connected && c.handle && Encodable(data) ==> (r <==> acked)
  {
    c.connected && c.handle && Encodable(data) && acked
  }

  /** What `_on_command_message` ends up doing with one inbound message. */
  datatype CommandOutcome =
    | Ignored
      /** `.get` on a payload that is not an object raises AttributeError out of the handler. */
    | Crashed
    | Respond(topic: string, message: Json)

  /** The topic a command's response is published on. */
  function ResponseTopic(c: Client, command: Json): string {
    "devices/" + PyStr(c.clientId) + "/commands/response/" + PyStr(command)
  }

  /**
   * `_on_command_message`. `parsed` is the payload as JSON (None when it
   * does not parse), `callback` the registered callback if any, and `now`
   * the UTC time in ISO form.
   */
  function OnCommandMessage(c: Client, parsed: Option<Json>, callback: Option<(Json, Json) -> CallbackResult>,
                            now: string): (r: CommandOutcome)
    ensures parsed.None? || callback.None? ==> r == Ignored
    ensures r.Crashed? <==> parsed.Some? && callback.Some? && !parsed.value.JObj?
    ensures r.Respond? ==> parsed.Some? && parsed.value.JObj? && callback.Some?
  {
    if parsed.None? || callback.None? then Ignored
    else
      match parsed.value
      case JObj(fields) =>
        var command := Dict.Get(fields, "command").GetOr(JStr(""));
        var payload := Dict.Get(fields, "payload").GetOr(JObj([]));
        if !Truthy(command) then Ignored
        else
          (match callback.value(command, payload)
           case Raises(_) => Ignored
           case Returns(response) =>
             if response == JNull then Ignored
             else Respond(ResponseTopic(c, command),
                          JObj([("response", response), ("command", command), ("timestamp", JStr(now + "Z"))])))
      case _ => Crashed
  }

  /**
   * A command gets a response exactly when its JSON is an object, a callback
   * is registered, the `command` field is truthy and the callback returns a
   * value other than None; the response goes to
   * `devices/<client id>/commands/response/<command>` and carries the
   * callback's value, the command and a `Z`-suffixed timestamp.
   */
  lemma CommandResponse(c: Client, fields: seq<(string, Json)>, callback: (Json, Json) -> CallbackResult, now: string)
    ensures var command := Dict.Get(fields, "command").GetOr(JStr(""));
      var payload := Dict.Get(fields, "payload").GetOr(JObj([]));
      var r := OnCommandMessage(c, Some(JObj(fields)), Some(callback), now);
      && (r.Respond? <==> Truthy(command) && callback(command, payload).Returns? && callback(command, payload).value != JNull)
      && (r.Respond? ==>
            && r.topic == "devices/" + PyStr(c.clientId) + "/commands/response/" + PyStr(command)
            && Dict.Get(r.message.fields, "response") == Some(callback(command, payload).value)
            && Dict.Get(r.message.fields, "command") == Some(command)
            && Dict.Get(r.message.fields, "timestamp") == Some(JStr(now + "Z")))
  {
    var r := OnCommandMessage(c, Some(JObj(fields)), Some(callback), now);
    if r.Respond? {
      Dict.GetAt(r.message.fields, 0);
      Dict.GetAt(r.message.fields, 1);
      Dict.GetAt(r.message.fields, 2);
    }
  }

  /** `get_client_info`: provider, status mirroring the connected flag, endpoint and client id as text. */
  function ClientInfo(c: Client): (r: Dict.Dict<string>)
    ensures Dict.Get(r, "provider") == Some("aws")
    ensures Dict.Get(r, "status") == Some(if c.connected then "connected" else "disconnected")
    ensures Dict.Get(r, "endpoint") == Some(PyStr(c.endpoint))
    ensures Dict.Get(r, "client_id") == Some(PyStr(c.clientId))
    ensures Dict.Keys(r) == {"provider", "status", "endpoint", "client_id"}
  {
    var info := [("provider", "aws"),
                 ("status", if c.connected then "connected" else "disconnected"),
                 ("endpoint", PyStr(c.endpoint)),
                 ("client_id", PyStr(c.clientId))];
    Dict.GetAt(info, 0);
    Dict.GetAt(info, 1);
    Dict.GetAt(info, 2);
    Dict.GetAt(info, 3);
    info
  }
}

=== FILE: azure_client.dfy ===
/**
 * The Azure IoT Hub client (AzureIoTClient): the constructor's check, the
 * connected flag and device-client handle driven by connect, reconnect,
 * disconnect and send_telemetry, the status codes a direct method gets, and
 * the client info. SDK results are oracle inputs.
 */
module AzureClient {
  import opened Wrappers
  import opened Json
  import Dict
  import Text
  import Backoff
  import opened IotClient

  /** The client; `handle` says an IoTHubDeviceClient exists. */
  datatype Client = Client(connectionString: Json, connected: bool, handle: bool)

  /** A connected client always has a device-client handle. */
  predicate Valid(c: Client) {
    c.connected ==> c.handle
  }

  /** `__init__`: a falsy connection string raises ValueError (None). */
  function Create(connectionString: Json): (r: Option<Client>)
    ensures r.Some? <==> Truthy(connectionString)
    ensures r.Some? ==> r.value == Client(connectionString, false, false) && Valid(r.value)
  {
    if !Truthy(connectionString) then None
    else Some(Client(connectionString, false, false))
  }

  /**
   * `connect`: nothing to do when already connected. Otherwise the device
   * client is created if missing and connected; `ok` says both succeeded.
   * On failure the handle is dropped and the client stays disconnected.
   */
  function Connect(c: Client, ok: bool): (r: (Client, bool))
    ensures Valid(c) ==> Valid(r.0)
    ensures c.connected ==> r == (c, true)
    ensures !c.connected ==> r.1 == ok
    ensures r.0.connected == r.1
    ensures !r.1 ==> !r.0.handle
    ensures r.0.connectionString == c.connectionString
  {
    if c.connected then (c, true)
    else if ok then (c.(handle := true, connected := true), true)
    else (c.(handle := false, connected := false), false)
  }

  /**
   * `reconnect(max_retries)`: true with no attempt when already connected,
   * otherwise the shared backoff loop over `connect`, where `attempts(n)`
   * says whether attempt n succeeds.
   */
  function Reconnect(c: Client, maxRetries: int, attempts: nat -> bool): (r: Backoff.Retried<Client>)
    requires Valid(c)
    ensures Valid(r.state)
    ensures c.connected ==> r == Backoff.Retried(c, true, [], [])
    ensures r.state.connected == r.ok
    ensures !c.connected ==> r == Backoff.Retry(c, (s: Client, k: nat) => Connect(s, attempts(k)), maxRetries)
  {
    if c.connected then Backoff.Retried(c, true, [], [])
    else ReconnectLoop(c, maxRetries, attempts, 1)
  }

  /** The attempts loop of `reconnect`, from attempt `k` on, with the client's invariant carried along. */
  function ReconnectLoop(c: Client, maxRetries: int, attempts: nat -> bool, k: nat): (r: Backoff.Retried<Client>)
    requires Valid(c) && !c.connected && k >= 1
    ensures Valid(r.state)
    ensures r.state.connected == r.ok
    ensures k > maxRetries ==> r.state == c
    ensures !r.ok && k <= maxRetries ==> !r.state.handle
    ensures r == Backoff.RetryFrom(c, (s: Client, k: nat) => Connect(s, attempts(k)), k, maxRetries)
    decreases if maxRetries - k + 1 > 0 then maxRetries - k + 1 else 0
  {
    if k > maxRetries then Backoff.Retried(c, false, [], [])
    else
      var (c1, ok) := Connect(c, attempts(k));
      if ok then Backoff.Retried(c1, true, [true], [])
      else
        var rest := ReconnectLoop(c1, maxRetries, attempts, k + 1);
        Backoff.Retried(rest.state, rest.ok, [false] + rest.outcomes, [Backoff.DelayAfter(k)] + rest.delays)
  }

  /**
   * A disconnected client reconnects exactly when some attempt within
   * `max_retries` succeeds, stopping at the first one; the waits follow the
   * same 2 * 2^(n-1) schedule as the AWS client.
   */
  lemma ReconnectSucceedsOnFirstSuccess(c: Client, maxRetries: int, attempts: nat -> bool)
    requires Valid(c) && !c.connected
    ensures var r := Reconnect(c, maxRetries, attempts);
      && (forall i | 0 <= i < |r.outcomes| :: r.outcomes[i] == attempts(i + 1))
      && (r.ok <==> exists n :: 1 <= n <= maxRetries && attempts(n))
      && (forall i | 0 <= i < |r.delays| :: r.delays[i] == Backoff.DelayAfter(i + 1))
  {
    var step := (s: Client, k: nat) => Connect(s, attempts(k));
    var disconnected := (s: Client) => !s.connected;
    forall s': Client, j: nat | disconnected(s')
      ensures step(s', j).1 == attempts(j) && (attempts(j) || disconnected(step(s', j).0))
    {
      var _ := Connect(s', attempts(j));
    }
    Backoff.RetryOracle(c, step, attempts, disconnected, maxRetries);
  }

  /** A failed reconnect leaves no device-client handle behind. */
  lemma FailedReconnectDropsHandle(c: Client, maxRetries: int, attempts: nat -> bool)
    requires Valid(c) && !c.connected && maxRetries >= 1
    requires !Reconnect(c, maxRetries, attempts).ok
    ensures !Reconnect(c, maxRetries, attempts).state.handle
  {
  }

  /**
   * `disconnect`: with a handle and a connection the SDK call is made and,
   * whether or not it fails, the client ends disconnected; otherwise
   * nothing changes.
   */
  function Disconnect(c: Client): (r: Client)
    ensures Valid(c) ==> Valid(r) && !r.connected
    ensures !c.connected ==> r == c
    ensures r.handle == c.handle && r.connectionString == c.connectionString
  {
    if c.handle && c.connected then c.(connected := false) else c
  }

  /**
   * `send_telemetry`: false without sending when not connected or without
   * a handle; otherwise the payload must encode as JSON and `send_message`
   * must not raise (`sent`).
   */
  function SendTelemetry(c: Client, data: Json, sent: bool): (r: bool)
    ensures r ==> c.connected && c.handle && Encodable(data)
    ensures c.connected && c.handle && Encodable(data) ==> (r <==> sent)
  {
    c.connected && c.handle && Encodable(data) && sent
  }

  /** One `send_response` call: a status and a payload. */
  datatype MethodResponse = MethodResponse(status: int, payload: Json)

  function ErrorPayload(message: string): Json {
    JObj([("error", JStr(message))])
  }

  /**
   * `_handle_method_request`: the responses it sends, in order. The payload
   * passed to the callback is the request's, or {} when that is falsy.
   * `sendError` is the exception, if any, that sending the 200 response
   * raises.
   */
  function HandleMethodRequest(name: string, payload: Json, callback: Option<(string, Json) -> CallbackResult>,
                               sendError: Option<string>): (r: seq<MethodResponse>)
    ensures 1 <= |r| <= 2
    ensures r[|r| - 1].status in {200, 404, 500}
    ensures callback.None? ==> r == [MethodResponse(404, ErrorPayload("No handler registered"))]
  {
    var arg := if Truthy(payload) then payload else JObj([]);
    match callback
    case None => [MethodResponse(404, ErrorPayload("No handler registered"))]
    case Some(f) =>
      match f(name, arg)
      case Raises(message) => [MethodResponse(500, ErrorPayload(message))]
      case Returns(response) =>
        if response == JNull then [MethodResponse(404, ErrorPayload("No handler registered"))]
        else
          match sendError
          case None => [MethodResponse(200, response)]
          case Some(message) => [MethodResponse(200, response), MethodResponse(500, ErrorPayload(message))]
  }

  /**
   * The status a direct method ends with: 500 when the callback raises,
   * 200 with the callback's value when it returns one and the response goes
   * out (a 500 follows when sending it fails), 404 when no callback is
   * registered or it returns None.
   */
  lemma MethodStatus(name: string, payload: Json, callback: Option<(string, Json) -> CallbackResult>,
                     sendError: Option<string>)
    ensures var arg := if Truthy(payload) then payload else JObj([]);
      var r := HandleMethodRequest(name, payload, callback, sendError);
      && (r[0].status == 200 <==> callback.Some? && callback.value(name, arg).Returns? && callback.value(name, arg).value != JNull)
      && (r[0].status == 200 ==> r[0].payload == callback.value(name, arg).value)
      && (r[|r| - 1].status == 500 <==>
            callback.Some? && (callback.value(name, arg).Raises? || (callback.value(name, arg).value != JNull && sendError.Some?)))
      && (r[|r| - 1].status == 404 <==>
            callback.None? || (callback.value(name, arg).Returns? && callback.value(name, arg).value == JNull))
      && (|r| == 2 <==> r[0].status == 200 && sendError.Some?)
  {
  }

  /**
   * `get_client_info`: provider, status mirroring the connected flag, and
   * the connection string up to its first ';' ("unknown" when it is falsy).
   * A truthy connection string that is not text makes `.split` raise (None).
   */
  function ClientInfo(c: Client): (r: Option<Dict.Dict<string>>)
    ensures c.connectionString.JStr? || !Truthy(c.connectionString) <==> r.Some?
    ensures r.Some? ==> Dict.Get(r.value, "provider") == Some("azure")
    ensures r.Some? ==> Dict.Get(r.value, "status") == Some(if c.connected then "connected" else "disconnected")
    ensures r.Some? && !Truthy(c.connectionString) ==> Dict.Get(r.value, "connection_id") == Some("unknown")
    ensures r.Some? && Truthy(c.connectionString) ==>
      var s := c.connectionString.s;
      exists id :: Dict.Get(r.value, "connection_id") == Some(id) && id <= s && ';' !in id && (id == s || s[|id|] == ';')
  {
    var status := if c.connected then "connected" else "disconnected";
    if !Truthy(c.connectionString) then
      var info := [("provider", "azure"), ("status", status), ("connection_id", "unknown")];
      Dict.GetAt(info, 0);
      Dict.GetAt(info, 1);
      Dict.GetAt(info, 2);
      Some(info)
    else
      match c.connectionString
      case JStr(s) =>
        var id := Text.Split(s, ';')[0];
        Text.SplitHead(s, ';');
        var info := [("provider", "azure"), ("status", status), ("connection_id", id)];
        Dict.GetAt(info, 0);
        Dict.GetAt(info, 1);
        Dict.GetAt(info, 2);
        assert id == s || s[|id|] == ';' by {
          if |id| == |s| { assert id == s[..|id|]; }
        }
        Some(info)
      case _ => None
  }
}

=== FILE: backoff.dfy ===
/**
 * The reconnect loop both provider clients share: up to `max_retries`
 * connection attempts, numbered from 1, stopping at the first success, with
 * an exponential wait of 2.0 * 2^(n-1) seconds after every failed attempt n,
 * the last one included. The random jitter added to each wait and the sleep
 * itself are not modelled; the loop records the base delays it would wait.
 */
module Backoff {

  /** 2^n. */
  function Pow2(n: nat): (r: nat)
    ensures r >= 1
  {
    if n == 0 then 1 else 2 * Pow2(n - 1)
  }

  /** The `base_delay` of both clients, in seconds. */
  const BaseDelay: nat := 2

  /** The wait, before jitter, after failed attempt `attempt` (counted from 1). */
  function DelayAfter(attempt: nat): (d: nat)
    requires attempt >= 1
    ensures d >= BaseDelay
  {
    BaseDelay * Pow2(attempt - 1)
  }

  /**
   * What a reconnect loop did: the client state it ended in, whether it
   * succeeded, the result of each attempt in order, and the waits it took.
   */
  datatype Retried<S> = Retried(state: S, ok: bool, outcomes: seq<bool>, delays: seq<nat>)

  /**
   * The loop from attempt `k` on. `step(s, k)` is one `connect()` call made
   * as attempt `k` from client state `s`: the state after it and its result.
   */
  function RetryFrom<S>(s: S, step: (S, nat) -> (S, bool), k: nat, maxRetries: int): (r: Retried<S>)
    requires k >= 1
    ensures |r.outcomes| <= if maxRetries - k + 1 > 0 then maxRetries - k + 1 else 0
    ensures r.ok <==> |r.outcomes| > 0 && r.outcomes[|r.outcomes| - 1]
    ensures forall i | 0 <= i < |r.outcomes| - 1 :: !r.outcomes[i]
    ensures !r.ok ==> |r.outcomes| == if maxRetries - k + 1 > 0 then maxRetries - k + 1 else 0
    ensures |r.delays| == if r.ok then |r.outcomes| - 1 else |r.outcomes|
    ensures forall i | 0 <= i < |r.delays| :: r.delays[i] == DelayAfter(k + i)
    decreases if maxRetries - k + 1 > 0 then maxRetries - k + 1 else 0
  {
    if k > maxRetries then Retried(s, false, [], [])
    else
      var (s1, ok) := step(s, k);
      if ok then Retried(s1, true, [true], [])
      else
        var rest := RetryFrom(s1, step, k + 1, maxRetries);
        Retried(rest.state, rest.ok, [false] + rest.outcomes, [DelayAfter(k)] + rest.delays)
  }

  /**
   * `for attempt in range(1, max_retries + 1)`: at most `max_retries`
   * attempts (none when it is 0 or negative), true on the first success,
   * false once every attempt failed; the n-th wait is 2 * 2^(n-1), and a
   * failed last attempt is waited for too.
   */
  function Retry<S>(s: S, step: (S, nat) -> (S, bool), maxRetries: int): (r: Retried<S>)
    ensures |r.outcomes| <= if maxRetries > 0 then maxRetries else 0
    ensures r.ok <==> |r.outcomes| > 0 && r.outcomes[|r.outcomes| - 1]
    ensures forall i | 0 <= i < |r.outcomes| - 1 :: !r.outcomes[i]
    ensures !r.ok ==> |r.outcomes| == if maxRetries > 0 then maxRetries else 0
    ensures |r.delays| == if r.ok then |r.outcomes| - 1 else |r.outcomes|
    ensures forall i | 0 <= i < |r.delays| :: r.delays[i] == DelayAfter(i + 1)
  {
    RetryFrom(s, step, 1, maxRetries)
  }

  /**
   * When, in every state satisfying `inv`, the result of an attempt depends
   * only on its number (`good(k)`) and a failed attempt keeps `inv`, the
   * loop's outcomes are exactly those answers, in order: it succeeds if and
   * only if some attempt within the bound is good, and then it stops at
   * the first good one.
   */
  lemma RetryFromOracle<S>(s: S, step: (S, nat) -> (S, bool), good: nat -> bool, inv: S -> bool,
                          k: nat, maxRetries: int)
    requires k >= 1 && inv(s)
    requires forall s': S, j: nat | inv(s') :: step(s', j).1 == good(j) && (good(j) || inv(step(s', j).0))
    ensures var r := RetryFrom(s, step, k, maxRetries);
      && (forall i | 0 <= i < |r.outcomes| :: r.outcomes[i] == good(k + i))
      && (r.ok <==> exists j :: k <= j <= maxRetries && good(j))
  {
    RetryFromOutcomes(s, step, good, inv, k, maxRetries);
    var r := RetryFrom(s, step, k, maxRetries);
    if r.ok {
      assert r.outcomes[|r.outcomes| - 1] == good(k + |r.outcomes| - 1);
    } else {
      forall j | k <= j <= maxRetries ensures !good(j) {
        assert r.outcomes[j - k] == good(j);
      }
    }
  }

  /** Attempt k + i of the loop succeeds exactly when the oracle says attempt k + i is good. */
  lemma {:induction false} RetryFromOutcomes<S>(s: S, step: (S, nat) -> (S, bool), good: nat -> bool, inv: S -> bool,
                                                k: nat, maxRetries: int)
    requires k >= 1 && inv(s)
    requires forall s': S, j: nat | inv(s') :: step(s', j).1 == good(j) && (good(j) || inv(step(s', j).0))
    ensures forall i | 0 <= i < |RetryFrom(s, step, k, maxRetries).outcomes| ::
      RetryFrom(s, step, k, maxRetries).outcomes[i] == good(k + i)
    decreases if maxRetries - k + 1 > 0 then maxRetries - k + 1 else 0
  {
    if k <= maxRetries && !step(s, k).1 {
      var s1 := step(s, k).0;
      assert !good(k) && inv(s1);
      RetryFromOutcomes(s1, step, good, inv, k + 1, maxRetries);
      RetryFromFailure(s, step, k, maxRetries);
      OutcomesAfterFailure(RetryFrom(s, step, k, maxRetries).outcomes, RetryFrom(s1, step, k + 1, maxRetries).outcomes, good, k);
    }
  }

  /** A failed attempt k is recorded, then the loop goes on from attempt k + 1 in the state it left. */
  lemma RetryFromFailure<S>(s: S, step: (S, nat) -> (S, bool), k: nat, maxRetries: int)
    requires 1 <= k <= maxRetries && !step(s, k).1
    ensures RetryFrom(s, step, k, maxRetries).outcomes == [false] + RetryFrom(step(s, k).0, step, k + 1, maxRetries).outcomes
  {
  }

  /** A failed attempt k followed by outcomes that match the oracle from k + 1 on match it from k on. */
  lemma OutcomesAfterFailure(outcomes: seq<bool>, rest: seq<bool>, good: nat -> bool, k: nat)
    requires outcomes == [false] + rest && !good(k)
    requires forall i | 0 <= i < |rest| :: rest[i] == good(k + 1 + i)
    ensures forall i | 0 <= i < |outcomes| :: outcomes[i] == good(k + i)
  {
    forall i | 0 <= i < |outcomes| ensures outcomes[i] == good(k + i) {
      if i > 0 {
        assert outcomes[i] == rest[i - 1];
      }
    }
  }

  /** `Retry` with an attempt-numbered oracle: success exactly when some attempt 1..max_retries is good. */
  lemma RetryOracle<S>(s: S, step: (S, nat) -> (S, bool), good: nat -> bool, inv: S -> bool, maxRetries: int)
    requires inv(s)
    requires forall s': S, j: nat | inv(s') :: step(s', j).1 == good(j) && (good(j) || inv(step(s', j).0))
    ensures var r := Retry(s, step, maxRetries);
      && (forall i | 0 <= i < |r.outcomes| :: r.outcomes[i] == good(i + 1))
      && (r.ok <==> exists j :: 1 <= j <= maxRetries && good(j))
  {
    RetryFromOracle(s, step, good, inv, 1, maxRetries);
  }

  /** The waits of n failed attempts in a row: 2, 4, 8, ... */
  function Schedule(n: nat): (r: seq<nat>)
    ensures |r| == n
    ensures forall i | 0 <= i < n :: r[i] == DelayAfter(i + 1)
  {
    if n == 0 then [] else Schedule(n - 1) + [DelayAfter(n)]
  }

  function Sum(s: seq<nat>): nat {
    if |s| == 0 then 0 else Sum(s[..|s| - 1]) + s[|s| - 1]
  }

  /** A loop that fails all n attempts waits 2 * (2^n - 1) seconds in total, before jitter. */
  lemma {:induction false} TotalWait(n: nat)
    ensures Sum(Schedule(n)) == BaseDelay * (Pow2(n) - 1)
  {
    if n > 0 {
      TotalWait(n - 1);
      assert Schedule(n)[..n - 1] == Schedule(n - 1);
    }
  }

  /** Every failed run of the loop waits exactly the schedule for its attempts. */
  lemma FailedRetryWaits<S>(s: S, step: (S, nat) -> (S, bool), maxRetries: int)
    requires !Retry(s, step, maxRetries).ok
    ensures Retry(s, step, maxRetries).delays == Schedule(if maxRetries > 0 then maxRetries else 0)
  {
  }
}

=== FILE: config_loader.dfy ===
/**
 * The configuration loader (ConfigLoader): validation of a loaded JSON
 * configuration, dotted-path lookup, and the typed getters the rest of the
 * agent calls. The configuration is the top-level JSON object, kept as its
 * ordered entries.
 */
module ConfigLoader {
  import opened Wrappers
  import opened Json
  import opened PyConvert
  import Dict
  import Text

  type Config = Dict.Dict<Json>

  /**
   * Python's `key in container` on a JSON value: dict keys, list elements or
   * substrings; None for the TypeError other values raise.
   */
  function PyIn(key: string, container: Json): Option<bool> {
    match container
    case JObj(fields) => Some(key in Dict.Keys(fields))
    case JArr(items) => Some(JStr(key) in items)
    case JStr(s) => Some(Text.IsSubstring(key, s))
    case _ => None
  }

  /** The outcome of `_validate_config`: no exception, the ValueError naming what is missing, or another exception. */
  datatype Validation = Passed | MissingKeys(keys: seq<string>) | Crashed

  const MandatorySections: seq<(string, seq<string>)> := [
    ("iot_client", ["provider"]),
    ("offline_storage", ["type", "path"]),
    ("sensor", ["read_interval", "max_retries"]),
    ("logging", ["logging_level"])
  ]

  const AwsMandatory: seq<string> := ["endpoint", "client_id", "cert_path", "key_path"]
  const AzureMandatory: seq<string> := ["connection_string"]
  const UnknownProvider: string := "iot_client.provider (unknown provider)"
  const MissingPrefix: string := "Mandatory configuration keys missing: "

  /** The dotted names of the `keys` not in `section`'s value, in order; None when a membership test raises. */
  function KeysMissing(section: string, keys: seq<string>, value: Json): Option<seq<string>>
    decreases |keys|
  {
    if |keys| == 0 then Some([])
    else match (PyIn(keys[0], value), KeysMissing(section, keys[1..], value))
      case (Some(present), Some(rest)) =>
        Some((if present then [] else [section + "." + keys[0]]) + rest)
      case _ => None
  }

  /** The first loop of `_validate_config`: a missing section is named alone, else its missing keys. */
  function SectionsMissing(config: Config, sections: seq<(string, seq<string>)>): Option<seq<string>>
    decreases |sections|
  {
    if |sections| == 0 then Some([])
    else
      var (section, keys) := sections[0];
      var here :=
        if section !in Dict.Keys(config) then Some([section])
        else KeysMissing(section, keys, Dict.Get(config, section).value);
      match (here, SectionsMissing(config, sections[1..]))
      case (Some(h), Some(rest)) => Some(h + rest)
      case _ => None
  }

  /**
   * The provider block: each key must be present and truthy. Indexing a
   * list or string by a key that the membership test found raises.
   */
  function FalsyKeys(prefix: string, keys: seq<string>, conf: Json): Option<seq<string>>
    decreases |keys|
  {
    if |keys| == 0 then Some([])
    else
      var here :=
        match PyIn(keys[0], conf)
        case None => None
        case Some(false) => Some([prefix + keys[0]])
        case Some(true) =>
          if conf.JObj? then
            Some(if Truthy(Dict.Get(conf.fields, keys[0]).value) then [] else [prefix + keys[0]])
          else None;
      match (here, FalsyKeys(prefix, keys[1..], conf))
      case (Some(h), Some(rest)) => Some(h + rest)
      case _ => None
  }

  /** `d.get(key, default)` on a dict. */
  function GetOr(fields: Dict.Dict<Json>, key: string, default: Json): Json {
    Dict.Get(fields, key).GetOr(default)
  }

  /** The provider-specific part of `_validate_config`, run when `iot_client` is present. */
  function ProviderMissing(iotClient: Json): Option<seq<string>> {
    match iotClient
    case JObj(fields) =>
      var provider := Text.Lower(PyStr(GetOr(fields, "provider", JStr(""))));
      if provider == "aws" then FalsyKeys("iot_client.aws.", AwsMandatory, GetOr(fields, "aws", JObj([])))
      else if provider == "azure" then FalsyKeys("iot_client.azure.", AzureMandatory, GetOr(fields, "azure", JObj([])))
      else Some([UnknownProvider])
    case _ => None  // `.get` on a non-dict raises AttributeError
  }

  /** `_validate_config`. */
  function ValidateConfig(config: Config): Validation {
    var base := SectionsMissing(config, MandatorySections);
    var provider :=
      if "iot_client" in Dict.Keys(config) then ProviderMissing(Dict.Get(config, "iot_client").value)
      else Some([]);
    match (base, provider)
    case (Some(b), Some(p)) => if b + p == [] then Passed else MissingKeys(b + p)
    case _ => Crashed
  }

  /** The text of the ValueError `_validate_config` raises. */
  function MissingMessage(keys: seq<string>): (msg: string)
    ensures MissingPrefix <= msg
    ensures forall i | 0 <= i < |keys| :: Text.IsSubstring(keys[i], msg[|MissingPrefix|..])
  {
    var msg := MissingPrefix + Text.Join(keys, ", ");
    assert msg[|MissingPrefix|..] == Text.Join(keys, ", ");
    forall i | 0 <= i < |keys| ensures Text.IsSubstring(keys[i], Text.Join(keys, ", ")) {
      Text.JoinContains(keys, ", ", i);
    }
    msg
  }

  /** Every key the `key in value` test finds. */
  predicate KeysPresent(keys: seq<string>, value: Json) {
    forall j | 0 <= j < |keys| :: PyIn(keys[j], value) == Some(true)
  }

  /** Every mandatory section is there and holds its mandatory keys. */
  predicate SectionsComplete(config: Config, sections: seq<(string, seq<string>)>) {
    forall i | 0 <= i < |sections| ::
      sections[i].0 in Dict.Keys(config) &&
      KeysPresent(sections[i].1, Dict.Get(config, sections[i].0).value)
  }

  /** Every listed key is in the provider object with a truthy value. */
  predicate KeysTruthy(keys: seq<string>, conf: Json) {
    conf.JObj? &&
    forall j | 0 <= j < |keys| ::
      keys[j] in Dict.Keys(conf.fields) && Truthy(Dict.Get(conf.fields, keys[j]).value)
  }

  /** The provider is aws or azure (any case) and its block carries every credential. */
  predicate ProviderComplete(iotClient: Json) {
    iotClient.JObj? &&
    var fields := iotClient.fields;
    var provider := Text.Lower(PyStr(GetOr(fields, "provider", JStr(""))));
    (provider == "aws" && KeysTruthy(AwsMandatory, GetOr(fields, "aws", JObj([])))) ||
    (provider == "azure" && KeysTruthy(AzureMandatory, GetOr(fields, "azure", JObj([]))))
  }

  lemma {:induction false} KeysMissingNone(section: string, keys: seq<string>, value: Json)
    ensures KeysMissing(section, keys, value) == Some([]) <==> KeysPresent(keys, value)
    decreases |keys|
  {
    if |keys| > 0 {
      KeysMissingNone(section, keys[1..], value);
      match PyIn(keys[0], value) {
        case None =>
        case Some(present) =>
          match KeysMissing(section, keys[1..], value) {
            case None =>
            case Some(rest) =>
              var h: seq<string> := if present then [] else [section + "." + keys[0]];
              assert h + rest == [] <==> present && rest == [] by {
                if h + rest == [] { assert |h| == 0; assert h + rest == rest; }
              }
          }
      }
      assert KeysPresent(keys, value) <==>
        PyIn(keys[0], value) == Some(true) && KeysPresent(keys[1..], value) by {
        if PyIn(keys[0], value) == Some(true) && KeysPresent(keys[1..], value) {
          forall j | 0 <= j < |keys| ensures PyIn(keys[j], value) == Some(true) {
            if j > 0 { assert keys[j] == keys[1..][j - 1]; }
          }
        }
      }
    }
  }

  lemma {:induction false} SectionsMissingNone(config: Config, sections: seq<(string, seq<string>)>)
    ensures SectionsMissing(config, sections) == Some([]) <==> SectionsComplete(config, sections)
    decreases |sections|
  {
    if |sections| > 0 {
      SectionsMissingNone(config, sections[1..]);
      KeysMissingNone(sections[0].0, sections[0].1, GetOr(config, sections[0].0, JNull));
      assert SectionsComplete(config, sections) <==>
        (sections[0].0 in Dict.Keys(config) &&
         KeysPresent(sections[0].1, Dict.Get(config, sections[0].0).value) &&
         SectionsComplete(config, sections[1..])) by {
        if sections[0].0 in Dict.Keys(config) &&
           KeysPresent(sections[0].1, Dict.Get(config, sections[0].0).value) &&
           SectionsComplete(config, sections[1..]) {
          forall i | 1 <= i < |sections|
            ensures sections[i].0 in Dict.Keys(config) &&
              KeysPresent(sections[i].1, Dict.Get(config, sections[i].0).value)
          {
            assert sections[i] == sections[1..][i - 1];
          }
        }
      }
    }
  }

  lemma {:induction false} FalsyKeysNone(prefix: string, keys: seq<string>, conf: Json)
    requires conf.JObj?
    ensures FalsyKeys(prefix, keys, conf) == Some([]) <==> KeysTruthy(keys, conf)
    decreases |keys|
  {
    if |keys| > 0 {
      FalsyKeysNone(prefix, keys[1..], conf);
      var present := keys[0] in Dict.Keys(conf.fields) && Truthy(Dict.Get(conf.fields, keys[0]).value);
      var here := if present then [] else [prefix + keys[0]];
      assert FalsyKeys(prefix, keys, conf) == match FalsyKeys(prefix, keys[1..], conf)
        case Some(rest) => Some(here + rest)
        case None => None;
      match FalsyKeys(prefix, keys[1..], conf) {
        case None =>
        case Some(rest) =>
          assert FalsyKeys(prefix, keys, conf) == Some(here + rest);
          assert here + rest == [] <==> here == [] && rest == [];
      }
      assert FalsyKeys(prefix, keys, conf) == Some([]) <==> present && FalsyKeys(prefix, keys[1..], conf) == Some([]);
      assert KeysTruthy(keys, conf) <==> present && KeysTruthy(keys[1..], conf) by {
        if present && KeysTruthy(keys[1..], conf) {
          forall j | 1 <= j < |keys|
            ensures keys[j] in Dict.Keys(conf.fields) && Truthy(Dict.Get(conf.fields, keys[j]).value)
          {
            assert keys[j] == keys[1..][j - 1];
          }
        }
      }
    }
  }

  /** A provider block that is not an object fails the truthiness checks, or raises. */
  lemma {:induction false} FalsyKeysNonObject(prefix: string, keys: seq<string>, conf: Json)
    requires !conf.JObj? && |keys| > 0
    ensures FalsyKeys(prefix, keys, conf) != Some([])
    decreases |keys|
  {
  }

  /**
   * A configuration passes validation exactly when every mandatory section
   * and key is present and the provider is aws or azure with all its
   * credentials present and non-empty.
   */
  lemma ValidateConfigComplete(config: Config)
    ensures ValidateConfig(config) == Passed <==>
      SectionsComplete(config, MandatorySections) &&
      ProviderComplete(Dict.Get(config, "iot_client").GetOr(JNull))
  {
    SectionsMissingNone(config, MandatorySections);
    if SectionsComplete(config, MandatorySections) {
      assert MandatorySections[0].0 == "iot_client";
      assert "iot_client" in Dict.Keys(config);
    }
    var ic := Dict.Get(config, "iot_client").GetOr(JNull);
    ProviderMissingNone(ic);
  }

  /** The provider checks report nothing exactly when the provider block is complete. */
  lemma ProviderMissingNone(ic: Json)
    ensures ProviderMissing(ic) == Some([]) <==> ProviderComplete(ic)
  {
    if ic.JObj? {
      var fields := ic.fields;
      var aws := GetOr(fields, "aws", JObj([]));
      var azure := GetOr(fields, "azure", JObj([]));
      if aws.JObj? { FalsyKeysNone("iot_client.aws.", AwsMandatory, aws); }
      else { FalsyKeysNonObject("iot_client.aws.", AwsMandatory, aws); }
      if azure.JObj? { FalsyKeysNone("iot_client.azure.", AzureMandatory, azure); }
      else { FalsyKeysNonObject("iot_client.azure.", AzureMandatory, azure); }
    }
  }

  /** A configuration without the `iot_client` section is reported with it named first. */
  lemma MissingIotClientReported(config: Config)
    requires "iot_client" !in Dict.Keys(config)
    ensures ValidateConfig(config).MissingKeys? || ValidateConfig(config).Crashed?
    ensures ValidateConfig(config).MissingKeys? ==> ValidateConfig(config).keys[0] == "iot_client"
  {
  }

  /** An object with an unrecognised provider is always rejected, naming the provider. */
  lemma UnknownProviderReported(config: Config)
    requires "iot_client" in Dict.Keys(config)
    requires Dict.Get(config, "iot_client").value.JObj?
    requires var p := Text.Lower(PyStr(GetOr(Dict.Get(config, "iot_client").value.fields, "provider", JStr(""))));
      p != "aws" && p != "azure"
    ensures ValidateConfig(config) != Passed
    ensures ValidateConfig(config).MissingKeys? ==> UnknownProvider in ValidateConfig(config).keys
  {
  }

  /** A key the membership test does not find is named, as `section.key`, in the keys reported missing. */
  lemma {:induction false} KeysMissingListed(section: string, keys: seq<string>, value: Json, j: nat)
    requires j < |keys| && PyIn(keys[j], value) == Some(false)
    requires KeysMissing(section, keys, value).Some?
    ensures Path(section, keys[j]) in KeysMissing(section, keys, value).value
    decreases |keys|
  {
    if j > 0 {
      assert keys[1..][j - 1] == keys[j];
      KeysMissingListed(section, keys[1..], value, j - 1);
    }
  }

  /** A missing section is named alone; a present one has each of its missing keys named. */
  lemma {:induction false} SectionsMissingListed(config: Config, sections: seq<(string, seq<string>)>, i: nat)
    requires i < |sections| && SectionsMissing(config, sections).Some?
    ensures sections[i].0 !in Dict.Keys(config) ==> sections[i].0 in SectionsMissing(config, sections).value
    ensures sections[i].0 in Dict.Keys(config) ==>
      forall j | 0 <= j < |sections[i].1| && PyIn(sections[i].1[j], Dict.Get(config, sections[i].0).value) == Some(false) ::
        Path(sections[i].0, sections[i].1[j]) in SectionsMissing(config, sections).value
    decreases |sections|
  {
    if i > 0 {
      assert sections[1..][i - 1] == sections[i];
      SectionsMissingListed(config, sections[1..], i - 1);
    } else if sections[0].0 in Dict.Keys(config) {
      forall j | 0 <= j < |sections[0].1| && PyIn(sections[0].1[j], Dict.Get(config, sections[0].0).value) == Some(false)
        ensures Path(sections[0].0, sections[0].1[j]) in SectionsMissing(config, sections).value
      {
        KeysMissingListed(sections[0].0, sections[0].1, Dict.Get(config, sections[0].0).value, j);
      }
    }
  }

  /** A credential that is absent or falsy is named, after `prefix`, in the keys reported. */
  lemma {:induction false} FalsyKeysListed(prefix: string, keys: seq<string>, conf: Json, j: nat)
    requires conf.JObj? && j < |keys|
    requires !(keys[j] in Dict.Keys(conf.fields) && Truthy(Dict.Get(conf.fields, keys[j]).value))
    requires FalsyKeys(prefix, keys, conf).Some?
    ensures prefix + keys[j] in FalsyKeys(prefix, keys, conf).value
    decreases |keys|
  {
    if j > 0 {
      assert keys[1..][j - 1] == keys[j];
      FalsyKeysListed(prefix, keys[1..], conf, j - 1);
    }
  }

  /**
   * Unless validation raised some other exception, every missing section
   * and every missing `section.key` is named in the ValueError.
   */
  lemma ValidateListsMissingSections(config: Config, i: nat)
    requires i < |MandatorySections|
    ensures var v := ValidateConfig(config);
      var (section, keys) := MandatorySections[i];
      !v.Crashed? ==>
        && (section !in Dict.Keys(config) ==> v.MissingKeys? && section in v.keys)
        && (section in Dict.Keys(config) ==>
              forall j | 0 <= j < |keys| && PyIn(keys[j], Dict.Get(config, section).value) == Some(false) ::
                v.MissingKeys? && Path(section, keys[j]) in v.keys)
  {
    if !ValidateConfig(config).Crashed? {
      SectionsMissingListed(config, MandatorySections, i);
    }
  }

  /**
   * Unless validation raised some other exception, each absent or falsy
   * credential of the chosen provider is named as `iot_client.<provider>.<key>`,
   * and an unknown provider is named as such.
   */
  lemma ValidateListsProviderGaps(config: Config, fields: Dict.Dict<Json>)
    requires Dict.Get(config, "iot_client") == Some(JObj(fields))
    ensures var v := ValidateConfig(config);
      var provider := Text.Lower(PyStr(GetOr(fields, "provider", JStr(""))));
      var aws := GetOr(fields, "aws", JObj([]));
      var azure := GetOr(fields, "azure", JObj([]));
      !v.Crashed? ==>
        && (provider == "aws" && aws.JObj? ==>
              forall j | 0 <= j < |AwsMandatory| &&
                !(AwsMandatory[j] in Dict.Keys(aws.fields) && Truthy(Dict.Get(aws.fields, AwsMandatory[j]).value)) ::
                v.MissingKeys? && "iot_client.aws." + AwsMandatory[j] in v.keys)
        && (provider == "azure" && azure.JObj? ==>
              forall j | 0 <= j < |AzureMandatory| &&
                !(AzureMandatory[j] in Dict.Keys(azure.fields) && Truthy(Dict.Get(azure.fields, AzureMandatory[j]).value)) ::
                v.MissingKeys? && "iot_client.azure." + AzureMandatory[j] in v.keys)
        && (provider != "aws" && provider != "azure" ==> v.MissingKeys? && UnknownProvider in v.keys)
  {
    var v := ValidateConfig(config);
    var provider := Text.Lower(PyStr(GetOr(fields, "provider", JStr(""))));
    var aws := GetOr(fields, "aws", JObj([]));
    var azure := GetOr(fields, "azure", JObj([]));
    assert "iot_client" in Dict.Keys(config);
    if !v.Crashed? {
      if provider == "aws" && aws.JObj? {
        forall j | 0 <= j < |AwsMandatory| &&
          !(AwsMandatory[j] in Dict.Keys(aws.fields) && Truthy(Dict.Get(aws.fields, AwsMandatory[j]).value))
          ensures v.MissingKeys? && "iot_client.aws." + AwsMandatory[j] in v.keys
        {
          FalsyKeysListed("iot_client.aws.", AwsMandatory, aws, j);
        }
      }
      if provider == "azure" && azure.JObj? {
        forall j | 0 <= j < |AzureMandatory| &&
          !(AzureMandatory[j] in Dict.Keys(azure.fields) && Truthy(Dict.Get(azure.fields, AzureMandatory[j]).value))
          ensures v.MissingKeys? && "iot_client.azure." + AzureMandatory[j] in v.keys
        {
          FalsyKeysListed("iot_client.azure.", AzureMandatory, azure, j);
        }
      }
    }
  }

  /**
   * `load_config` on the parsed file: a valid object replaces the stored
   * configuration and is returned; a missing, unreadable or invalid file
   * returns {} and keeps the previous configuration.
   */
  function LoadConfig(current: Config, file: Option<Json>): (r: (Config, Config))
    ensures r.1 == [] || r.1 == r.0
    ensures r.1 != [] ==> ValidateConfig(r.0) == Passed
    ensures r.1 == [] ==> r.0 == current || ValidateConfig(r.0) == Passed
    ensures (file.Some? && file.value.JObj? && ValidateConfig(file.value.fields) == Passed) ==> r == (file.value.fields, file.value.fields)
    ensures !(file.Some? && file.value.JObj? && ValidateConfig(file.value.fields) == Passed) ==> r == (current, [])
  {
    match file
    case Some(JObj(fields)) =>
      if ValidateConfig(fields) == Passed then (fields, fields) else (current, [])
    case _ => (current, [])  // a non-object always fails validation with some exception
  }

  /**
   * Loading is idempotent: loading the same file again changes nothing more,
   * whether the first load accepted it or kept the previous configuration.
   */
  lemma LoadConfigTwice(current: Config, file: Option<Json>)
    ensures LoadConfig(LoadConfig(current, file).0, file) == LoadConfig(current, file)
  {
  }

  /** The walk of `get_nested_value`: each step needs a dict holding the key. */
  function Walk(value: Json, keys: seq<string>, default: Json): Json
    decreases |keys|
  {
    if |keys| == 0 then value
    else match value
      case JObj(fields) =>
        if keys[0] in Dict.Keys(fields) then Walk(Dict.Get(fields, keys[0]).value, keys[1..], default)
        else default
      case _ => default
  }

  /** `get_nested_value(path, default)`. */
  function GetNestedValue(config: Config, path: string, default: Json): Json {
    Walk(JObj(config), Text.Split(path, '.'), default)
  }

  /** The value at `section.key`, by two plain dict lookups. */
  function Lookup(config: Config, section: string, key: string): Option<Json> {
    match Dict.Get<Json>(config, section)
    case Some(JObj(fields)) => Dict.Get(fields, key)
    case _ => None
  }

  /** A dotted path names the nested keys between its dots, whatever their number. */
  lemma NestedPath(config: Config, keys: seq<string>, default: Json)
    requires |keys| > 0
    requires forall i | 0 <= i < |keys| :: '.' !in keys[i]
    ensures GetNestedValue(config, Text.Join(keys, "."), default) == Walk(JObj(config), keys, default)
  {
    Text.SplitJoin(keys, '.');
  }

  /** The dotted path of `key` inside `section`. */
  function Path(section: string, key: string): string {
    section + "." + key
  }

  /** A two-part path is the value two lookups find, or the default when either is missing. */
  lemma NestedTwoLevel(config: Config, section: string, key: string, default: Json)
    requires '.' !in section && '.' !in key
    ensures GetNestedValue(config, Path(section, key), default) == Lookup(config, section, key).GetOr(default)
  {
    Text.SplitPrepend(section, '.', key);
    assert Text.Split(key, '.') == [key];
    var keys := [section, key];
    assert Text.Split(Path(section, key), '.') == keys;
    assert keys[1..] == [key] && [key][1..] == [];
    match Dict.Get<Json>(config, section) {
      case None =>
      case Some(v) =>
        assert Walk(JObj(config), keys, default) == Walk(v, [key], default);
        match v {
          case JObj(fields) =>
            assert Walk(v, [key], default) == if key in Dict.Keys(fields) then Dict.Get(fields, key).value else default;
          case _ =>
        }
    }
  }

  /** The value `get_nested_value("section.key", default)` finds: the plain lookup, or `default`. */
  function Setting(config: Config, section: string, key: string, default: Json): (r: Json)
    requires '.' !in section && '.' !in key
    ensures r == Lookup(config, section, key).GetOr(default)
  {
    NestedTwoLevel(config, section, key, default);
    GetNestedValue(config, Path(section, key), default)
  }

  /** `get_cloud_provider`: lower-cased, "" when unset. */
  function GetCloudProvider(config: Config): (r: string)
    ensures forall i | 0 <= i < |r| :: !Text.IsUpper(r[i])
    ensures Lookup(config, "iot_client", "provider").None? ==> r == ""
    ensures Lookup(config, "iot_client", "provider").Some? ==>
      r == Text.Lower(PyStr(Lookup(config, "iot_client", "provider").value))
    ensures Lookup(config, "iot_client", "provider") == Some(JStr("aws")) ==> r == "aws"
  {
    var v := Setting(config, "iot_client", "provider", JStr(""));
    Text.LowerNoUpper(PyStr(v));
    Text.LowerUnchanged("aws");
    Text.Lower(PyStr(v))
  }

  /** `get_offline_storage_path`: a truthy string; anything else raises (None). */
  function GetOfflineStoragePath(config: Config): (r: Option<string>)
    ensures r.Some? ==> |r.value| > 0 && Lookup(config, "offline_storage", "path") == Some(JStr(r.value))
    ensures Lookup(config, "offline_storage", "path").None? ==> r.None?
    ensures var v := Lookup(config, "offline_storage", "path");
      v.Some? && v.value.JStr? && v.value.s != "" ==> r == Some(v.value.s)
  {
    match Setting(config, "offline_storage", "path", JNull)
    case JStr(s) => if s != "" then Some(s) else None
    case _ => None  // falsy: ValueError; truthy non-string: Path() raises TypeError
  }

  /** `get_offline_storage_type`: lower-cased, "sqlite" when unset. */
  function GetOfflineStorageType(config: Config): (r: string)
    ensures forall i | 0 <= i < |r| :: !Text.IsUpper(r[i])
    ensures Lookup(config, "offline_storage", "type").None? ==> r == "sqlite"
    ensures Lookup(config, "offline_storage", "type").Some? ==>
      r == Text.Lower(PyStr(Lookup(config, "offline_storage", "type").value))
  {
    var v := Setting(config, "offline_storage", "type", JStr("sqlite"));
    Text.LowerNoUpper(PyStr(v));
    Text.LowerUnchanged("sqlite");
    Text.Lower(PyStr(v))
  }

  /** `get_log_level`: upper-cased, "INFO" when unset. */
  function GetLogLevel(config: Config): (r: string)
    ensures forall i | 0 <= i < |r| :: !Text.IsLower(r[i])
    ensures Lookup(config, "logging", "logging_level").None? ==> r == "INFO"
    ensures Lookup(config, "logging", "logging_level").Some? ==>
      r == Text.Upper(PyStr(Lookup(config, "logging", "logging_level").value))
  {
    var v := Setting(config, "logging", "logging_level", JStr("INFO"));
    Text.UpperNoLower(PyStr(v));
    Text.UpperUnchanged("INFO");
    Text.Upper(PyStr(v))
  }

  /** `get_log_file`: the configured value, None when unset. */
  function GetLogFile(config: Config): (r: Json)
    ensures r == Lookup(config, "logging", "log_file").GetOr(JNull)
  {
    Setting(config, "logging", "log_file", JNull)
  }

  /** Python's max() on two integers. */
  function Max(a: int, b: int): int { if a < b then b else a }

  /** `get_read_interval`: int() of the value, at least 5, 300 when unset; None when int() raises. */
  function GetReadInterval(config: Config): (r: Option<int>)
    ensures r.Some? ==> r.value >= 5
    ensures Lookup(config, "sensor", "read_interval").None? ==> r == Some(300)
    ensures forall i | i >= 5 :: Lookup(config, "sensor", "read_interval") == Some(JInt(i)) ==> r == Some(i)
    ensures forall i | i < 5 :: Lookup(config, "sensor", "read_interval") == Some(JInt(i)) ==> r == Some(5)
    ensures Lookup(config, "sensor", "read_interval").Some? ==>
      (r.None? <==> IntOf(Lookup(config, "sensor", "read_interval").value).None?)
    ensures Lookup(config, "sensor", "read_interval").Some? && IntOf(Lookup(config, "sensor", "read_interval").value).Some? ==>
      r == Some(Max(5, IntOf(Lookup(config, "sensor", "read_interval").value).value))
  {
    match IntOf(Setting(config, "sensor", "read_interval", JInt(300)))
    case Some(i) => Some(Max(5, i))
    case None => None
  }

  /** `get_max_retries`: int() of the value, at least 0, 0 when unset; None when int() raises. */
  function GetMaxRetries(config: Config): (r: Option<int>)
    ensures r.Some? ==> r.value >= 0
    ensures Lookup(config, "sensor", "max_retries").None? ==> r == Some(0)
    ensures forall i | i >= 0 :: Lookup(config, "sensor", "max_retries") == Some(JInt(i)) ==> r == Some(i)
    ensures forall i | i < 0 :: Lookup(config, "sensor", "max_retries") == Some(JInt(i)) ==> r == Some(0)
    ensures Lookup(config, "sensor", "max_retries").Some? ==>
      (r.None? <==> IntOf(Lookup(config, "sensor", "max_retries").value).None?)
    ensures Lookup(config, "sensor", "max_retries").Some? && IntOf(Lookup(config, "sensor", "max_retries").value).Some? ==>
      r == Some(Max(0, IntOf(Lookup(config, "sensor", "max_retries").value).value))
  {
    match IntOf(Setting(config, "sensor", "max_retries", JInt(0)))
    case Some(i) => Some(Max(0, i))
    case None => None
  }

  /** A read interval written as text, e.g. "60" or "-3", reads back as that integer, clamped to 5. */
  lemma ReadIntervalOfText(config: Config, i: int)
    requires Lookup(config, "sensor", "read_interval") == Some(JStr(Text.IntToString(i)))
    ensures GetReadInterval(config) == Some(Max(5, i))
  {
    Text.ParseIntOfString(i);
  }

  /** A retry count written as text reads back as that integer, clamped to 0. */
  lemma MaxRetriesOfText(config: Config, i: int)
    requires Lookup(config, "sensor", "max_retries") == Some(JStr(Text.IntToString(i)))
    ensures GetMaxRetries(config) == Some(Max(0, i))
  {
    Text.ParseIntOfString(i);
  }

  /** `get_sensor_config`: the `sensor` section, {} when unset. */
  function GetSensorConfig(config: Config): (r: Json)
    ensures r == Dict.Get(config, "sensor").GetOr(JObj([]))
  {
    assert Text.Split("sensor", '.') == ["sensor"];
    assert ["sensor"][1..] == [];
    GetNestedValue(config, "sensor", JObj([]))
  }

  /** `get_provider_config(provider)`: the `iot_client.<provider>` block, {} when unset. */
  function GetProviderConfig(config: Config, provider: Option<string>): (r: Json)
    ensures var p := provider.GetOr(GetCloudProvider(config));
      '.' !in p ==> r == Lookup(config, "iot_client", p).GetOr(JObj([]))
  {
    var p := match provider case Some(s) => s case None => GetCloudProvider(config);
    assert '.' !in p ==> (GetNestedValue(config, Path("iot_client", p), JObj([])) ==
      Lookup(config, "iot_client", p).GetOr(JObj([]))) by {
      if '.' !in p { NestedTwoLevel(config, "iot_client", p, JObj([])); }
    }
    GetNestedValue(config, Path("iot_client", p), JObj([]))
  }
}

=== FILE: dict.dfy ===
/**
 * Python dicts as ordered association lists. Every dict the agent builds has
 * distinct keys; `Get` reads the LAST entry for a key, which is also what
 * json.loads keeps when a text repeats a key.
 */
module Dict {
  import opened Wrappers

  type Dict<V> = seq<(string, V)>

  function Keys<V>(d: Dict<V>): set<string> {
    set i | 0 <= i < |d| :: d[i].0
  }

  predicate UniqueKeys<V>(d: Dict<V>) {
    forall i, j | 0 <= i < j < |d| :: d[i].0 != d[j].0
  }

  /** `d.get(k)`: the value stored under `k`, if any. */
  function Get<V>(d: Dict<V>, k: string): (r: Option<V>)
    ensures r.Some? <==> k in Keys(d)
  {
    if |d| == 0 then None
    else if d[|d| - 1].0 == k then Some(d[|d| - 1].1)
    else
      assert Keys(d) == Keys(d[..|d| - 1]) + {d[|d| - 1].0};
      Get(d[..|d| - 1], k)
  }

  /** Rewrites the value of every entry whose key is `k`, in place. */
  function Replace<V>(d: Dict<V>, k: string, v: V): (r: Dict<V>)
    ensures |r| == |d|
    ensures forall i | 0 <= i < |d| :: r[i].0 == d[i].0
    ensures forall i | 0 <= i < |d| :: r[i].1 == (if d[i].0 == k then v else d[i].1)
  {
    if |d| == 0 then []
    else
      var last := d[|d| - 1];
      Replace(d[..|d| - 1], k, v) + [if last.0 == k then (k, v) else last]
  }

  /** `d[k] = v`: an existing key keeps its position, a new key goes last. */
  function Put<V>(d: Dict<V>, k: string, v: V): Dict<V> {
    if k in Keys(d) then Replace(d, k, v) else d + [(k, v)]
  }

  /** `d.update(entries)`, entry by entry in order. */
  function PutAll<V>(d: Dict<V>, entries: Dict<V>): Dict<V>
    decreases |entries|
  {
    if |entries| == 0 then d
    else PutAll(Put(d, entries[0].0, entries[0].1), entries[1..])
  }

  /** `d` without any entry for `k` (`d.pop(k)` on a dict with distinct keys). */
  function Delete<V>(d: Dict<V>, k: string): (r: Dict<V>)
    ensures k !in Keys(r)
    ensures Keys(r) == Keys(d) - {k}
  {
    if |d| == 0 then []
    else
      var last := d[|d| - 1];
      assert Keys(d) == Keys(d[..|d| - 1]) + {last.0};
      var front := Delete(d[..|d| - 1], k);
      if last.0 == k then front
      else
        KeysAppend(front, [last]);
        KeysSingleton(last);
        front + [last]
  }

  lemma KeysSingleton<V>(e: (string, V))
    ensures Keys([e]) == {e.0}
  {
    assert [e][0].0 == e.0;
  }

  lemma KeysAppend<V>(a: Dict<V>, b: Dict<V>)
    ensures Keys(a + b) == Keys(a) + Keys(b)
  {
    forall k | k in Keys(a + b) ensures k in Keys(a) + Keys(b) {
      var i :| 0 <= i < |a + b| && (a + b)[i].0 == k;
      if i < |a| { assert a[i] == (a + b)[i]; } else { assert b[i - |a|] == (a + b)[i]; }
    }
    forall k | k in Keys(a) + Keys(b) ensures k in Keys(a + b) {
      if k in Keys(a) {
        var i :| 0 <= i < |a| && a[i].0 == k;
        assert (a + b)[i] == a[i];
      } else {
        var i :| 0 <= i < |b| && b[i].0 == k;
        assert (a + b)[|a| + i] == b[i];
      }
    }
  }

  /** A lookup in `a + b` is answered by `b` when `b` holds the key. */
  lemma {:induction false} GetAppend<V>(a: Dict<V>, b: Dict<V>, k: string)
    ensures Get(a + b, k) == if k in Keys(b) then Get(b, k) else Get(a, k)
    decreases |b|
  {
    if |b| == 0 {
      assert a + b == a;
    } else {
      var last := b[|b| - 1];
      assert (a + b)[..|a + b| - 1] == a + b[..|b| - 1];
      assert Keys(b) == Keys(b[..|b| - 1]) + {last.0} by {
        KeysAppend(b[..|b| - 1], [last]);
        assert b == b[..|b| - 1] + [last];
      }
      if last.0 != k {
        GetAppend(a, b[..|b| - 1], k);
      }
    }
  }

  /** In a dict with distinct keys, each entry's key reads that entry's value. */
  lemma {:induction false} GetAt<V>(d: Dict<V>, i: nat)
    requires UniqueKeys(d) && i < |d|
    ensures Get(d, d[i].0) == Some(d[i].1)
    decreases |d|
  {
    if i < |d| - 1 {
      var front := d[..|d| - 1];
      assert d[|d| - 1].0 != d[i].0;
      assert front[i] == d[i];
      assert UniqueKeys(front) by {
        forall a, b | 0 <= a < b < |front|
          ensures front[a].0 != front[b].0
        {
          assert front[a] == d[a] && front[b] == d[b];
        }
      }
      GetAt(front, i);
    }
  }

  lemma GetReplace<V>(d: Dict<V>, k: string, v: V, key: string)
    ensures Get(Replace(d, k, v), key) ==
      if key == k then (if k in Keys(d) then Some(v) else None) else Get(d, key)
    decreases |d|
  {
    if |d| > 0 {
      var last := d[|d| - 1];
      var r := Replace(d, k, v);
      assert r[..|r| - 1] == Replace(d[..|d| - 1], k, v);
      assert Keys(d) == Keys(d[..|d| - 1]) + {last.0};
      GetReplace(d[..|d| - 1], k, v, key);
    }
  }

  /** After `d[k] = v`, `k` reads `v` and every other key reads as before. */
  lemma GetPut<V>(d: Dict<V>, k: string, v: V, key: string)
    ensures Get(Put(d, k, v), key) == if key == k then Some(v) else Get(d, key)
  {
    if k in Keys(d) {
      GetReplace(d, k, v, key);
    } else {
      GetAppend(d, [(k, v)], key);
      KeysSingleton((k, v));
    }
  }

  lemma KeysPut<V>(d: Dict<V>, k: string, v: V)
    ensures Keys(Put(d, k, v)) == Keys(d) + {k}
  {
    if k !in Keys(d) {
      KeysAppend(d, [(k, v)]);
      KeysSingleton((k, v));
    }
  }

  lemma UniquePut<V>(d: Dict<V>, k: string, v: V)
    requires UniqueKeys(d)
    ensures UniqueKeys(Put(d, k, v))
  {
  }

  /** `d.update(entries)` reads from `entries` wherever they hold the key. */
  lemma {:induction false} GetPutAll<V>(d: Dict<V>, entries: Dict<V>, key: string)
    ensures Get(PutAll(d, entries), key) ==
      if key in Keys(entries) then Get(entries, key) else Get(d, key)
    decreases |entries|
  {
    if |entries| > 0 {
      var e := entries[0];
      var rest := entries[1..];
      assert entries == [e] + rest;
      GetPutAll(Put(d, e.0, e.1), rest, key);
      GetPut(d, e.0, e.1, key);
      GetAppend([e], rest, key);
      KeysAppend([e], rest);
      KeysSingleton(e);
    }
  }

  lemma {:induction false} KeysPutAll<V>(d: Dict<V>, entries: Dict<V>)
    ensures Keys(PutAll(d, entries)) == Keys(d) + Keys(entries)
    decreases |entries|
  {
    if |entries| > 0 {
      var e := entries[0];
      assert entries == [e] + entries[1..];
      KeysAppend([e], entries[1..]);
      KeysSingleton(e);
      KeysPut(d, e.0, e.1);
      KeysPutAll(Put(d, e.0, e.1), entries[1..]);
    }
  }

  lemma {:induction false} UniquePutAll<V>(d: Dict<V>, entries: Dict<V>)
    requires UniqueKeys(d)
    ensures UniqueKeys(PutAll(d, entries))
    decreases |entries|
  {
    if |entries| > 0 {
      UniquePut(d, entries[0].0, entries[0].1);
      UniquePutAll(Put(d, entries[0].0, entries[0].1), entries[1..]);
    }
  }

  /** Removing a key that was just added to a dict without it restores the dict. */
  lemma {:induction false} DeletePutFresh<V>(d: Dict<V>, k: string, v: V)
    requires k !in Keys(d)
    ensures Delete(Put(d, k, v), k) == d
  {
    var p := d + [(k, v)];
    assert p[..|p| - 1] == d;
    DeleteAbsent(d, k);
  }

  lemma {:induction false} DeleteAbsent<V>(d: Dict<V>, k: string)
    requires k !in Keys(d)
    ensures Delete(d, k) == d
    decreases |d|
  {
    if |d| > 0 {
      assert Keys(d) == Keys(d[..|d| - 1]) + {d[|d| - 1].0};
      DeleteAbsent(d[..|d| - 1], k);
      assert d[..|d| - 1] + [d[|d| - 1]] == d;
    }
  }
}

=== FILE: iot_client.dfy ===
/**
 * What both provider clients share (the IIoTClient interface): the answer
 * of a user-registered command callback.
 */
module IotClient {
  import opened Json

  /** A command callback either raises (with its message) or returns a value; None is JSON null. */
  datatype CallbackResult = Raises(error: string) | Returns(value: Json)
}

=== FILE: iot_manager.dfy ===
/**
 * The orchestrator (IoTManager): builds the provider client from the
 * configuration and routes between it, the offline queue, the telemetry
 * preprocessor and the sensor service. Each operation returns the calls it
 * made on its collaborators, in order, so the routing can be stated.
 */
module IotManager {
  import opened Wrappers
  import opened Json
  import Dict
  import AwsClient
  import AzureClient
  import StorageService
  import OfflineStorage
  import SqliteStorage
  import ConfigLoader
  import TelemetryPreprocessor

  /** The provider client the manager drives. */
  datatype Provider = Aws(aws: AwsClient.Client) | Azure(azure: AzureClient.Client)

  predicate ClientValid(p: Provider) {
    match p
    case Aws(c) => AwsClient.Valid(c)
    case Azure(c) => AzureClient.Valid(c)
  }

  function IsConnected(p: Provider): bool {
    match p
    case Aws(c) => c.connected
    case Azure(c) => c.connected
  }

  /**
   * `client.connect()`. `attempt` is the SDK's answer; the Azure SDK only
   * tells success (an acknowledged attempt) from failure.
   */
  function ClientConnect(p: Provider, attempt: AwsClient.ConnectAttempt): (r: (Provider, bool))
    ensures ClientValid(p) ==> ClientValid(r.0)
    ensures r.0.Aws? == p.Aws?
    ensures IsConnected(r.0) == r.1
    ensures IsConnected(p) ==> r == (p, true)
    ensures !IsConnected(p) ==> (r.1 <==> attempt.Acked?)
  {
    match p
    case Aws(c) =>
      var (c1, ok) := AwsClient.Connect(c, attempt);
      (Aws(c1), ok)
    case Azure(c) =>
      var (c1, ok) := AzureClient.Connect(c, attempt.Acked?);
      (Azure(c1), ok)
  }

  /** `client.reconnect(max_retries)`; `attempts(n)` is the SDK's answer to attempt n. */
  function ClientReconnect(p: Provider, maxRetries: int, attempts: nat -> AwsClient.ConnectAttempt): (r: (Provider, bool))
    requires ClientValid(p)
    ensures ClientValid(r.0)
    ensures r.0.Aws? == p.Aws?
    ensures IsConnected(r.0) == r.1
    ensures IsConnected(p) ==> r == (p, true)
  {
    match p
    case Aws(c) =>
      var run := AwsClient.Reconnect(c, maxRetries, attempts);
      (Aws(run.state), run.ok)
    case Azure(c) =>
      var run := AzureClient.Reconnect(c, maxRetries, (k: nat) => attempts(k).Acked?);
      (Azure(run.state), run.ok)
  }

  function ClientDisconnect(p: Provider): (r: Provider)
    ensures ClientValid(p) ==> ClientValid(r) && !IsConnected(r)
    ensures r.Aws? == p.Aws?
  {
    match p
    case Aws(c) => Aws(AwsClient.Disconnect(c))
    case Azure(c) => Azure(AzureClient.Disconnect(c))
  }

  /** `client.send_telemetry(data)`; `acked` is whether the SDK delivers it. */
  function ClientSend(p: Provider, data: Json, acked: bool): (r: bool)
    ensures r ==> IsConnected(p) && Encodable(data) && acked
  {
    match p
    case Aws(c) => AwsClient.SendTelemetry(c, data, acked)
    case Azure(c) => AzureClient.SendTelemetry(c, data, acked)
  }

  /** A call the manager makes on a collaborator. */
  datatype Call =
    | ConnectCall
    | ReconnectCall(maxRetries: int)
    | FlushCall
    | SendCall(data: Json)
    | BufferCall(data: Json)
    | SensorStartCall
    | SensorStopCall
    | DisconnectCall

  datatype Manager = Manager(client: Provider, service: StorageService.Service, sensorsRunning: bool)

  predicate Valid(m: Manager) {
    ClientValid(m.client) && StorageService.ServiceValid(m.service)
  }

  /** What an operation did: the manager after it, its result, and the calls it made. */
  datatype Run = Run(manager: Manager, ok: bool, calls: seq<Call>)

  /**
   * `flush_data` through the manager's own client, whose `send_telemetry`
   * answers the k-th send of the flush with `acks(k)`.
   */
  function FlushThrough(p: Provider, s: StorageService.Service, acks: nat -> bool): (r: StorageService.Service)
    requires StorageService.ServiceValid(s)
    ensures StorageService.ServiceValid(r)
    ensures !IsConnected(p) ==> r == s
  {
    StorageService.Flush(s, true, IsConnected(p), (k: nat, msg: Json) => ClientSend(p, msg, acks(k))).0
  }

  /**
   * `connect`: one connection attempt; on success the offline queue is
   * flushed, exactly once, and on failure it is left alone.
   */
  function Connect(m: Manager, attempt: AwsClient.ConnectAttempt, acks: nat -> bool): (r: Run)
    requires Valid(m)
    ensures Valid(r.manager)
    ensures r.ok == IsConnected(r.manager.client)
    ensures r.ok == ClientConnect(m.client, attempt).1
    ensures r.manager.client == ClientConnect(m.client, attempt).0
    ensures r.calls == [ConnectCall] + (if r.ok then [FlushCall] else [])
    ensures multiset(r.calls)[FlushCall] == if r.ok then 1 else 0
    ensures !r.ok ==> r.manager.service == m.service
    ensures r.ok ==> r.manager.service == FlushThrough(r.manager.client, m.service, acks)
    ensures r.manager.sensorsRunning == m.sensorsRunning
  {
    var (p1, ok) := ClientConnect(m.client, attempt);
    if ok then Run(Manager(p1, FlushThrough(p1, m.service, acks), m.sensorsRunning), true, [ConnectCall, FlushCall])
    else Run(m.(client := p1), false, [ConnectCall])
  }

  /**
   * `after` is what is left of the queue `before` once its first
   * |before| - |after| messages went out: each of those encodes as JSON and
   * its send was acknowledged.
   */
  predicate Drained(before: seq<Json>, after: seq<Json>, acks: nat -> bool) {
    && |after| <= |before|
    && after == before[|before| - |after|..]
    && forall i | 0 <= i < |before| - |after| :: acks(i) && Encodable(before[i])
  }

  /** A connect drains a prefix of the offline queue, and nothing when it fails. */
  lemma ConnectDrainsQueue(m: Manager, attempt: AwsClient.ConnectAttempt, acks: nat -> bool)
    requires Valid(m) && m.service.storage.Some?
    ensures var r := Connect(m, attempt, acks);
      var before := OfflineStorage.Queue(m.service.storage.value);
      var after := OfflineStorage.Queue(r.manager.service.storage.value);
      && Drained(before, after, acks)
      && (!r.ok ==> after == before)
  {
    var r := Connect(m, attempt, acks);
    var before := OfflineStorage.Queue(m.service.storage.value);
    if r.ok {
      assert r.manager.service == FlushThrough(r.manager.client, m.service, acks);
      FlushThroughDrains(r.manager.client, m.service, acks);
    } else {
      assert r.manager.service == m.service;
      assert before[0..] == before;
    }
  }

  /**
   * Where a flush through client `p` may stop, the queue having been
   * `before`: a further load would come back empty, or the client refused
   * the message now at the head of the queue.
   */
  predicate FlushStopped(p: Provider, before: seq<Json>, b: OfflineStorage.Backend, acks: nat -> bool) {
    var after := OfflineStorage.Queue(b);
    || StorageService.Batch(b) == []
    || (|before| >= |after| > 0 && !ClientSend(p, after[0], acks(|before| - |after|)))
  }

  /** A successful connect's flush stops only at an empty load or at a head message the client refused. */
  lemma ConnectStops(m: Manager, attempt: AwsClient.ConnectAttempt, acks: nat -> bool)
    requires Valid(m) && m.service.storage.Some?
    ensures Connect(m, attempt, acks).ok ==>
      FlushStopped(Connect(m, attempt, acks).manager.client, OfflineStorage.Queue(m.service.storage.value),
                   Connect(m, attempt, acks).manager.service.storage.value, acks)
  {
    var r := Connect(m, attempt, acks);
    if r.ok {
      assert r.manager.service == FlushThrough(r.manager.client, m.service, acks);
      FlushThroughDrains(r.manager.client, m.service, acks);
    }
  }

  /** A successful reconnect's flush stops the same way. */
  lemma ReconnectStops(m: Manager, n: int, attempts: nat -> AwsClient.ConnectAttempt, acks: nat -> bool)
    requires Valid(m) && m.service.storage.Some?
    ensures ReconnectWith(m, n, attempts, acks).ok ==>
      FlushStopped(ReconnectWith(m, n, attempts, acks).manager.client, OfflineStorage.Queue(m.service.storage.value),
                   ReconnectWith(m, n, attempts, acks).manager.service.storage.value, acks)
  {
    var r := ReconnectWith(m, n, attempts, acks);
    if r.ok {
      assert r.manager.service == FlushThrough(r.manager.client, m.service, acks);
      FlushThroughDrains(r.manager.client, m.service, acks);
    }
  }

  /**
   * The flush half of `ConnectDrainsQueue`, for any client: a connected
   * client's flush stops only at an empty load or at a head message the
   * client refused.
   */
  lemma FlushThroughDrains(p: Provider, s: StorageService.Service, acks: nat -> bool)
    requires StorageService.ServiceValid(s) && s.storage.Some?
    ensures Drained(OfflineStorage.Queue(s.storage.value), OfflineStorage.Queue(FlushThrough(p, s, acks).storage.value), acks)
    ensures IsConnected(p) ==> FlushStopped(p, OfflineStorage.Queue(s.storage.value), FlushThrough(p, s, acks).storage.value, acks)
  {
    var send := (k: nat, msg: Json) => ClientSend(p, msg, acks(k));
    var flushed := StorageService.Flush(s, true, IsConnected(p), send);
    assert FlushThrough(p, s, acks) == flushed.0;
    assert |OfflineStorage.Queue(s.storage.value)| - |OfflineStorage.Queue(flushed.0.storage.value)| == |flushed.1|;
    SendsDrain(OfflineStorage.Queue(s.storage.value), flushed.1, OfflineStorage.Queue(flushed.0.storage.value), send, acks);
  }

  /** Removing a delivered prefix, every message of which a send accepted, drains the queue. */
  lemma SendsDrain(before: seq<Json>, delivered: seq<Json>, after: seq<Json>, send: (nat, Json) -> bool, acks: nat -> bool)
    requires delivered <= before && after == before[|delivered|..]
    requires forall i | 0 <= i < |delivered| :: send(i, delivered[i])
    requires forall k: nat, m: Json | send(k, m) :: acks(k) && Encodable(m)
    ensures Drained(before, after, acks)
  {
    forall i | 0 <= i < |before| - |after|
      ensures acks(i) && Encodable(before[i])
    {
      assert send(i, delivered[i]);
    }
  }

  /**
   * `reconnect`: the client's reconnect with the configured `max_retries`,
   * then exactly one flush if it succeeded. When `get_max_retries` raises
   * (a value int() rejects) the call raises too: None.
   */
  function Reconnect(m: Manager, config: ConfigLoader.Config, attempts: nat -> AwsClient.ConnectAttempt,
                     acks: nat -> bool): (r: Option<Run>)
    requires Valid(m)
    ensures r.None? <==> ConfigLoader.GetMaxRetries(config).None?
    ensures r.Some? ==> r.value == ReconnectWith(m, ConfigLoader.GetMaxRetries(config).value, attempts, acks)
  {
    match ConfigLoader.GetMaxRetries(config)
    case None => None
    case Some(n) => Some(ReconnectWith(m, n, attempts, acks))
  }

  /** `reconnect` once `max_retries` has been read as `n`. */
  function ReconnectWith(m: Manager, n: int, attempts: nat -> AwsClient.ConnectAttempt, acks: nat -> bool): (r: Run)
    requires Valid(m)
    ensures Valid(r.manager)
    ensures r.ok == IsConnected(r.manager.client)
    ensures r.manager.client == ClientReconnect(m.client, n, attempts).0
    ensures r.calls == [ReconnectCall(n)] + (if r.ok then [FlushCall] else [])
    ensures multiset(r.calls)[FlushCall] == if r.ok then 1 else 0
    ensures !r.ok ==> r.manager.service == m.service
    ensures r.ok ==> r.manager.service == FlushThrough(r.manager.client, m.service, acks)
    ensures r.manager.sensorsRunning == m.sensorsRunning
  {
    var (p1, ok) := ClientReconnect(m.client, n, attempts);
    if ok then Run(Manager(p1, FlushThrough(p1, m.service, acks), m.sensorsRunning), true, [ReconnectCall(n), FlushCall])
    else Run(m.(client := p1), false, [ReconnectCall(n)])
  }

  /**
   * `send_telemetry`: when not connected the data goes to the offline
   * queue without a send; when the send fails it goes there too; only a
   * successful send returns true, and then nothing is queued.
   */
  function SendTelemetry(m: Manager, data: Json, acked: bool): (r: Run)
    requires Valid(m)
    ensures Valid(r.manager)
    ensures r.manager.client == m.client && r.manager.sensorsRunning == m.sensorsRunning
    ensures r.ok <==> IsConnected(m.client) && ClientSend(m.client, data, acked)
    ensures r.ok ==> r.manager.service == m.service && r.calls == [SendCall(data)]
    ensures !r.ok ==> r.manager.service == StorageService.AddMessage(m.service, data)
    ensures !IsConnected(m.client) ==> r.calls == [BufferCall(data)]
    ensures IsConnected(m.client) && !r.ok ==> r.calls == [SendCall(data), BufferCall(data)]
  {
    if !IsConnected(m.client) then
      Run(m.(service := StorageService.AddMessage(m.service, data)), false, [BufferCall(data)])
    else if !ClientSend(m.client, data, acked) then
      Run(m.(service := StorageService.AddMessage(m.service, data)), false, [SendCall(data), BufferCall(data)])
    else Run(m, true, [SendCall(data)])
  }

  /** While disconnected, a reading is queued at the end of the offline queue, whatever the SDK would have said. */
  lemma DisconnectedSendQueues(m: Manager, data: Json, acked: bool)
    requires Valid(m) && !IsConnected(m.client) && m.service.storage.Some?
    requires Encodable(data) && SqliteStorage.Untagged(data)
    ensures SendTelemetry(m, data, acked) == SendTelemetry(m, data, !acked)
    ensures var before := OfflineStorage.Queue(m.service.storage.value);
      var after := OfflineStorage.Queue(SendTelemetry(m, data, acked).manager.service.storage.value);
      && |after| == |before| + 1
      && after[..|before|] == before
      && SqliteStorage.Untag(after[|before|]) == data
  {
    StorageService.AddMessageQueues(m.service, data);
  }

  /**
   * `start`: connect, fall back to reconnect only when that fails, then
   * start the sensor service in either case. A raising reconnect (see
   * `Reconnect`) ends `start` before the sensors start.
   */
  function Start(m: Manager, config: ConfigLoader.Config, attempt: AwsClient.ConnectAttempt,
                 attempts: nat -> AwsClient.ConnectAttempt, acks: nat -> bool): (r: Option<Run>)
    requires Valid(m)
    ensures r.Some? ==> Valid(r.value.manager) && r.value.manager.sensorsRunning
    ensures r.Some? ==> |r.value.calls| > 0 && r.value.calls[|r.value.calls| - 1] == SensorStartCall
    ensures Connect(m, attempt, acks).ok ==>
      r == Some(Run(Connect(m, attempt, acks).manager.(sensorsRunning := true), true,
                    Connect(m, attempt, acks).calls + [SensorStartCall]))
    ensures !Connect(m, attempt, acks).ok ==> (r.None? <==> ConfigLoader.GetMaxRetries(config).None?)
    ensures !Connect(m, attempt, acks).ok && ConfigLoader.GetMaxRetries(config).Some? ==>
      var first := Connect(m, attempt, acks);
      var second := ReconnectWith(first.manager, ConfigLoader.GetMaxRetries(config).value, attempts, acks);
      && r.Some?
      && r.value.manager == second.manager.(sensorsRunning := true)
      && r.value.ok == second.ok == IsConnected(r.value.manager.client)
      && r.value.calls == first.calls + second.calls + [SensorStartCall]
  {
    var first := Connect(m, attempt, acks);
    if first.ok then
      Some(Run(first.manager.(sensorsRunning := true), true, first.calls + [SensorStartCall]))
    else
      match Reconnect(first.manager, config, attempts, acks)
      case None => None
      case Some(second) =>
        Some(Run(second.manager.(sensorsRunning := true), second.ok, first.calls + second.calls + [SensorStartCall]))
  }

  /** `start` reconnects exactly when the first connect fails, starts the sensors once, and flushes at most once. */
  lemma StartReconnectsOnlyOnFailure(m: Manager, config: ConfigLoader.Config, attempt: AwsClient.ConnectAttempt,
                                     attempts: nat -> AwsClient.ConnectAttempt, acks: nat -> bool)
    requires Valid(m)
    requires Start(m, config, attempt, attempts, acks).Some?
    ensures var r := Start(m, config, attempt, attempts, acks).value;
      var n := ConfigLoader.GetMaxRetries(config).GetOr(0);
      && (multiset(r.calls)[ReconnectCall(n)] == 1 <==> !ClientConnect(m.client, attempt).1)
      && r.calls[0] == ConnectCall
      && multiset(r.calls)[FlushCall] == (if r.ok then 1 else 0)
      && multiset(r.calls)[SensorStartCall] == 1
  {
    var first := Connect(m, attempt, acks);
    if !first.ok {
      var n := ConfigLoader.GetMaxRetries(config).value;
      var second := ReconnectWith(first.manager, n, attempts, acks);
      ReconnectedCalls(first.calls, second.calls, n, second.ok);
    } else {
      assert first.calls == [ConnectCall, FlushCall];
    }
  }

  /** The calls of a `start` whose connect failed: one reconnect, at most one flush, one sensor start. */
  lemma ReconnectedCalls(first: seq<Call>, second: seq<Call>, n: int, ok: bool)
    requires first == [ConnectCall]
    requires second == [ReconnectCall(n)] + (if ok then [FlushCall] else [])
    ensures var calls := first + second + [SensorStartCall];
      && calls[0] == ConnectCall
      && multiset(calls)[ReconnectCall(n)] == 1
      && multiset(calls)[FlushCall] == (if ok then 1 else 0)
      && multiset(calls)[SensorStartCall] == 1
  {
    var calls := first + second + [SensorStartCall];
    if ok {
      assert calls == [ConnectCall, ReconnectCall(n), FlushCall, SensorStartCall];
      assert multiset(calls) == multiset{ConnectCall, ReconnectCall(n), FlushCall, SensorStartCall};
    } else {
      assert calls == [ConnectCall, ReconnectCall(n), SensorStartCall];
      assert multiset(calls) == multiset{ConnectCall, ReconnectCall(n), SensorStartCall};
    }
  }

  /** `disconnect`: the client disconnects; the queue and the sensors are left alone. */
  function Disconnect(m: Manager): (r: Manager)
    requires Valid(m)
    ensures Valid(r) && !IsConnected(r.client)
    ensures r.service == m.service && r.sensorsRunning == m.sensorsRunning
    ensures !IsConnected(m.client) ==> r == m
  {
    m.(client := ClientDisconnect(m.client))
  }

  /**
   * `shutdown`: stop the sensor service, then disconnect, even when stopping
   * raised (`stopRaises`); the client ends disconnected.
   */
  function Shutdown(m: Manager, stopRaises: bool): (r: Run)
    requires Valid(m)
    ensures Valid(r.manager)
    ensures !IsConnected(r.manager.client)
    ensures r.calls == [SensorStopCall, DisconnectCall]
    ensures r.manager.service == m.service
    ensures !stopRaises ==> !r.manager.sensorsRunning
  {
    var stopped := if stopRaises then m.sensorsRunning else false;
    Run(Disconnect(m.(sensorsRunning := stopped)), true, [SensorStopCall, DisconnectCall])
  }

  /**
   * `_handle_sensor_data`: every reading passes `should_send`, is flattened,
   * and goes through `send_telemetry`.
   */
  function HandleSensorData(m: Manager, data: Dict.Dict<Json>, acked: bool): (r: Run)
    requires Valid(m)
    ensures Valid(r.manager)
    ensures var flat := TelemetryPreprocessor.Flatten(data, "");
      |r.calls| > 0 && r.calls[0] == (if IsConnected(m.client) then SendCall(JObj(flat)) else BufferCall(JObj(flat)))
    ensures !r.ok ==> r.manager.service == StorageService.AddMessage(m.service, JObj(TelemetryPreprocessor.Flatten(data, "")))
  {
    if TelemetryPreprocessor.ShouldSend(data) then
      SendTelemetry(m, JObj(TelemetryPreprocessor.Preprocess(data)), acked)
    else Run(m, false, [])
  }

  /**
   * `_create_iot_client`. The provider comes from the configuration; its
   * block must be an object. For AWS the three paths are resolved against
   * the project root by `resolve` (a non-string path makes the join raise)
   * and the client is built with `fileExists` answering os.path.exists;
   * for Azure the connection string is taken as is. An unknown provider,
   * and any exception the constructors raise, give no client (None).
   */
  function CreateIotClient(config: ConfigLoader.Config, resolve: string -> string, fileExists: string -> bool): (r: Option<Provider>)
    ensures ConfigLoader.GetCloudProvider(config) !in {"aws", "azure"} ==> r.None?
    ensures r.Some? ==> ClientValid(r.value) && !IsConnected(r.value)
    ensures r.Some? ==> (r.value.Aws? <==> ConfigLoader.GetCloudProvider(config) == "aws")
    ensures r.Some? && r.value.Azure? ==> Truthy(r.value.azure.connectionString)
    ensures r.Some? && r.value.Aws? ==> Truthy(r.value.aws.endpoint) && Truthy(r.value.aws.clientId)
  {
    var provider := ConfigLoader.GetCloudProvider(config);
    var conf := ConfigLoader.GetProviderConfig(config, Some(provider));
    if provider == "aws" then
      match conf
      case JObj(fields) => AwsFromBlock(fields, resolve, fileExists)
      case _ => None
    else if provider == "azure" then
      match conf
      case JObj(fields) => AzureFromBlock(fields)
      case _ => None
    else None
  }

  /** The AWS branch of `create_iot_client`, given the `aws` block of the configuration. */
  function AwsFromBlock(fields: Dict.Dict<Json>, resolve: string -> string, fileExists: string -> bool): (r: Option<Provider>)
    ensures r.Some? ==> r.value.Aws? && ClientValid(r.value) && !IsConnected(r.value)
    ensures r.Some? ==> Truthy(r.value.aws.endpoint) && Truthy(r.value.aws.clientId)
  {
    match (Dict.Get(fields, "cert_path").GetOr(JStr("")), Dict.Get(fields, "key_path").GetOr(JStr("")),
           Dict.Get(fields, "root_ca_path").GetOr(JStr("")))
    case (JStr(cert), JStr(key), JStr(rootCa)) =>
      (match AwsClient.Create(Dict.Get(fields, "endpoint").GetOr(JNull), Dict.Get(fields, "client_id").GetOr(JNull),
                              resolve(cert), resolve(key), Some(resolve(rootCa)), fileExists)
       case Built(c) => Some(Aws(c))
       case Failed(_) => None)
    case _ => None
  }

  /** The Azure branch of `create_iot_client`, given the `azure` block of the configuration. */
  function AzureFromBlock(fields: Dict.Dict<Json>): (r: Option<Provider>)
    ensures r.Some? ==> r.value.Azure? && ClientValid(r.value) && !IsConnected(r.value)
    ensures r.Some? ==> Truthy(r.value.azure.connectionString)
  {
    match AzureClient.Create(Dict.Get(fields, "connection_string").GetOr(JNull))
    case Some(c) => Some(Azure(c))
    case None => None
  }

  /** A flat reading (distinct dot-free keys, no nested objects) goes to `send_telemetry` exactly as read. */
  lemma FlatReadingSentAsIs(m: Manager, data: Dict.Dict<Json>, acked: bool)
    requires Valid(m)
    requires Dict.UniqueKeys(data) && TelemetryPreprocessor.LeafValues(data)
    requires forall i | 0 <= i < |data| :: '.' !in data[i].0
    ensures HandleSensorData(m, data, acked) == SendTelemetry(m, JObj(data), acked)
  {
    TelemetryPreprocessor.FlatUnchanged(data);
  }

  /** An Azure configuration with a truthy connection string builds a fresh, disconnected Azure client around it. */
  lemma AzureConfigBuildsAzure(config: ConfigLoader.Config, resolve: string -> string, fileExists: string -> bool,
                               fields: Dict.Dict<Json>)
    ensures var cs := Dict.Get(fields, "connection_string").GetOr(JNull);
      ConfigLoader.GetCloudProvider(config) == "azure" &&
      ConfigLoader.Lookup(config, "iot_client", "azure") == Some(JObj(fields)) && Truthy(cs) ==>
        CreateIotClient(config, resolve, fileExists) == Some(Azure(AzureClient.Client(cs, false, false)))
  {
    if ConfigLoader.GetCloudProvider(config) == "azure" && ConfigLoader.Lookup(config, "iot_client", "azure") == Some(JObj(fields)) {
      assert ConfigLoader.GetProviderConfig(config, Some("azure")) == JObj(fields);
    }
  }

  /**
   * With string paths in the AWS block, a client is built exactly when the
   * AWS constructor accepts the resolved paths, and it is built from the
   * block's endpoint and client id.
   */
  lemma AwsConfigBuildsAws(config: ConfigLoader.Config, resolve: string -> string, fileExists: string -> bool,
                           fields: Dict.Dict<Json>, cert: string, key: string, rootCa: string)
    ensures var endpoint := Dict.Get(fields, "endpoint").GetOr(JNull);
      var clientId := Dict.Get(fields, "client_id").GetOr(JNull);
      var built := AwsClient.Create(endpoint, clientId, resolve(cert), resolve(key), Some(resolve(rootCa)), fileExists);
      && ConfigLoader.GetCloudProvider(config) == "aws"
      && ConfigLoader.Lookup(config, "iot_client", "aws") == Some(JObj(fields))
      && Dict.Get(fields, "cert_path") == Some(JStr(cert))
      && Dict.Get(fields, "key_path") == Some(JStr(key))
      && Dict.Get(fields, "root_ca_path") == Some(JStr(rootCa))
      ==>
      && (CreateIotClient(config, resolve, fileExists).Some? <==> built.Built?)
      && (built.Built? ==> CreateIotClient(config, resolve, fileExists) == Some(Aws(AwsClient.Client(endpoint, clientId, false, false))))
  {
    if ConfigLoader.GetCloudProvider(config) == "aws" && ConfigLoader.Lookup(config, "iot_client", "aws") == Some(JObj(fields)) {
      AwsBlockSelected(config, resolve, fileExists, fields);
      if Dict.Get(fields, "cert_path") == Some(JStr(cert)) && Dict.Get(fields, "key_path") == Some(JStr(key))
         && Dict.Get(fields, "root_ca_path") == Some(JStr(rootCa)) {
        AwsBlockBuilds(fields, resolve, fileExists, cert, key, rootCa);
      }
    }
  }

  /** With `aws` as the provider, the client is whatever the `aws` block builds. */
  lemma AwsBlockSelected(config: ConfigLoader.Config, resolve: string -> string, fileExists: string -> bool,
                         fields: Dict.Dict<Json>)
    requires ConfigLoader.GetCloudProvider(config) == "aws"
    requires ConfigLoader.Lookup(config, "iot_client", "aws") == Some(JObj(fields))
    ensures CreateIotClient(config, resolve, fileExists) == AwsFromBlock(fields, resolve, fileExists)
  {
    assert ConfigLoader.GetProviderConfig(config, Some("aws")) == JObj(fields);
  }

  /** The `aws` block's string paths are resolved and handed to the AWS client, whose outcome decides. */
  lemma AwsBlockBuilds(fields: Dict.Dict<Json>, resolve: string -> string, fileExists: string -> bool,
                       cert: string, key: string, rootCa: string)
    requires Dict.Get(fields, "cert_path") == Some(JStr(cert))
    requires Dict.Get(fields, "key_path") == Some(JStr(key))
    requires Dict.Get(fields, "root_ca_path") == Some(JStr(rootCa))
    ensures var endpoint := Dict.Get(fields, "endpoint").GetOr(JNull);
      var clientId := Dict.Get(fields, "client_id").GetOr(JNull);
      var built := AwsClient.Create(endpoint, clientId, resolve(cert), resolve(key), Some(resolve(rootCa)), fileExists);
      && (AwsFromBlock(fields, resolve, fileExists).Some? <==> built.Built?)
      && (built.Built? ==> AwsFromBlock(fields, resolve, fileExists) == Some(Aws(AwsClient.Client(endpoint, clientId, false, false))))
  {
  }

  /** A non-string certificate path in the AWS block makes the path join raise: no client. */
  lemma AwsNonStringPathFails(config: ConfigLoader.Config, resolve: string -> string, fileExists: string -> bool,
                              fields: Dict.Dict<Json>)
    requires ConfigLoader.GetCloudProvider(config) == "aws"
    requires ConfigLoader.Lookup(config, "iot_client", "aws") == Some(JObj(fields))
    requires Dict.Get(fields, "cert_path").Some? && !Dict.Get(fields, "cert_path").value.JStr?
    ensures CreateIotClient(config, resolve, fileExists).None?
  {
    assert ConfigLoader.GetProviderConfig(config, Some("aws")) == JObj(fields);
  }
}

=== FILE: json.dfy ===
/**
 * JSON values as the Python side of the agent sees them: what json.loads
 * produces and what json.dumps accepts. Objects keep their insertion order,
 * as Python dicts do. Floating-point numbers are not part of this model.
 */
module Json {

  datatype Json =
    | JNull
    | JBool(b: bool)
    | JInt(i: int)
    | JStr(s: string)
    | JArr(items: seq<Json>)
    | JObj(fields: seq<(string, Json)>)
      /** A Python value with no JSON encoding (bytes, a datetime, ...). */
    | Opaque

  /** json.dumps succeeds on `v`: nothing inside it is Opaque. */
  predicate Encodable(v: Json) {
    match v
    case Opaque => false
    case JArr(items) => forall i | 0 <= i < |items| :: Encodable(items[i])
    case JObj(fields) => forall i | 0 <= i < |fields| :: Encodable(fields[i].1)
    case _ => true
  }

  predicate AllEncodable(vs: seq<Json>) {
    forall i | 0 <= i < |vs| :: Encodable(vs[i])
  }

  /** Python truthiness of a JSON value. */
  predicate Truthy(v: Json) {
    match v
    case JNull => false
    case JBool(b) => b
    case JInt(i) => i != 0
    case JStr(s) => s != ""
    case JArr(items) => items != []
    case JObj(fields) => fields != []
    case Opaque => true
  }

  lemma AllEncodableAppend(a: seq<Json>, b: seq<Json>)
    requires AllEncodable(a) && AllEncodable(b)
    ensures AllEncodable(a + b)
  {
    forall i | 0 <= i < |a + b|
      ensures Encodable((a + b)[i])
    {
      if i < |a| { assert (a + b)[i] == a[i]; } else { assert (a + b)[i] == b[i - |a|]; }
    }
  }
}

/** Python's str() and int() applied to JSON values. */
module PyConvert {
  import opened Wrappers
  import opened Json
  import Text

  /**
   * str(v). Arrays, objects and non-JSON values render as fixed markers
   * rather than Python's repr; no caller compares those renderings.
   */
  function PyStr(v: Json): string {
    match v
    case JNull => "None"
    case JBool(b) => if b then "True" else "False"
    case JInt(i) => Text.IntToString(i)
    case JStr(s) => s
    case JArr(_) => "[...]"
    case JObj(_) => "{...}"
    case Opaque => "<object>"
  }

  /** int(v); None stands for the TypeError or ValueError Python raises. */
  function IntOf(v: Json): Option<int> {
    match v
    case JBool(b) => Some(if b then 1 else 0)
    case JInt(i) => Some(i)
    case JStr(s) => Text.ParseInt(s)
    case _ => None
  }
}

=== FILE: json_storage.dfy ===
/**
 * The JSON-file backend of the offline queue (JSONOfflineStorage): the whole
 * queue is one JSON array in one file, read entirely and rewritten entirely
 * by every mutation, and the file is deleted once the queue is empty.
 */
module JsonStorage {
  import opened Wrappers
  import opened Json

  /** The queue file on disk. */
  datatype JsonFile =
    | Absent
      /** `parsed` is what json.load returns; None when the text does not parse. */
    | Present(parsed: Option<Json>)

  /** Text written by json.dump and read back by json.load holds only encodable values. */
  predicate Valid(f: JsonFile) {
    f.Present? && f.parsed.Some? ==> Encodable(f.parsed.value)
  }

  function Min(a: int, b: int): int { if a < b then a else b }

  /** `_load_entire_list`: a missing file, unparseable text or a non-list all read as []. */
  function LoadEntireList(f: JsonFile): (r: seq<Json>)
    ensures Valid(f) ==> AllEncodable(r)
  {
    match f
    case Present(Some(JArr(items))) => items
    case _ => []
  }

  /**
   * `_save_entire_list`: an empty list removes the file; otherwise the file is
   * rewritten. json.dump writes chunk by chunk into the already truncated file,
   * so a list holding an unencodable value leaves unparseable text behind.
   */
  function SaveEntireList(all: seq<Json>): (r: JsonFile)
    ensures Valid(r)
    ensures r.Present? <==> |all| > 0
    ensures AllEncodable(all) ==> LoadEntireList(r) == all
    ensures !AllEncodable(all) ==> LoadEntireList(r) == []
  {
    if |all| == 0 then Absent
    else if AllEncodable(all) then Present(Some(JArr(all)))
    else Present(None)
  }

  /** `add_messages`: the stored list becomes the old list followed by `messages`. */
  function AddMessages(f: JsonFile, messages: seq<Json>): (r: JsonFile)
    ensures |messages| == 0 ==> r == f
    ensures Valid(f) ==> Valid(r)
    ensures |messages| > 0 ==> r.Present?
    ensures |messages| > 0 && AllEncodable(LoadEntireList(f) + messages) ==>
      LoadEntireList(r) == LoadEntireList(f) + messages
    ensures |messages| > 0 && !AllEncodable(messages) ==> LoadEntireList(r) == []
  {
    if |messages| == 0 then f
    else
      var all := LoadEntireList(f) + messages;
      assert !AllEncodable(messages) ==> !AllEncodable(all) by {
        if !AllEncodable(messages) {
          var i :| 0 <= i < |messages| && !Encodable(messages[i]);
          assert all[|LoadEntireList(f)| + i] == messages[i];
        }
      }
      SaveEntireList(all)
  }

  /** `load_messages(limit)`: the oldest `limit` messages, or all of them when `limit <= 0`. */
  function LoadMessages(f: JsonFile, limit: int): (r: seq<Json>)
    ensures r <= LoadEntireList(f)
    ensures limit > 0 ==> |r| == Min(limit, |LoadEntireList(f)|)
    ensures limit <= 0 ==> r == LoadEntireList(f)
  {
    var current := LoadEntireList(f);
    if limit <= 0 then current else current[..Min(limit, |current|)]
  }

  function IndexOf(xs: seq<Json>, m: Json): (i: nat)
    requires m in xs
    ensures i < |xs| && xs[i] == m && m !in xs[..i]
  {
    if xs[0] == m then 0 else 1 + IndexOf(xs[1..], m)
  }

  /** `list.remove(m)`: drops the first element equal to `m`. */
  function RemoveFirst(xs: seq<Json>, m: Json): (r: seq<Json>)
    requires m in xs
    ensures |r| == |xs| - 1
    ensures multiset(r) == multiset(xs) - multiset{m}
    ensures exists i | 0 <= i < |xs| :: xs[i] == m && m !in xs[..i] && r == xs[..i] + xs[i + 1..]
  {
    var i := IndexOf(xs, m);
    assert xs == xs[..i] + [xs[i]] + xs[i + 1..];
    xs[..i] + xs[i + 1..]
  }

  /**
   * The loop of `remove_messages`: for each message in order, the first equal
   * stored message is removed if there is one. The count is the number of
   * removals; what remains is the multiset difference.
   */
  function RemoveEach(current: seq<Json>, messages: seq<Json>): (r: (seq<Json>, nat))
    ensures multiset(r.0) == multiset(current) - multiset(messages)
    ensures r.1 == |current| - |r.0|
    ensures r.1 <= |messages|
    decreases |messages|
  {
    if |messages| == 0 then (current, 0)
    else
      var m := messages[0];
      assert messages == [m] + messages[1..];
      if m in current then
        var rest := RemoveEach(RemoveFirst(current, m), messages[1..]);
        DiffPresent(multiset(current), m, multiset(messages[1..]));
        (rest.0, rest.1 + 1)
      else
        DiffAbsent(multiset(current), m, multiset(messages[1..]));
        RemoveEach(current, messages[1..])
  }

  lemma DiffPresent(a: multiset<Json>, m: Json, r: multiset<Json>)
    requires m in a
    ensures (a - multiset{m}) - r == a - (multiset{m} + r)
  {
    forall x ensures ((a - multiset{m}) - r)[x] == (a - (multiset{m} + r))[x] {
    }
  }

  lemma DiffAbsent(a: multiset<Json>, m: Json, r: multiset<Json>)
    requires m !in a
    ensures a - r == a - (multiset{m} + r)
  {
    forall x ensures (a - r)[x] == (a - (multiset{m} + r))[x] {
    }
  }

  /**
   * Reference definition of what removal leaves: one left-to-right pass over
   * the stored list that drops an element while the budget `ms` still holds
   * a copy of it, spending that copy, and keeps it otherwise. So of each
   * value, the first occurrences go and the rest stay in order.
   */
  function DropFirst(xs: seq<Json>, ms: multiset<Json>): (r: seq<Json>)
    ensures |r| <= |xs|
    ensures ms == multiset{} ==> r == xs
    decreases |xs|
  {
    if |xs| == 0 then []
    else if ms[xs[0]] > 0 then DropFirst(xs[1..], ms - multiset{xs[0]})
    else [xs[0]] + DropFirst(xs[1..], ms)
  }

  /** A budgeted value that is not stored changes nothing. */
  lemma {:induction false} DropFirstAbsent(xs: seq<Json>, ms: multiset<Json>, m: Json)
    requires m !in xs
    ensures DropFirst(xs, ms + multiset{m}) == DropFirst(xs, ms)
    decreases |xs|
  {
    if |xs| > 0 {
      var x := xs[0];
      assert x != m;
      assert (ms + multiset{m})[x] == ms[x];
      if ms[x] > 0 {
        assert ms + multiset{m} - multiset{x} == ms - multiset{x} + multiset{m};
        DropFirstAbsent(xs[1..], ms - multiset{x}, m);
      } else {
        DropFirstAbsent(xs[1..], ms, m);
      }
    }
  }

  /** `list.remove` past an unequal head keeps the head. */
  lemma RemoveFirstTail(xs: seq<Json>, m: Json)
    requires m in xs && xs[0] != m
    ensures m in xs[1..] && RemoveFirst(xs, m) == [xs[0]] + RemoveFirst(xs[1..], m)
  {
    var tail := xs[1..];
    var j := IndexOf(tail, m);
    assert IndexOf(xs, m) == j + 1;
    calc {
      RemoveFirst(xs, m);
      xs[..j + 1] + xs[j + 2..];
      == { assert xs[..j + 1] == [xs[0]] + tail[..j]; assert xs[j + 2..] == tail[j + 1..]; }
      [xs[0]] + tail[..j] + tail[j + 1..];
      [xs[0]] + (tail[..j] + tail[j + 1..]);
      [xs[0]] + RemoveFirst(tail, m);
    }
  }

  /** One step of the reference pass on a non-empty list whose head is `x`. */
  lemma DropFirstCons(x: Json, tail: seq<Json>, ms: multiset<Json>)
    ensures ms[x] > 0 ==> DropFirst([x] + tail, ms) == DropFirst(tail, ms - multiset{x})
    ensures ms[x] == 0 ==> DropFirst([x] + tail, ms) == [x] + DropFirst(tail, ms)
  {
    assert ([x] + tail)[0] == x && ([x] + tail)[1..] == tail;
  }

  /** Spending a copy of `x` and adding a copy of a different `m` commute. */
  lemma SpendAddSwap(ms: multiset<Json>, x: Json, m: Json)
    requires x != m
    ensures ms - multiset{x} + multiset{m} == ms + multiset{m} - multiset{x}
  {
  }

  /** Removing the first copy of `m` is the same as budgeting one more `m`. */
  lemma {:induction false} DropFirstRemove(xs: seq<Json>, ms: multiset<Json>, m: Json)
    requires m in xs
    ensures DropFirst(RemoveFirst(xs, m), ms) == DropFirst(xs, ms + multiset{m})
    decreases |xs|
  {
    var x := xs[0];
    var tail := xs[1..];
    assert xs == [x] + tail;
    if x == m {
      calc {
        DropFirst(RemoveFirst(xs, m), ms);
        == { RemoveFirstHead(xs); }
        DropFirst(tail, ms);
        == { assert ms + multiset{m} - multiset{x} == ms; }
        DropFirst(tail, ms + multiset{m} - multiset{x});
        == { DropFirstCons(x, tail, ms + multiset{m}); }
        DropFirst(xs, ms + multiset{m});
      }
    } else {
      RemoveFirstTail(xs, m);
      var rest := RemoveFirst(tail, m);
      if ms[x] > 0 {
        calc {
          DropFirst(RemoveFirst(xs, m), ms);
          == { DropFirstCons(x, rest, ms); }
          DropFirst(rest, ms - multiset{x});
          == { DropFirstRemove(tail, ms - multiset{x}, m); }
          DropFirst(tail, ms - multiset{x} + multiset{m});
          == { SpendAddSwap(ms, x, m); }
          DropFirst(tail, ms + multiset{m} - multiset{x});
          == { DropFirstCons(x, tail, ms + multiset{m}); }
          DropFirst(xs, ms + multiset{m});
        }
      } else {
        calc {
          DropFirst(RemoveFirst(xs, m), ms);
          == { DropFirstCons(x, rest, ms); }
          [x] + DropFirst(rest, ms);
          == { DropFirstRemove(tail, ms, m); }
          [x] + DropFirst(tail, ms + multiset{m});
          == { DropFirstCons(x, tail, ms + multiset{m}); }
          DropFirst(xs, ms + multiset{m});
        }
      }
    }
  }

  /**
   * The removal loop agrees with the reference pass: processing the messages
   * one by one, each by first equal occurrence, leaves the stored list with,
   * of each value, its first occurrences dropped, and the order kept.
   */
  lemma {:induction false} RemoveEachDropsFirst(current: seq<Json>, messages: seq<Json>)
    ensures RemoveEach(current, messages).0 == DropFirst(current, multiset(messages))
    decreases |messages|
  {
    if |messages| > 0 {
      var m := messages[0];
      var tail := messages[1..];
      assert messages == [m] + tail;
      assert multiset(messages) == multiset(tail) + multiset{m};
      if m in current {
        RemoveEachStep(current, messages);
        RemoveEachDropsFirst(RemoveFirst(current, m), tail);
        DropFirstRemove(current, multiset(tail), m);
      } else {
        RemoveEachDropsFirst(current, tail);
        DropFirstAbsent(current, multiset(tail), m);
      }
    }
  }

  /** Of two equal stored messages, removal drops the earlier one: [1, 2, 1] less [1] is [2, 1]. */
  lemma RemoveKeepsLaterDuplicate()
    ensures RemoveEach([JInt(1), JInt(2), JInt(1)], [JInt(1)]) == ([JInt(2), JInt(1)], 1)
  {
    var one, two := JInt(1), JInt(2);
    var xs, tail, ms := [one, two, one], [two, one], multiset{one};
    calc {
      RemoveEach(xs, [one]).0;
      == { RemoveEachDropsFirst(xs, [one]); }
      DropFirst(xs, multiset([one]));
      == { assert multiset([one]) == ms; assert xs == [one] + tail; }
      DropFirst([one] + tail, ms);
      == { DropFirstCons(one, tail, ms); }
      DropFirst(tail, ms - multiset{one});
      == { assert ms - multiset{one} == multiset{}; }
      tail;
    }
  }

  /** `remove_messages`: returns the file after the rewrite and the removal count. */
  function RemoveMessages(f: JsonFile, messages: seq<Json>): (r: (JsonFile, nat))
    ensures |messages| == 0 ==> r == (f, 0)
    ensures Valid(f) ==> Valid(r.0)
    ensures r.1 <= |messages|
    ensures Valid(f) ==>
      multiset(LoadEntireList(r.0)) == multiset(LoadEntireList(f)) - multiset(messages)
    ensures Valid(f) ==> r.1 == |LoadEntireList(f)| - |LoadEntireList(r.0)|
    ensures Valid(f) ==> LoadEntireList(r.0) == DropFirst(LoadEntireList(f), multiset(messages))
    ensures |messages| > 0 ==> (r.0.Present? <==> |LoadEntireList(f)| > r.1)
  {
    if |messages| == 0 then (f, 0)
    else
      var current := LoadEntireList(f);
      var (remaining, removed) := RemoveEach(current, messages);
      RemoveEachDropsFirst(current, messages);
      assert Valid(f) ==> AllEncodable(remaining) by {
        if Valid(f) {
          forall i | 0 <= i < |remaining| ensures Encodable(remaining[i]) {
            assert remaining[i] in multiset(remaining);
            assert remaining[i] in multiset(current);
          }
        }
      }
      (SaveEntireList(remaining), removed)
  }

  /**
   * Removing a list's first k elements one by one, each by first equal
   * occurrence, leaves exactly the list without its first k elements,
   * however many duplicates it holds.
   */
  lemma RemoveEachPrefix(xs: seq<Json>, k: nat)
    requires k <= |xs|
    ensures RemoveEach(xs, xs[..k]) == (xs[k..], k)
  {
    assert xs == xs[..k] + xs[k..];
    RemoveEachFront(xs[..k], xs[k..]);
  }

  /** The same, with the list split as `p + q`: removing `p` leaves `q`. */
  lemma {:induction false} RemoveEachFront(p: seq<Json>, q: seq<Json>)
    ensures RemoveEach(p + q, p) == (q, |p|)
    decreases |p|
  {
    if |p| > 0 {
      var xs := p + q;
      assert xs[0] == p[0];
      assert xs[1..] == p[1..] + q;
      RemoveFirstHead(xs);
      RemoveEachStep(xs, p);
      RemoveEachFront(p[1..], q);
    } else {
      assert p + q == q;
    }
  }

  /** `list.remove` of the first element drops exactly that element. */
  lemma RemoveFirstHead(xs: seq<Json>)
    requires |xs| > 0
    ensures RemoveFirst(xs, xs[0]) == xs[1..]
  {
    assert IndexOf(xs, xs[0]) == 0;
  }

  /** One turn of the removal loop on a message that is stored. */
  lemma RemoveEachStep(current: seq<Json>, messages: seq<Json>)
    requires |messages| > 0 && messages[0] in current
    ensures var rest := RemoveEach(RemoveFirst(current, messages[0]), messages[1..]);
      RemoveEach(current, messages) == (rest.0, rest.1 + 1)
  {
  }

  lemma {:induction false} RemoveEachAbsent(xs: seq<Json>, messages: seq<Json>)
    requires forall i | 0 <= i < |messages| :: messages[i] !in xs
    ensures RemoveEach(xs, messages) == (xs, 0)
    decreases |messages|
  {
    if |messages| > 0 {
      RemoveEachAbsent(xs, messages[1..]);
    }
  }

  /** Removing messages none of which is stored removes nothing and keeps the queue. */
  lemma RemoveMissingMessages(f: JsonFile, messages: seq<Json>)
    requires forall i | 0 <= i < |messages| :: messages[i] !in LoadEntireList(f)
    requires Valid(f)
    ensures RemoveMessages(f, messages).1 == 0
    ensures LoadEntireList(RemoveMessages(f, messages).0) == LoadEntireList(f)
  {
    if |messages| > 0 {
      RemoveEachAbsent(LoadEntireList(f), messages);
    }
  }

  /** Removing the loaded prefix of the queue leaves exactly the rest of the queue. */
  lemma RemoveLoadedPrefix(f: JsonFile, k: nat)
    requires Valid(f) && 0 < k <= |LoadEntireList(f)|
    ensures RemoveMessages(f, LoadEntireList(f)[..k]).1 == k
    ensures LoadEntireList(RemoveMessages(f, LoadEntireList(f)[..k]).0) == LoadEntireList(f)[k..]
  {
    var xs := LoadEntireList(f);
    RemoveEachPrefix(xs, k);
    assert AllEncodable(xs[k..]) by {
      forall i | 0 <= i < |xs[k..]| ensures Encodable(xs[k..][i]) { assert xs[k..][i] == xs[k + i]; }
    }
  }

  /**
   * On a fresh store: adding then loading everything gives back exactly the
   * added messages, and removing them again reports all of them removed and
   * deletes the file.
   */
  lemma AddLoadRemoveRoundTrip(messages: seq<Json>)
    requires |messages| > 0 && AllEncodable(messages)
    ensures LoadMessages(AddMessages(Absent, messages), 0) == messages
    ensures RemoveMessages(AddMessages(Absent, messages), messages) == (Absent, |messages|)
  {
    var f := AddMessages(Absent, messages);
    assert [] + messages == messages;
    RemoveEachPrefix(messages, |messages|);
    assert messages[..|messages|] == messages;
  }
}

=== FILE: offline_storage.dfy ===
/**
 * The offline queue interface (OfflineStorage) and its two implementations:
 * add messages at the end, load the oldest ones, remove delivered ones. The
 * interface's promises are stated once here, as lemmas that hold for both
 * backends.
 */
module OfflineStorage {
  import opened Json
  import JsonStorage
  import SqliteStorage
  import Dict

  datatype Backend =
    | JsonBackend(file: JsonStorage.JsonFile)
    | SqliteBackend(table: SqliteStorage.Table)

  predicate Valid(b: Backend) {
    match b
    case JsonBackend(f) => JsonStorage.Valid(f)
    case SqliteBackend(t) => SqliteStorage.Valid(t)
  }

  function AddMessages(b: Backend, messages: seq<Json>): (r: Backend)
    ensures r.JsonBackend? == b.JsonBackend?
    ensures Valid(b) ==> Valid(r)
    ensures |messages| == 0 ==> r == b
  {
    match b
    case JsonBackend(f) => JsonBackend(JsonStorage.AddMessages(f, messages))
    case SqliteBackend(t) => SqliteBackend(SqliteStorage.AddMessages(t, messages))
  }

  function LoadMessages(b: Backend, limit: int): seq<Json> {
    match b
    case JsonBackend(f) => JsonStorage.LoadMessages(f, limit)
    case SqliteBackend(t) => SqliteStorage.LoadMessages(t, limit)
  }

  function RemoveMessages(b: Backend, messages: seq<Json>): (r: (Backend, nat))
    ensures r.0.JsonBackend? == b.JsonBackend?
    ensures Valid(b) ==> Valid(r.0)
    ensures |messages| == 0 ==> r == (b, 0)
  {
    match b
    case JsonBackend(f) =>
      var (f', n) := JsonStorage.RemoveMessages(f, messages);
      (JsonBackend(f'), n)
    case SqliteBackend(t) =>
      var (t', n) := SqliteStorage.RemoveMessages(t, messages);
      (SqliteBackend(t'), n)
  }

  /** Everything a load without limit returns: the queue, oldest first. */
  function Queue(b: Backend): seq<Json> {
    LoadMessages(b, 0)
  }

  /**
   * A load returns the oldest messages of the queue in order: at most `limit`
   * of them when `limit > 0`, all of them otherwise. The JSON backend returns
   * exactly min(limit, queue length). SQLite applies the limit to rows and
   * then drops the rows that fail to decode, so it returns one message per
   * decodable row among the first min(limit, rows) rows: all of them when
   * those rows decode, fewer otherwise.
   */
  lemma LoadIsOldestFirst(b: Backend, limit: int)
    ensures LoadMessages(b, limit) <= Queue(b)
    ensures limit > 0 ==> |LoadMessages(b, limit)| <= limit
    ensures limit <= 0 ==> LoadMessages(b, limit) == Queue(b)
    ensures b.JsonBackend? && limit > 0 ==>
      |LoadMessages(b, limit)| == if limit < |Queue(b)| then limit else |Queue(b)|
    ensures b.SqliteBackend? && limit > 0 ==>
      var k := SqliteStorage.Min(limit, |b.table.rows|);
      && |LoadMessages(b, limit)| == |SqliteStorage.DecodedIds(b.table.rows[..k])|
      && ((forall i | 0 <= i < k :: SqliteStorage.Decode(b.table.rows[i]).Some?) ==> |LoadMessages(b, limit)| == k)
  {
    if b.SqliteBackend? && limit > 0 {
      SqliteStorage.LoadCount(b.table, limit);
    }
  }

  /** A backend never reports more removals than messages it was given. */
  lemma RemoveCountBound(b: Backend, messages: seq<Json>)
    requires Valid(b)
    ensures RemoveMessages(b, messages).1 <= |messages|
  {
  }

  /**
   * Removing the first n queued messages, as they were loaded, removes
   * exactly n and leaves the rest of the queue in order.
   */
  lemma RemoveQueuePrefix(b: Backend, n: nat)
    requires Valid(b)
    requires n <= |Queue(b)|
    ensures var r := RemoveMessages(b, Queue(b)[..n]);
      && Valid(r.0)
      && r.1 == n
      && Queue(r.0) == Queue(b)[n..]
  {
    match b
    case JsonBackend(f) =>
      if n == 0 {
        assert Queue(b)[0..] == Queue(b);
      } else {
        JsonStorage.RemoveLoadedPrefix(f, n);
      }
    case SqliteBackend(t) =>
      SqliteStorage.RemoveQueuePrefix(t, n);
  }

  /**
   * Adding JSON-encodable objects without a `_db_id` key appends them to the
   * queue: the old queue stays in front, and each new entry is the added
   * message (SQLite adds its `_db_id` tag, which `Untag` drops).
   */
  lemma AddAppends(b: Backend, messages: seq<Json>)
    requires Valid(b)
    requires AllEncodable(messages)
    requires forall i | 0 <= i < |messages| :: SqliteStorage.Untagged(messages[i])
    ensures Appended(Queue(b), Queue(AddMessages(b, messages)), messages)
  {
    var before := Queue(b);
    var after := Queue(AddMessages(b, messages));
    match b
    case JsonBackend(f) =>
      if |messages| > 0 {
        AllEncodableAppend(JsonStorage.LoadEntireList(f), messages);
        assert after == before + messages;
        JsonAddAppends(before, messages);
      } else {
        assert after == before;
      }
    case SqliteBackend(t) =>
      SqliteStorage.AddThenLoad(t, messages);
      assert before == SqliteStorage.LoadMessages(t, 0);
      assert after == SqliteStorage.LoadMessages(SqliteStorage.AddMessages(t, messages), 0);
  }

  /**
   * `after` is the queue `before` with `messages` appended: the old queue in
   * front, then one entry per message that reads as the message once its
   * `_db_id` tag is dropped.
   */
  predicate Appended(before: seq<Json>, after: seq<Json>, messages: seq<Json>) {
    && |after| == |before| + |messages|
    && after[..|before|] == before
    && forall i | 0 <= i < |messages| :: SqliteStorage.Untag(after[|before| + i]) == messages[i]
  }

  /** The JSON half of `AddAppends`, on the stored list itself. */
  lemma JsonAddAppends(stored: seq<Json>, messages: seq<Json>)
    requires forall i | 0 <= i < |messages| :: SqliteStorage.Untagged(messages[i])
    ensures (stored + messages)[..|stored|] == stored
    ensures forall i | 0 <= i < |messages| :: SqliteStorage.Untag((stored + messages)[|stored| + i]) == messages[i]
  {
    forall i | 0 <= i < |messages|
      ensures SqliteStorage.Untag((stored + messages)[|stored| + i]) == messages[i]
    {
      assert (stored + messages)[|stored| + i] == messages[i];
      Dict.DeleteAbsent(messages[i].fields, SqliteStorage.DbIdKey);
    }
  }

  /**
   * The JSON backend rewrites the whole file on every add, so adding a
   * message it cannot encode loses the queue that was stored before.
   */
  lemma JsonUnencodableAddLosesQueue(f: JsonStorage.JsonFile, messages: seq<Json>)
    requires !AllEncodable(messages)
    ensures Queue(AddMessages(JsonBackend(f), messages)) == []
  {
  }

  /** SQLite skips a message it cannot encode and keeps everything else. */
  lemma SqliteUnencodableAddKeepsQueue(t: SqliteStorage.Table, messages: seq<Json>)
    ensures Queue(SqliteBackend(t)) <= Queue(AddMessages(SqliteBackend(t), messages))
  {
    if |messages| > 0 {
      SqliteStorage.DecodeRowsAppend(t.rows, SqliteStorage.NewRows(t.nextId, SqliteStorage.Encoded(messages)));
    }
  }
}

=== FILE: sqlite_storage.dfy ===
/**
 * The SQLite backend of the offline queue (SQLiteOfflineStorage): one row per
 * message in table `offline_messages(id INTEGER PRIMARY KEY AUTOINCREMENT,
 * data TEXT)`. Loading tags each message with its row id under `_db_id`;
 * removal deletes by those ids.
 */
module SqliteStorage {
  import opened Wrappers
  import opened Json
  import Dict

  const DbIdKey: string := "_db_id"

  /** The `data` column as json.loads sees it: a parsed value, or text that does not parse. */
  datatype Payload = Text(value: Json) | Corrupt

  datatype Row = Row(id: int, data: Payload)

  /**
   * The table: rows in ascending id order (the order of an INTEGER PRIMARY KEY
   * table) and the AUTOINCREMENT counter, one past the largest id ever issued.
   */
  datatype Table = Table(rows: seq<Row>, nextId: int)

  predicate Ascending(rows: seq<Row>) {
    forall i, j | 0 <= i < j < |rows| :: rows[i].id < rows[j].id
  }

  predicate Valid(t: Table) {
    && t.nextId >= 1
    && (forall i | 0 <= i < |t.rows| :: 1 <= t.rows[i].id < t.nextId)
    && Ascending(t.rows)
  }

  function Min(a: int, b: int): int { if a < b then a else b }

  /** `_init_db`: CREATE TABLE IF NOT EXISTS keeps a table that is there and creates an empty one otherwise. */
  function InitDb(existing: Option<Table>): (t: Table)
    ensures existing.None? ==> Valid(t) && t.rows == [] && LoadMessages(t, 0) == []
    ensures existing.Some? ==> t == existing.value
  {
    match existing
    case Some(t) => t
    case None => Table([], 1)
  }

  /** The messages json.dumps accepts, in order; the others are logged and skipped. */
  function Encoded(messages: seq<Json>): (r: seq<Json>)
    ensures |r| <= |messages|
    ensures AllEncodable(r)
    ensures AllEncodable(messages) ==> r == messages
  {
    if |messages| == 0 then []
    else if Encodable(messages[0]) then [messages[0]] + Encoded(messages[1..])
    else Encoded(messages[1..])
  }

  /** Every encodable message is kept, and nothing is added or duplicated. */
  lemma {:induction false} EncodedKeeps(messages: seq<Json>)
    ensures forall m | m in messages && Encodable(m) :: m in Encoded(messages)
    ensures multiset(Encoded(messages)) <= multiset(messages)
    decreases |messages|
  {
    if |messages| > 0 {
      EncodedKeeps(messages[1..]);
      assert messages == [messages[0]] + messages[1..];
    }
  }

  /**
   * Skipping works message by message: the encodable messages of a
   * concatenation are those of each part, in order.
   */
  lemma {:induction false} EncodedAppend(a: seq<Json>, b: seq<Json>)
    ensures Encoded(a + b) == Encoded(a) + Encoded(b)
    decreases |a|
  {
    if |a| == 0 {
      assert a + b == b;
    } else {
      assert (a + b)[0] == a[0];
      assert (a + b)[1..] == a[1..] + b;
      EncodedAppend(a[1..], b);
    }
  }

  /** One message is kept exactly when json.dumps accepts it. */
  lemma EncodedSingle(m: Json)
    ensures Encoded([m]) == if Encodable(m) then [m] else []
  {
    assert [m][1..] == [];
  }

  /** The rows a batch insert appends: consecutive ids from `start`, one per message. */
  function NewRows(start: int, messages: seq<Json>): (r: seq<Row>)
    ensures |r| == |messages|
    ensures forall i | 0 <= i < |r| :: r[i].id == start + i
    decreases |messages|
  {
    if |messages| == 0 then []
    else [Row(start, Text(messages[0]))] + NewRows(start + 1, messages[1..])
  }

  /** One INSERT per message json.dumps accepts, each taking the next id. */
  function Insert(t: Table, messages: seq<Json>): (r: Table)
    ensures r == Table(t.rows + NewRows(t.nextId, Encoded(messages)), t.nextId + |Encoded(messages)|)
    decreases |messages|
  {
    if |messages| == 0 then t
    else if Encodable(messages[0]) then
      var row := Row(t.nextId, Text(messages[0]));
      var r := Insert(Table(t.rows + [row], t.nextId + 1), messages[1..]);
      var e := Encoded(messages[1..]);
      assert Encoded(messages) == [messages[0]] + e;
      assert NewRows(t.nextId, [messages[0]] + e) == [row] + NewRows(t.nextId + 1, e) by {
        assert ([messages[0]] + e)[1..] == e;
      }
      assert t.rows + [row] + NewRows(t.nextId + 1, e) == t.rows + ([row] + NewRows(t.nextId + 1, e));
      r
    else
      Insert(t, messages[1..])
  }

  /** `add_messages`: an empty list changes nothing; otherwise each encodable message gets a new row. */
  function AddMessages(t: Table, messages: seq<Json>): (r: Table)
    ensures |messages| == 0 ==> r == t
    ensures |messages| > 0 ==> r.rows == t.rows + NewRows(t.nextId, Encoded(messages))
    ensures |r.rows| == |t.rows| + |Encoded(messages)|
    ensures Valid(t) ==> Valid(r)
  {
    if |messages| == 0 then t
    else
      var r := Insert(t, messages);
      assert Valid(t) ==> Valid(r) by {
        if Valid(t) {
          forall i, j | 0 <= i < j < |r.rows| ensures r.rows[i].id < r.rows[j].id {
            if j >= |t.rows| && i < |t.rows| { assert r.rows[i] == t.rows[i]; }
          }
        }
      }
      r
  }

  /** A stored payload read back: only objects can take the `_db_id` tag; anything else is skipped. */
  function Decode(row: Row): Option<Json> {
    match row.data
    case Text(JObj(fields)) => Some(JObj(Dict.Put(fields, DbIdKey, JInt(row.id))))
    case _ => None
  }

  /** The ids of the rows that decode, in row order. */
  function DecodedIds(rows: seq<Row>): (r: seq<int>)
    ensures |r| <= |rows|
  {
    if |rows| == 0 then []
    else if Decode(rows[0]).Some? then [rows[0].id] + DecodedIds(rows[1..])
    else DecodedIds(rows[1..])
  }

  /** The messages of the rows that decode, in row order. */
  function DecodeRows(rows: seq<Row>): (r: seq<Json>)
    ensures |r| == |DecodedIds(rows)|
  {
    if |rows| == 0 then []
    else match Decode(rows[0])
      case Some(m) => [m] + DecodeRows(rows[1..])
      case None => DecodeRows(rows[1..])
  }

  /** Every decoded message carries the id of the row it came from. */
  lemma {:induction false} DecodedCarryIds(rows: seq<Row>)
    ensures forall i | 0 <= i < |DecodeRows(rows)| :: RowIdOf(DecodeRows(rows)[i]) == Id(DecodedIds(rows)[i])
    decreases |rows|
  {
    if |rows| > 0 {
      DecodedCarryIds(rows[1..]);
      if Decode(rows[0]).Some? {
        DecodedRowId(rows[0]);
      }
    }
  }

  /**
   * `load_messages(limit)`: the LIMIT applies to rows, then rows that fail to
   * decode are dropped, so fewer than `limit` messages can come back while
   * more rows remain. Each message carries its row id.
   */
  function LoadMessages(t: Table, limit: int): (r: seq<Json>)
    ensures limit > 0 ==> |r| <= limit
    ensures r <= DecodeRows(t.rows)
    ensures limit <= 0 ==> r == DecodeRows(t.rows)
    ensures forall i | 0 <= i < |r| :: RowIdOf(r[i]).Id?
  {
    DecodedCarryIds(t.rows);
    if limit > 0 then
      var k := Min(limit, |t.rows|);
      DecodeRowsPrefix(t.rows, k);
      DecodeRows(t.rows[..k])
    else DecodeRows(t.rows)
  }

  /**
   * A limited load takes the first min(limit, rows) rows and returns one
   * message per row among them that decodes, carrying that row's id; so it
   * returns exactly min(limit, rows) messages when those rows all decode.
   */
  lemma LoadCount(t: Table, limit: int)
    requires limit > 0
    ensures var r := LoadMessages(t, limit);
      var k := Min(limit, |t.rows|);
      && |r| == |DecodedIds(t.rows[..k])|
      && (forall i | 0 <= i < |r| :: RowIdOf(r[i]) == Id(DecodedIds(t.rows[..k])[i]))
      && ((forall i | 0 <= i < k :: Decode(t.rows[i]).Some?) ==> |r| == k)
  {
    var k := Min(limit, |t.rows|);
    DecodedCarryIds(t.rows[..k]);
    AllDecodeCount(t.rows[..k]);
    if forall i | 0 <= i < k :: Decode(t.rows[i]).Some? {
      assert forall i | 0 <= i < k :: t.rows[..k][i] == t.rows[i];
    }
  }

  /** When every row decodes, each row yields one message. */
  lemma {:induction false} AllDecodeCount(rows: seq<Row>)
    ensures (forall i | 0 <= i < |rows| :: Decode(rows[i]).Some?) ==> |DecodedIds(rows)| == |rows|
    decreases |rows|
  {
    if |rows| > 0 {
      AllDecodeCount(rows[1..]);
      if forall i | 0 <= i < |rows| :: Decode(rows[i]).Some? {
        assert forall i | 0 <= i < |rows[1..]| :: rows[1..][i] == rows[i + 1];
      }
    }
  }

  /** What `msg.get("_db_id")` and `isinstance(row_id, int)` make of a message. */
  datatype IdLookup = NotADict | NoId | Id(id: int)

  function RowIdOf(m: Json): IdLookup {
    match m
    case JObj(fields) =>
      (match Dict.Get<Json>(fields, DbIdKey)
       case Some(JInt(i)) => Id(i)
       case Some(JBool(b)) => Id(if b then 1 else 0)  // bool is a subclass of int
       case _ => NoId)
    case _ => NotADict
  }

  /**
   * The ids `remove_messages` collects, in order; None when a message is not a
   * dict, whose `.get` raises before anything is deleted.
   */
  function CollectIds(messages: seq<Json>): (r: Option<seq<int>>)
    ensures r.Some? ==> |r.value| <= |messages|
    ensures r.None? <==> exists i | 0 <= i < |messages| :: RowIdOf(messages[i]).NotADict?
    ensures r.Some? ==> forall i | 0 <= i < |messages| && RowIdOf(messages[i]).Id? :: RowIdOf(messages[i]).id in r.value
    decreases |messages|
  {
    if |messages| == 0 then Some([])
    else
      var tail := messages[1..];
      assert forall i | 1 <= i < |messages| :: messages[i] == tail[i - 1];
      match CollectIds(tail)
      case None => None
      case Some(rest) =>
        match RowIdOf(messages[0])
        case NotADict => None
        case NoId => Some(rest)
        case Id(i) => Some([i] + rest)
  }

  /** The ids whose rows a remove call deletes. */
  function TargetIds(messages: seq<Json>): set<int> {
    match CollectIds(messages)
    case None => {}
    case Some(ids) => IdsOf(ids)
  }

  function IdsOf(ids: seq<int>): set<int> {
    set i | i in ids
  }

  /** `DELETE ... WHERE id IN (...)`: the rows whose id is not targeted, in order. */
  function Keep(rows: seq<Row>, ids: set<int>): (r: seq<Row>)
    ensures |r| <= |rows|
    ensures forall i | 0 <= i < |r| :: r[i].id !in ids
  {
    if |rows| == 0 then []
    else if rows[0].id in ids then Keep(rows[1..], ids)
    else [rows[0]] + Keep(rows[1..], ids)
  }

  /** The delete keeps exactly the untargeted rows: every kept row is a row, and every untargeted row is kept. */
  lemma {:induction false} KeepMembers(rows: seq<Row>, ids: set<int>)
    ensures forall i | 0 <= i < |Keep(rows, ids)| :: Keep(rows, ids)[i] in rows
    ensures forall i | 0 <= i < |rows| :: rows[i].id !in ids ==> rows[i] in Keep(rows, ids)
    decreases |rows|
  {
    if |rows| > 0 {
      var rest := rows[1..];
      KeepMembers(rest, ids);
      var kept := Keep(rest, ids);
      forall i | 0 <= i < |kept| ensures kept[i] in rows {
        assert kept[i] in rest;
      }
      forall i | 0 <= i < |rows| && rows[i].id !in ids ensures rows[i] in Keep(rows, ids) {
        if i > 0 {
          assert rows[i] == rest[i - 1];
        }
      }
    }
  }

  /** The delete keeps the rows in ascending order. */
  lemma {:induction false} KeepAscending(rows: seq<Row>, ids: set<int>)
    requires Ascending(rows)
    ensures Ascending(Keep(rows, ids))
    decreases |rows|
  {
    if |rows| > 0 {
      var rest := rows[1..];
      KeepAscending(rest, ids);
      if rows[0].id !in ids {
        var kept := Keep(rest, ids);
        KeepMembers(rest, ids);
        forall i | 0 <= i < |kept| ensures rows[0].id < kept[i].id {
          var j :| 0 <= j < |rest| && rest[j] == kept[i];
          assert rest[j] == rows[j + 1];
        }
      }
    }
  }

  /**
   * `remove_messages`: deletes exactly the rows whose id is the integer
   * `_db_id` of some message and returns how many rows went.
   */
  function RemoveMessages(t: Table, messages: seq<Json>): (r: (Table, nat))
    ensures r.0.nextId == t.nextId
    ensures r.1 == |t.rows| - |r.0.rows|
    ensures forall i | 0 <= i < |t.rows| :: t.rows[i] in r.0.rows <==> t.rows[i].id !in TargetIds(messages)
    ensures forall i | 0 <= i < |r.0.rows| :: r.0.rows[i] in t.rows
    ensures Valid(t) ==> Valid(r.0) && r.1 <= |messages|
    ensures CollectIds(messages).None? ==> r == (t, 0)
  {
    if |messages| == 0 then (t, 0)
    else match CollectIds(messages)
      case None => (t, 0)
      case Some(ids) =>
        if |ids| == 0 then (t, 0)
        else
          var kept := Keep(t.rows, IdsOf(ids));
          KeepMembers(t.rows, IdsOf(ids));
          assert Ascending(t.rows) ==> |t.rows| - |kept| <= |ids| && Ascending(kept) by {
            if Ascending(t.rows) {
              DeletedBound(t.rows, IdsOf(ids));
              SetOfSeqBound(ids);
              KeepAscending(t.rows, IdsOf(ids));
            }
          }
          (Table(kept, t.nextId), |t.rows| - |kept|)
  }

  /** The ids of the rows. */
  function IdSet(rows: seq<Row>): set<int> {
    if |rows| == 0 then {} else {rows[0].id} + IdSet(rows[1..])
  }

  /** The row an id of `IdSet(rows)` comes from. */
  lemma {:induction false} IdSetWitness(rows: seq<Row>, x: int) returns (j: nat)
    requires x in IdSet(rows)
    ensures j < |rows| && rows[j].id == x
    decreases |rows|
  {
    if rows[0].id == x {
      j := 0;
    } else {
      var k := IdSetWitness(rows[1..], x);
      j := k + 1;
    }
  }

  lemma SetOfSeqBound(ids: seq<int>)
    ensures |IdsOf(ids)| <= |ids|
  {
    if |ids| > 0 {
      SetOfSeqBound(ids[1..]);
      assert IdsOf(ids) == {ids[0]} + IdsOf(ids[1..]);
    }
  }

  lemma SubsetCard(a: set<int>, b: set<int>)
    requires a <= b
    ensures |a| <= |b|
  {
    assert b == a + (b - a);
  }

  /** With distinct ids, a delete removes no more rows than the ids it names. */
  lemma {:induction false} DeletedBound(rows: seq<Row>, ids: set<int>)
    requires Ascending(rows)
    ensures |rows| - |Keep(rows, ids)| <= |ids|
  {
    DeletedMatching(rows, ids);
    SubsetCard(ids * IdSet(rows), ids);
  }

  lemma {:induction false} DeletedMatching(rows: seq<Row>, ids: set<int>)
    requires Ascending(rows)
    ensures |rows| - |Keep(rows, ids)| <= |ids * IdSet(rows)|
    decreases |rows|
  {
    if |rows| > 0 {
      var rest := rows[1..];
      var x := rows[0].id;
      DeletedMatching(rest, ids);
      MatchingHead(rows, ids);
    }
  }

  /** The targeted ids among an ascending table's rows: the head's, if targeted, plus those of the rest. */
  lemma MatchingHead(rows: seq<Row>, ids: set<int>)
    requires Ascending(rows) && |rows| > 0
    ensures |ids * IdSet(rows)| == |ids * IdSet(rows[1..])| + (if rows[0].id in ids then 1 else 0)
  {
    var matching := ids * IdSet(rows[1..]);
    var x := rows[0].id;
    HeadIdNotLater(rows);
    assert IdSet(rows) == {x} + IdSet(rows[1..]);
    if x in ids {
      assert ids * IdSet(rows) == matching + {x};
      assert x !in matching;
      assert matching * {x} == {};
    } else {
      assert ids * IdSet(rows) == matching;
    }
  }

  /** In an ascending table the head's id is none of the later rows' ids. */
  lemma HeadIdNotLater(rows: seq<Row>)
    requires Ascending(rows) && |rows| > 0
    ensures rows[0].id !in IdSet(rows[1..])
  {
    var rest := rows[1..];
    forall y | y in IdSet(rest) ensures y != rows[0].id {
      var j := IdSetWitness(rest, y);
      assert rest[j] == rows[j + 1];
    }
  }

  /** Decoding a prefix of the rows gives a prefix of the decoded queue. */
  lemma {:induction false} DecodeRowsPrefix(rows: seq<Row>, k: nat)
    requires k <= |rows|
    ensures DecodeRows(rows[..k]) <= DecodeRows(rows)
    decreases k
  {
    if k > 0 {
      assert rows[..k][1..] == rows[1..][..k - 1];
      DecodeRowsPrefix(rows[1..], k - 1);
    }
  }

  /** A message as `load_messages` returns it: the stored object with `_db_id` set to its row id. */
  function Tag(m: Json, id: int): Json {
    match m
    case JObj(fields) => JObj(Dict.Put(fields, DbIdKey, JInt(id)))
    case _ => m
  }

  /** Dropping the `_db_id` tag again; a message that had no such key comes back unchanged. */
  function Untag(m: Json): (r: Json)
    ensures m.JObj? ==> r.JObj? && DbIdKey !in Dict.Keys(r.fields)
  {
    match m
    case JObj(fields) => JObj(Dict.Delete(fields, DbIdKey))
    case _ => m
  }

  predicate Untagged(m: Json) {
    m.JObj? && DbIdKey !in Dict.Keys(m.fields)
  }

  lemma UntagTag(m: Json, id: int)
    requires Untagged(m)
    ensures Untag(Tag(m, id)) == m
  {
    Dict.DeletePutFresh(m.fields, DbIdKey, JInt(id));
  }

  lemma {:induction false} DecodeRowsAppend(a: seq<Row>, b: seq<Row>)
    ensures DecodeRows(a + b) == DecodeRows(a) + DecodeRows(b)
    ensures DecodedIds(a + b) == DecodedIds(a) + DecodedIds(b)
    decreases |a|
  {
    if |a| > 0 {
      assert (a + b)[0] == a[0];
      assert (a + b)[1..] == a[1..] + b;
      DecodeRowsAppend(a[1..], b);
    } else {
      assert a + b == b;
    }
  }

  /** Messages tagged with consecutive ids from `start`. */
  function TagFrom(start: int, messages: seq<Json>): (r: seq<Json>)
    ensures |r| == |messages|
    ensures forall i | 0 <= i < |r| :: r[i] == Tag(messages[i], start + i)
    decreases |messages|
  {
    if |messages| == 0 then []
    else [Tag(messages[0], start)] + TagFrom(start + 1, messages[1..])
  }

  /** Freshly inserted objects decode to themselves tagged with their new ids. */
  lemma {:induction false} DecodeNewRows(start: int, messages: seq<Json>)
    requires forall i | 0 <= i < |messages| :: messages[i].JObj?
    ensures DecodeRows(NewRows(start, messages)) == TagFrom(start, messages)
    decreases |messages|
  {
    if |messages| > 0 {
      var rows := NewRows(start, messages);
      var rest := messages[1..];
      assert rows[0] == Row(start, Text(messages[0]));
      assert rows[1..] == NewRows(start + 1, rest);
      assert Decode(rows[0]) == Some(Tag(messages[0], start));
      assert forall i | 0 <= i < |rest| :: rest[i].JObj? by {
        forall i | 0 <= i < |rest| ensures rest[i].JObj? { assert rest[i] == messages[i + 1]; }
      }
      DecodeNewRows(start + 1, rest);
      assert DecodeRows(rows) == [Tag(messages[0], start)] + DecodeRows(rows[1..]);
      assert TagFrom(start, messages) == [Tag(messages[0], start)] + TagFrom(start + 1, rest);
    }
  }

  /**
   * Adding encodable objects to the queue appends them, each tagged with a
   * fresh row id, after the messages already stored; dropping the tags gives
   * back exactly the messages added.
   */
  lemma AddThenLoad(t: Table, messages: seq<Json>)
    requires AllEncodable(messages)
    requires forall i | 0 <= i < |messages| :: Untagged(messages[i])
    ensures |LoadMessages(AddMessages(t, messages), 0)| == |LoadMessages(t, 0)| + |messages|
    ensures LoadMessages(AddMessages(t, messages), 0)[..|LoadMessages(t, 0)|] == LoadMessages(t, 0)
    ensures forall i | 0 <= i < |messages| ::
      Untag(LoadMessages(AddMessages(t, messages), 0)[|LoadMessages(t, 0)| + i]) == messages[i]
  {
    var before := LoadMessages(t, 0);
    var after := LoadMessages(AddMessages(t, messages), 0);
    if |messages| > 0 {
      var tagged := TagFrom(t.nextId, messages);
      LoadAfterAdd(t, messages);
      assert after[..|before|] == before;
      forall i | 0 <= i < |messages| ensures Untag(after[|before| + i]) == messages[i] {
        assert after[|before| + i] == tagged[i];
        UntagTag(messages[i], t.nextId + i);
      }
    }
  }

  /** The queue after an insert of encodable objects: the old queue, then the objects tagged with their new ids. */
  lemma LoadAfterAdd(t: Table, messages: seq<Json>)
    requires AllEncodable(messages) && |messages| > 0
    requires forall i | 0 <= i < |messages| :: Untagged(messages[i])
    ensures LoadMessages(AddMessages(t, messages), 0) == LoadMessages(t, 0) + TagFrom(t.nextId, messages)
  {
    var added := NewRows(t.nextId, messages);
    assert Encoded(messages) == messages;
    assert AddMessages(t, messages).rows == t.rows + added;
    DecodeRowsAppend(t.rows, added);
    DecodeNewRows(t.nextId, messages);
  }

  /** Row ids that decode are ids of the rows. */
  lemma {:induction false} DecodedIdsIn(rows: seq<Row>)
    ensures forall x | x in DecodedIds(rows) :: x in IdSet(rows)
    decreases |rows|
  {
    if |rows| > 0 {
      DecodedIdsIn(rows[1..]);
    }
  }

  /** Reading the ids back from loaded messages gives the decoded row ids. */
  lemma {:induction false} CollectDecodedIds(rows: seq<Row>)
    ensures CollectIds(DecodeRows(rows)) == Some(DecodedIds(rows))
    decreases |rows|
  {
    if |rows| > 0 {
      var rest := rows[1..];
      CollectDecodedIds(rest);
      if Decode(rows[0]).Some? {
        var m := Decode(rows[0]).value;
        DecodedRowId(rows[0]);
        var ms := [m] + DecodeRows(rest);
        assert DecodeRows(rows) == ms;
        assert ms[0] == m && ms[1..] == DecodeRows(rest);
        assert DecodedIds(rows) == [rows[0].id] + DecodedIds(rest);
      } else {
        assert DecodeRows(rows) == DecodeRows(rest);
      }
    }
  }

  /** A decoded row carries its own id under `_db_id`. */
  lemma DecodedRowId(row: Row)
    requires Decode(row).Some?
    ensures RowIdOf(Decode(row).value) == Id(row.id)
  {
    Dict.GetPut(row.data.value.fields, DbIdKey, JInt(row.id), DbIdKey);
  }

  /** Ids that no row carries do not change what a delete keeps. */
  lemma {:induction false} KeepSameIds(rows: seq<Row>, a: set<int>, b: set<int>)
    requires forall i | 0 <= i < |rows| :: rows[i].id in a <==> rows[i].id in b
    ensures Keep(rows, a) == Keep(rows, b)
    decreases |rows|
  {
    if |rows| > 0 {
      KeepSameIds(rows[1..], a, b);
    }
  }

  lemma {:induction false} KeepNothing(rows: seq<Row>)
    ensures Keep(rows, {}) == rows
    decreases |rows|
  {
    if |rows| > 0 {
      KeepNothing(rows[1..]);
    }
  }

  /** In an ascending table the first row's id is not among the decoded ids of later rows. */
  lemma HeadIdFresh(rows: seq<Row>, k: nat)
    requires Ascending(rows)
    requires 0 < k <= |rows|
    ensures rows[0].id !in IdsOf(DecodedIds(rows[1..][..k - 1]))
  {
    var later := rows[1..][..k - 1];
    DecodedIdsIn(later);
    forall x | x in IdSet(later)
      ensures x != rows[0].id
    {
      var j := IdSetWitness(later, x);
      assert later[j] == rows[j + 1];
    }
  }

  lemma {:induction false} DecodedIdsHead(rows: seq<Row>, k: nat)
    requires 0 < k <= |rows|
    ensures IdsOf(DecodedIds(rows[..k])) ==
      IdsOf(DecodedIds(rows[1..][..k - 1])) + (if Decode(rows[0]).Some? then {rows[0].id} else {})
  {
    assert rows[..k][1..] == rows[1..][..k - 1];
    assert rows[..k][0] == rows[0];
  }

  /**
   * Deleting the decoded ids of the first k rows removes exactly those rows
   * (rows that did not decode stay) and leaves the decoded queue without its
   * first messages.
   */
  lemma KeepDecodedPrefix(rows: seq<Row>, k: nat)
    requires Ascending(rows)
    requires k <= |rows|
    ensures DecodeRows(Keep(rows, IdsOf(DecodedIds(rows[..k])))) == DecodeRows(rows[k..])
    ensures |rows| - |Keep(rows, IdsOf(DecodedIds(rows[..k])))| == |DecodedIds(rows[..k])|
  {
    KeepDecodedRows(rows, k);
    KeepDecodedCount(rows, k);
  }

  lemma {:induction false} KeepDecodedRows(rows: seq<Row>, k: nat)
    requires Ascending(rows)
    requires k <= |rows|
    ensures DecodeRows(Keep(rows, IdsOf(DecodedIds(rows[..k])))) == DecodeRows(rows[k..])
    decreases k
  {
    var s := IdsOf(DecodedIds(rows[..k]));
    if k == 0 {
      assert s == {};
      KeepNothing(rows);
    } else {
      var rest := rows[1..];
      var s' := IdsOf(DecodedIds(rest[..k - 1]));
      KeepDecodedRows(rest, k - 1);
      HeadIdFresh(rows, k);
      DecodedIdsHead(rows, k);
      KeepHead(rows, s, s');
      assert rows[k..] == rest[k - 1..];
      if Decode(rows[0]).None? {
        var withHead := [rows[0]] + Keep(rest, s');
        assert withHead[0] == rows[0] && withHead[1..] == Keep(rest, s');
      }
    }
  }

  lemma {:induction false} KeepDecodedCount(rows: seq<Row>, k: nat)
    requires Ascending(rows)
    requires k <= |rows|
    ensures |rows| - |Keep(rows, IdsOf(DecodedIds(rows[..k])))| == |DecodedIds(rows[..k])|
    decreases k
  {
    var s := IdsOf(DecodedIds(rows[..k]));
    if k == 0 {
      assert rows[..0] == [];
      assert s == {};
      KeepNothing(rows);
    } else {
      var rest := rows[1..];
      var s' := IdsOf(DecodedIds(rest[..k - 1]));
      KeepDecodedCount(rest, k - 1);
      HeadIdFresh(rows, k);
      DecodedIdsHead(rows, k);
      KeepHead(rows, s, s');
      var head := if Decode(rows[0]).Some? then 1 else 0;
      assert |DecodedIds(rows[..k])| == head + |DecodedIds(rest[..k - 1])| by {
        assert rows[..k][1..] == rest[..k - 1] && rows[..k][0] == rows[0];
      }
      assert |Keep(rows, s)| + head == 1 + |Keep(rest, s')|;
      assert |rows| == 1 + |rest|;
    }
  }

  /** One step of the delete: the head row goes exactly when its id is targeted. */
  lemma KeepHead(rows: seq<Row>, s: set<int>, s': set<int>)
    requires Ascending(rows)
    requires |rows| > 0
    requires rows[0].id !in s'
    requires s == s' + (if Decode(rows[0]).Some? then {rows[0].id} else {})
    ensures Keep(rows, s) == if Decode(rows[0]).Some? then Keep(rows[1..], s') else [rows[0]] + Keep(rows[1..], s')
  {
    var rest := rows[1..];
    forall i | 0 <= i < |rest| ensures rest[i].id in s <==> rest[i].id in s' {
      assert rows[i + 1] == rest[i];
    }
    KeepSameIds(rest, s, s');
  }

  /**
   * Removing what a load returned deletes one row per loaded message and the
   * queue that remains is the rest of the old queue, in order.
   */
  lemma RemoveLoaded(t: Table, limit: int)
    requires Valid(t)
    ensures var loaded := LoadMessages(t, limit);
      var r := RemoveMessages(t, loaded);
      && Valid(r.0)
      && r.1 == |loaded|
      && LoadMessages(r.0, 0) == LoadMessages(t, 0)[|loaded|..]
  {
    var loaded := LoadMessages(t, limit);
    assert loaded == LoadMessages(t, 0)[..|loaded|];
    RemoveQueuePrefix(t, |loaded|);
  }

  /** Every prefix of the decoded queue is what some prefix of the rows decodes to. */
  lemma {:induction false} DecodedPrefixRows(rows: seq<Row>, n: nat) returns (j: nat)
    requires n <= |DecodeRows(rows)|
    ensures j <= |rows|
    ensures DecodeRows(rows[..j]) == DecodeRows(rows)[..n]
    decreases |rows|
  {
    if n == 0 {
      j := 0;
    } else {
      assert rows != [];
      var j' := DecodedPrefixRows(rows[1..], if Decode(rows[0]).Some? then n - 1 else n);
      j := j' + 1;
      assert rows[..j][1..] == rows[1..][..j'];
      assert rows[..j][0] == rows[0];
    }
  }

  /**
   * Removing the first n messages of the decoded queue, as loaded, deletes n
   * rows and leaves the rest of the queue in order.
   */
  lemma RemoveQueuePrefix(t: Table, n: nat)
    requires Valid(t)
    requires n <= |LoadMessages(t, 0)|
    ensures var r := RemoveMessages(t, LoadMessages(t, 0)[..n]);
      && Valid(r.0)
      && r.1 == n
      && LoadMessages(r.0, 0) == LoadMessages(t, 0)[n..]
  {
    var j := DecodedPrefixRows(t.rows, n);
    var ms := LoadMessages(t, 0)[..n];
    CollectDecodedIds(t.rows[..j]);
    KeepDecodedPrefix(t.rows, j);
    DecodeRowsAppend(t.rows[..j], t.rows[j..]);
    assert t.rows[..j] + t.rows[j..] == t.rows;
    if n == 0 {
      assert LoadMessages(t, 0)[0..] == LoadMessages(t, 0);
    }
  }

  /** Rows none of which decodes contribute nothing to the queue. */
  lemma {:induction false} NothingDecodes(rows: seq<Row>)
    requires forall i | 0 <= i < |rows| :: Decode(rows[i]).None?
    ensures DecodeRows(rows) == []
    decreases |rows|
  {
    if |rows| > 0 {
      NothingDecodes(rows[1..]);
    }
  }
}

=== FILE: storage_service.dfy ===
/**
 * The store-and-forward service (OfflineStorageService): picks a backend
 * from the configuration, queues messages that could not be sent, and
 * flushes the queue through the attached client in batches of ten,
 * removing what was delivered and stopping at the first failed send.
 */
module StorageService {
  import opened Wrappers
  import opened Json
  import opened OfflineStorage
  import JsonStorage
  import SqliteStorage
  import ConfigLoader
  import Text

  const BatchSize: int := 10

  /** The service; `storage` is None when offline caching is disabled. */
  datatype Service = Service(storage: Option<Backend>)

  predicate ServiceValid(s: Service) {
    s.storage.Some? ==> Valid(s.storage.value)
  }

  /** `add_message`: one message onto the queue, or dropped when there is no backend. */
  function AddMessage(s: Service, data: Json): (r: Service)
    ensures s.storage.None? ==> r == s
    ensures r.storage.Some? == s.storage.Some?
    ensures ServiceValid(s) ==> ServiceValid(r)
  {
    match s.storage
    case None => s
    case Some(b) => Service(Some(AddMessages(b, [data])))
  }

  /** A queued message lands at the end of the queue, everything before it kept. */
  lemma AddMessageQueues(s: Service, data: Json)
    requires ServiceValid(s) && s.storage.Some?
    requires Encodable(data) && SqliteStorage.Untagged(data)
    ensures var before := Queue(s.storage.value);
      var after := Queue(AddMessage(s, data).storage.value);
      && |after| == |before| + 1
      && after[..|before|] == before
      && SqliteStorage.Untag(after[|before|]) == data
  {
    AddAppends(s.storage.value, [data]);
  }

  /**
   * How many messages of a batch go out: sends stop at the first one the
   * client reports as failed. `send(k, m)` is the client's answer to the
   * k-th send of this flush.
   */
  function SentCount(batch: seq<Json>, send: (nat, Json) -> bool, base: nat): (n: nat)
    ensures n <= |batch|
    ensures n < |batch| ==> !send(base + n, batch[n])
    decreases |batch|
  {
    if |batch| == 0 || !send(base, batch[0]) then 0
    else 1 + SentCount(batch[1..], send, base + 1)
  }

  /** Every message before the one that failed was accepted. */
  lemma {:induction false} SentCountRun(batch: seq<Json>, send: (nat, Json) -> bool, base: nat)
    ensures forall i | 0 <= i < SentCount(batch, send, base) :: send(base + i, batch[i])
    decreases |batch|
  {
    if |batch| > 0 && send(base, batch[0]) {
      var t := batch[1..];
      SentCountRun(t, send, base + 1);
      forall i | 0 < i < SentCount(batch, send, base)
        ensures send(base + i, batch[i])
      {
        assert batch[i] == t[i - 1];
      }
    }
  }

  /** What a flush did: the backend afterwards, the messages delivered in order, the number of sends tried. */
  datatype FlushReport = FlushReport(storage: Backend, delivered: seq<Json>, sends: nat)

  /** One round's batch: the oldest ten queued messages. */
  function Batch(b: Backend): seq<Json> {
    LoadMessages(b, BatchSize)
  }

  /** The backend after one round: the sent prefix of the batch removed. */
  function AfterRound(b: Backend, n: nat): Backend
    requires n <= |Batch(b)|
  {
    if n > 0 then RemoveMessages(b, Batch(b)[..n]).0 else b
  }

  /** One round removes exactly the messages it sent, from the front of the queue. */
  lemma RoundRemovesSent(b: Backend, n: nat)
    requires Valid(b)
    requires n <= |Batch(b)|
    ensures Batch(b) <= Queue(b)
    ensures Batch(b)[..n] == Queue(b)[..n]
    ensures Valid(AfterRound(b, n))
    ensures Queue(AfterRound(b, n)) == Queue(b)[n..]
  {
    var batch := Batch(b);
    var q := Queue(b);
    LoadIsOldestFirst(b, BatchSize);
    assert batch[..n] == q[..n];
    RemoveQueuePrefix(b, n);
    if n == 0 {
      assert q[0..] == q;
    } else {
      assert AfterRound(b, n) == RemoveMessages(b, q[..n]).0;
    }
  }

  /**
   * The `while True` loop of `flush_data`. Each round loads a batch, sends
   * its messages until one fails, removes the ones sent, and goes on only
   * if the whole batch went out.
   *
   * A flush delivers a prefix of the queue, oldest first, each message
   * accepted by the client, and the queue afterwards is exactly what was
   * not delivered. It stops either at a failed send of the next queued
   * message (one send more than delivered) or when a load comes back empty.
   */
  function FlushLoop(b: Backend, send: (nat, Json) -> bool, base: nat): (r: FlushReport)
    requires Valid(b)
    ensures Valid(r.storage)
    ensures FlushSpec(b, send, base, r)
    decreases |Queue(b)|
  {
    var batch := Batch(b);
    if |batch| == 0 then
      assert Queue(b)[0..] == Queue(b);
      FlushReport(b, [], 0)
    else
      var n := SentCount(batch, send, base);
      RoundRemovesSent(b, n);
      var b1 := AfterRound(b, n);
      if n < |batch| then
        StopFacts(Queue(b), Queue(b1), Batch(b1), batch, n, send, base);
        FlushReport(b1, batch[..n], n + 1)
      else
        var rest := FlushLoop(b1, send, base + n);
        ContinueFacts(Queue(b), Queue(b1), batch, n, send, base,
                      Queue(rest.storage), Batch(rest.storage), rest.delivered, rest.sends);
        FlushReport(rest.storage, batch + rest.delivered, n + rest.sends)
  }

  /** The promises of a flush that started from backend `b`, about its report `r`. */
  predicate FlushSpec(b: Backend, send: (nat, Json) -> bool, base: nat, r: FlushReport) {
    RunSpec(Queue(b), Queue(r.storage), Batch(r.storage), r.delivered, r.sends, send, base)
  }

  /**
   * The same promises over plain sequences: `q` is the queue before, `q1`
   * the queue after and `next` the batch a further round would load.
   */
  predicate RunSpec(q: seq<Json>, q1: seq<Json>, next: seq<Json>, delivered: seq<Json>, sends: nat,
                    send: (nat, Json) -> bool, base: nat) {
    && delivered <= q
    && q1 == q[|delivered|..]
    && (forall i | 0 <= i < |delivered| :: send(base + i, delivered[i]))
    && (sends == |delivered| || sends == |delivered| + 1)
    && (sends == |delivered| + 1 ==> |q1| > 0 && !send(base + |delivered|, q1[0]))
    && (sends == |delivered| ==> next == [])
  }

  /** A round whose n-th send fails keeps that message at the head of the queue. */
  lemma StopFacts(q: seq<Json>, q1: seq<Json>, next: seq<Json>, batch: seq<Json>, n: nat,
                  send: (nat, Json) -> bool, base: nat)
    requires n == SentCount(batch, send, base) && n < |batch|
    requires batch <= q && q1 == q[n..]
    ensures RunSpec(q, q1, next, batch[..n], n + 1, send, base)
  {
    SentCountRun(batch, send, base);
  }

  /** A round that sends its whole batch followed by the rest of the flush. */
  lemma ContinueFacts(q: seq<Json>, q1: seq<Json>, batch: seq<Json>, n: nat, send: (nat, Json) -> bool, base: nat,
                      q2: seq<Json>, next: seq<Json>, rest: seq<Json>, sends: nat)
    requires n == SentCount(batch, send, base) && n == |batch|
    requires batch <= q && q1 == q[n..]
    requires RunSpec(q1, q2, next, rest, sends, send, base + n)
    ensures RunSpec(q, q2, next, batch + rest, n + sends, send, base)
  {
    var delivered := batch + rest;
    SentCountRun(batch, send, base);
    assert q == batch + q1;
    assert delivered <= q;
    assert q[|delivered|..] == q1[|rest|..];
    forall i | 0 <= i < |delivered|
      ensures send(base + i, delivered[i])
    {
      if i >= |batch| {
        assert delivered[i] == rest[i - |batch|];
      }
    }
  }

  /**
   * `flush_data`: nothing happens without a backend, without an attached
   * client or while the client is disconnected; otherwise the loop runs,
   * and it only stops when a further load would come back empty or when
   * the client refused the message now at the head of the queue.
   */
  function Flush(s: Service, clientAttached: bool, connected: bool, send: (nat, Json) -> bool): (r: (Service, seq<Json>))
    requires ServiceValid(s)
    ensures ServiceValid(r.0)
    ensures r.0.storage.Some? == s.storage.Some?
    ensures s.storage.None? || !clientAttached || !connected ==> r == (s, [])
    ensures s.storage.Some? ==> r.1 <= Queue(s.storage.value)
    ensures s.storage.Some? ==> Queue(r.0.storage.value) == Queue(s.storage.value)[|r.1|..]
    ensures forall i | 0 <= i < |r.1| :: send(i, r.1[i])
    ensures s.storage.Some? && clientAttached && connected ==>
      || Batch(r.0.storage.value) == []
      || (|Queue(r.0.storage.value)| > 0 && !send(|r.1|, Queue(r.0.storage.value)[0]))
  {
    match s.storage
    case None => (s, [])
    case Some(b) =>
      if !clientAttached || !connected then
        assert Queue(b)[..0] == [] && Queue(b)[0..] == Queue(b);
        (s, [])
      else
        var report := FlushLoop(b, send, 0);
        (Service(Some(report.storage)), report.delivered)
  }

  /** When the very first send fails, a flush delivers and removes nothing. */
  lemma FirstSendFails(b: Backend, send: (nat, Json) -> bool)
    requires Valid(b)
    requires |LoadMessages(b, BatchSize)| > 0
    requires !send(0, LoadMessages(b, BatchSize)[0])
    ensures FlushLoop(b, send, 0) == FlushReport(b, [], 1)
  {
  }

  /** The longest run of successful sends from the front of a sequence splits over concatenation. */
  lemma {:induction false} SentCountAppend(a: seq<Json>, c: seq<Json>, send: (nat, Json) -> bool, base: nat)
    ensures SentCount(a + c, send, base) ==
      if SentCount(a, send, base) < |a| then SentCount(a, send, base)
      else |a| + SentCount(c, send, base + |a|)
    decreases |a|
  {
    if |a| == 0 {
      assert a + c == c;
    } else {
      var t := a[1..];
      assert a + c == [a[0]] + (t + c);
      assert (a + c)[1..] == t + c;
      SentCountAppend(t, c, send, base + 1);
    }
  }

  /**
   * With the JSON backend, a flush delivers exactly the longest run of
   * queued messages, from the oldest, that the client accepts; so it empties
   * the queue unless a send fails.
   */
  lemma {:induction false} JsonFlushDeliversLongestRun(f: JsonStorage.JsonFile, send: (nat, Json) -> bool, base: nat)
    requires JsonStorage.Valid(f)
    ensures |FlushLoop(JsonBackend(f), send, base).delivered| == SentCount(Queue(JsonBackend(f)), send, base)
    decreases |Queue(JsonBackend(f))|
  {
    var b := JsonBackend(f);
    var q := Queue(b);
    var batch := Batch(b);
    LoadIsOldestFirst(b, BatchSize);
    if |batch| > 0 {
      var n := SentCount(batch, send, base);
      assert q == batch + q[|batch|..];
      SentCountAppend(batch, q[|batch|..], send, base);
      if n == |batch| {
        RoundRemovesSent(b, n);
        var b1 := AfterRound(b, n);
        JsonFlushDeliversLongestRun(b1.file, send, base + n);
        assert Queue(b1) == q[|batch|..];
      }
    }
  }

  /**
   * With SQLite, a flush is stuck once the first ten rows all fail to decode:
   * every batch it loads is empty, so nothing is sent even when later rows
   * hold messages.
   */
  lemma SqliteUndecodableHeadBlocksFlush(t: SqliteStorage.Table, send: (nat, Json) -> bool)
    requires SqliteStorage.Valid(t)
    requires |t.rows| >= BatchSize
    requires forall i | 0 <= i < BatchSize :: SqliteStorage.Decode(t.rows[i]).None?
    ensures FlushLoop(SqliteBackend(t), send, 0) == FlushReport(SqliteBackend(t), [], 0)
  {
    SqliteStorage.NothingDecodes(t.rows[..BatchSize]);
  }

  /** The backend `_create_offline_storage` builds, or the exception it raises. */
  datatype Creation = Created(storage: Option<Backend>) | PathMissing

  /**
   * `_create_offline_storage`: the type is lower-cased and stripped; the
   * path getter raises when the path is missing or empty, so the "no path"
   * branch that would disable caching is never reached; an unknown type
   * disables caching. `jsonOnDisk` and `sqliteOnDisk` are what the path
   * holds for each backend.
   */
  function CreateOfflineStorage(config: ConfigLoader.Config, jsonOnDisk: JsonStorage.JsonFile, sqliteOnDisk: Option<SqliteStorage.Table>): (r: Creation)
    ensures ConfigLoader.GetOfflineStoragePath(config).None? <==> r == PathMissing
    ensures r.Created? && r.storage.Some? ==>
      (r.storage.value.JsonBackend? <==> Text.Strip(ConfigLoader.GetOfflineStorageType(config)) == "json")
    ensures r.Created? ==>
      (r.storage.None? <==> Text.Strip(ConfigLoader.GetOfflineStorageType(config)) !in {"json", "sqlite"})
    ensures r.Created? && r.storage.Some? && r.storage.value.JsonBackend? ==> r.storage.value.file == jsonOnDisk
    ensures r.Created? && r.storage.Some? && r.storage.value.SqliteBackend? && sqliteOnDisk.None? ==>
      Queue(r.storage.value) == [] && Valid(r.storage.value)
  {
    var storageType := Text.Strip(Text.Lower(ConfigLoader.GetOfflineStorageType(config)));
    Text.LowerUnchanged(ConfigLoader.GetOfflineStorageType(config));
    match ConfigLoader.GetOfflineStoragePath(config)
    case None => PathMissing
    case Some(_) =>
      if storageType == "json" then Created(Some(JsonBackend(jsonOnDisk)))
      else if storageType == "sqlite" then Created(Some(SqliteBackend(SqliteStorage.InitDb(sqliteOnDisk))))
      else Created(None)
  }
}

=== FILE: telemetry_preprocessor.dfy ===
/**
 * The telemetry preprocessor (TelemetryPreprocessor): every reading is
 * sent, after its nested objects are flattened into one level. A key's dots
 * become underscores and a nested key is joined to its parent's with '_';
 * entries are processed in order, so a later key overwrites an earlier one.
 */
module TelemetryPreprocessor {
  import opened Wrappers
  import opened Json
  import Dict
  import Text

  /** `should_send`: no filtering. */
  function ShouldSend(data: Dict.Dict<Json>): (r: bool)
    ensures r
  {
    true
  }

  /** `k.replace(".", "_")`. */
  function SanitizeKey(k: string): (r: string)
    ensures |r| == |k|
    ensures forall i | 0 <= i < |k| :: r[i] == if k[i] == '.' then '_' else k[i]
    ensures '.' !in r
    ensures '.' !in k ==> r == k
  {
    Text.ReplaceChar(k, '.', '_')
  }

  /** The key of an entry under `parent`: `parent_k`, or just `k` when the parent key is empty. */
  function JoinKey(parent: string, k: string): (r: string)
    ensures '.' !in parent && '.' !in k ==> '.' !in r
  {
    if parent == "" then k else parent + "_" + k
  }

  /** The key an entry gets once sanitised and joined to its parent. */
  function EntryKey(parent: string, k: string): string {
    JoinKey(parent, SanitizeKey(k))
  }

  /** The first `n` entries of object `obj` flattened under `parent`, in order. */
  function FlattenUpTo(obj: Json, n: nat, parent: string): Dict.Dict<Json>
    requires obj.JObj? && n <= |obj.fields|
    decreases obj, n
  {
    if n == 0 then []
    else
      var items := FlattenUpTo(obj, n - 1, parent);
      var (k, v) := obj.fields[n - 1];
      var key := EntryKey(parent, k);
      if v.JObj? then Dict.PutAll(items, FlattenUpTo(v, |v.fields|, key))
      else Dict.Put(items, key, v)
  }

  /** `flatten_dict(d, parent_key)`. */
  function Flatten(d: Dict.Dict<Json>, parent: string): Dict.Dict<Json> {
    FlattenUpTo(JObj(d), |d|, parent)
  }

  /** `preprocess_data`: the reading, flattened. */
  function Preprocess(data: Dict.Dict<Json>): (r: Dict.Dict<Json>)
    ensures r == Flatten(data, "")
    ensures Dict.UniqueKeys(r) && LeafValues(r)
    ensures forall key | key in Dict.Keys(r) :: '.' !in key
    ensures Dict.Keys(r) == LeafKeys(JObj(data), |data|, "")
    ensures forall key :: Dict.Get(r, key) == LeafValueAt(JObj(data), |data|, "", key)
  {
    FlattenShape(JObj(data), |data|, "");
    FlattenGet(JObj(data), |data|, "");
    Flatten(data, "")
  }

  /** No value is an object. */
  predicate LeafValues(d: Dict.Dict<Json>) {
    forall i | 0 <= i < |d| :: !d[i].1.JObj?
  }

  /**
   * The keys flattening should produce: for each non-object value, the
   * '_'-joined path of sanitised keys leading to it. Empty nested objects
   * contribute nothing.
   */
  function LeafKeys(obj: Json, n: nat, parent: string): set<string>
    requires obj.JObj? && n <= |obj.fields|
    decreases obj, n
  {
    if n == 0 then {}
    else
      var (k, v) := obj.fields[n - 1];
      var key := EntryKey(parent, k);
      LeafKeys(obj, n - 1, parent) + (if v.JObj? then LeafKeys(v, |v.fields|, key) else {key})
  }

  /**
   * The value flattening should put under `key`: that of the last leaf, in
   * entry order, whose '_'-joined path of sanitised keys is `key`; none
   * when no leaf has that path.
   */
  function LeafValueAt(obj: Json, n: nat, parent: string, key: string): (r: Option<Json>)
    requires obj.JObj? && n <= |obj.fields|
    ensures r.Some? ==> !r.value.JObj?
    decreases obj, n
  {
    if n == 0 then None
    else
      var (k, v) := obj.fields[n - 1];
      var entryKey := EntryKey(parent, k);
      var later := if v.JObj? then LeafValueAt(v, |v.fields|, entryKey, key)
                   else if key == entryKey then Some(v) else None;
      if later.Some? then later else LeafValueAt(obj, n - 1, parent, key)
  }

  /** A leaf value sits exactly at the joined leaf paths. */
  lemma {:induction false} LeafValueAtKeys(obj: Json, n: nat, parent: string, key: string)
    requires obj.JObj? && n <= |obj.fields|
    ensures LeafValueAt(obj, n, parent, key).Some? <==> key in LeafKeys(obj, n, parent)
    decreases obj, n
  {
    if n > 0 {
      LeafValueAtKeys(obj, n - 1, parent, key);
      var (k, v) := obj.fields[n - 1];
      if v.JObj? {
        LeafValueAtKeys(v, |v.fields|, EntryKey(parent, k), key);
      }
    }
  }

  /** Reading a key of a flattened object gives the value of the last leaf on that path. */
  lemma FlattenGet(obj: Json, n: nat, parent: string)
    requires obj.JObj? && n <= |obj.fields|
    ensures forall key :: Dict.Get(FlattenUpTo(obj, n, parent), key) == LeafValueAt(obj, n, parent, key)
  {
    forall key ensures Dict.Get(FlattenUpTo(obj, n, parent), key) == LeafValueAt(obj, n, parent, key) {
      FlattenGetAt(obj, n, parent, key);
    }
  }

  lemma {:induction false} FlattenGetAt(obj: Json, n: nat, parent: string, key: string)
    requires obj.JObj? && n <= |obj.fields|
    ensures Dict.Get(FlattenUpTo(obj, n, parent), key) == LeafValueAt(obj, n, parent, key)
    decreases obj, n, 2
  {
    if n > 0 {
      if obj.fields[n - 1].1.JObj? {
        GetNestedEntry(obj, n, parent, key);
      } else {
        GetLeafEntry(obj, n, parent, key);
      }
    }
  }

  /** The inductive step of `FlattenGetAt` at a nested last entry. */
  lemma {:induction false} GetNestedEntry(obj: Json, n: nat, parent: string, key: string)
    requires obj.JObj? && 0 < n <= |obj.fields| && obj.fields[n - 1].1.JObj?
    ensures Dict.Get(FlattenUpTo(obj, n, parent), key) == LeafValueAt(obj, n, parent, key)
    decreases obj, n, 1
  {
    var v := obj.fields[n - 1].1;
    var entryKey := EntryKey(parent, obj.fields[n - 1].0);
    var items, inner := FlattenUpTo(obj, n - 1, parent), FlattenUpTo(v, |v.fields|, entryKey);
    var later := LeafValueAt(v, |v.fields|, entryKey, key);
    calc {
      Dict.Get(FlattenUpTo(obj, n, parent), key);
    == { NestedEntryUnfolds(obj, n, parent, key); }
      Dict.Get(Dict.PutAll(items, inner), key);
    == { NestedStep(items, inner, key); }
      if Dict.Get(inner, key).Some? then Dict.Get(inner, key) else Dict.Get(items, key);
    == { FlattenGetAt(obj, n - 1, parent, key); FlattenGetAt(v, |v.fields|, entryKey, key); }
      if later.Some? then later else LeafValueAt(obj, n - 1, parent, key);
    == { NestedEntryUnfolds(obj, n, parent, key); }
      LeafValueAt(obj, n, parent, key);
    }
  }

  /** The inductive step of `FlattenGetAt` at a leaf last entry. */
  lemma {:induction false} GetLeafEntry(obj: Json, n: nat, parent: string, key: string)
    requires obj.JObj? && 0 < n <= |obj.fields| && !obj.fields[n - 1].1.JObj?
    ensures Dict.Get(FlattenUpTo(obj, n, parent), key) == LeafValueAt(obj, n, parent, key)
    decreases obj, n, 1
  {
    if key == EntryKey(parent, obj.fields[n - 1].0) {
      GetLeafHit(obj, n, parent, key);
    } else {
      GetLeafMiss(obj, n, parent, key);
    }
  }

  /** A leaf last entry written at `key` is what both sides read there. */
  lemma GetLeafHit(obj: Json, n: nat, parent: string, key: string)
    requires obj.JObj? && 0 < n <= |obj.fields| && !obj.fields[n - 1].1.JObj?
    requires key == EntryKey(parent, obj.fields[n - 1].0)
    ensures Dict.Get(FlattenUpTo(obj, n, parent), key) == LeafValueAt(obj, n, parent, key)
  {
    LeafEntryUnfolds(obj, n, parent, key);
    Dict.GetPut(FlattenUpTo(obj, n - 1, parent), key, obj.fields[n - 1].1, key);
  }

  /** A leaf last entry written elsewhere leaves both sides as they were. */
  lemma GetLeafMiss(obj: Json, n: nat, parent: string, key: string)
    requires obj.JObj? && 0 < n <= |obj.fields| && !obj.fields[n - 1].1.JObj?
    requires key != EntryKey(parent, obj.fields[n - 1].0)
    ensures Dict.Get(FlattenUpTo(obj, n, parent), key) == LeafValueAt(obj, n, parent, key)
    decreases obj, n, 0
  {
    var entryKey := EntryKey(parent, obj.fields[n - 1].0);
    var items := FlattenUpTo(obj, n - 1, parent);
    calc {
      Dict.Get(FlattenUpTo(obj, n, parent), key);
    == { LeafEntryUnfolds(obj, n, parent, key); }
      Dict.Get(Dict.Put(items, entryKey, obj.fields[n - 1].1), key);
    == { Dict.GetPut(items, entryKey, obj.fields[n - 1].1, key); }
      Dict.Get(items, key);
    == { FlattenGetAt(obj, n - 1, parent, key); }
      LeafValueAt(obj, n - 1, parent, key);
    == { LeafEntryUnfolds(obj, n, parent, key); }
      LeafValueAt(obj, n, parent, key);
    }
  }

  /** `FlattenUpTo` and `LeafValueAt` one step down, at a nested last entry. */
  lemma NestedEntryUnfolds(obj: Json, n: nat, parent: string, key: string)
    requires obj.JObj? && 0 < n <= |obj.fields| && obj.fields[n - 1].1.JObj?
    ensures var v := obj.fields[n - 1].1;
            var entryKey := EntryKey(parent, obj.fields[n - 1].0);
            FlattenUpTo(obj, n, parent) ==
              Dict.PutAll(FlattenUpTo(obj, n - 1, parent), FlattenUpTo(v, |v.fields|, entryKey))
    ensures var v := obj.fields[n - 1].1;
            var later := LeafValueAt(v, |v.fields|, EntryKey(parent, obj.fields[n - 1].0), key);
            LeafValueAt(obj, n, parent, key) ==
              if later.Some? then later else LeafValueAt(obj, n - 1, parent, key)
  {
  }

  /** `FlattenUpTo` and `LeafValueAt` one step down, at a leaf last entry. */
  lemma LeafEntryUnfolds(obj: Json, n: nat, parent: string, key: string)
    requires obj.JObj? && 0 < n <= |obj.fields| && !obj.fields[n - 1].1.JObj?
    ensures var entryKey := EntryKey(parent, obj.fields[n - 1].0);
            FlattenUpTo(obj, n, parent) ==
              Dict.Put(FlattenUpTo(obj, n - 1, parent), entryKey, obj.fields[n - 1].1)
    ensures var entryKey := EntryKey(parent, obj.fields[n - 1].0);
            LeafValueAt(obj, n, parent, key) ==
              if key == entryKey then Some(obj.fields[n - 1].1) else LeafValueAt(obj, n - 1, parent, key)
  {
  }

  /** Merging a nested object's entries: `inner`'s value wins when it has one. */
  lemma NestedStep(items: Dict.Dict<Json>, inner: Dict.Dict<Json>, key: string)
    ensures Dict.Get(Dict.PutAll(items, inner), key) ==
      if Dict.Get(inner, key).Some? then Dict.Get(inner, key) else Dict.Get(items, key)
  {
    Dict.GetPutAll(items, inner, key);
  }

  lemma PutLeaf(d: Dict.Dict<Json>, k: string, v: Json)
    requires LeafValues(d) && !v.JObj?
    ensures LeafValues(Dict.Put(d, k, v))
  {
    if k !in Dict.Keys(d) {
      var r := d + [(k, v)];
      assert forall i | 0 <= i < |r| :: r[i] == if i < |d| then d[i] else (k, v);
    }
  }

  lemma {:induction false} PutAllLeaves(d: Dict.Dict<Json>, entries: Dict.Dict<Json>)
    requires LeafValues(d) && LeafValues(entries)
    ensures LeafValues(Dict.PutAll(d, entries))
    decreases |entries|
  {
    if |entries| > 0 {
      PutLeaf(d, entries[0].0, entries[0].1);
      PutAllLeaves(Dict.Put(d, entries[0].0, entries[0].1), entries[1..]);
    }
  }

  /**
   * The shape of a flattened object: distinct keys, none containing '.'
   * when the parent key has none, no object values, and exactly the keys
   * of the leaves' joined paths.
   */
  lemma FlattenShape(obj: Json, n: nat, parent: string)
    requires obj.JObj? && n <= |obj.fields|
    ensures var r := FlattenUpTo(obj, n, parent);
      && Dict.UniqueKeys(r)
      && LeafValues(r)
      && Dict.Keys(r) == LeafKeys(obj, n, parent)
      && ('.' !in parent ==> forall key | key in Dict.Keys(r) :: '.' !in key)
  {
    FlattenUniqueLeaves(obj, n, parent);
    FlattenKeys(obj, n, parent);
    if '.' !in parent {
      LeafKeysDotFree(obj, n, parent);
    }
  }

  /** A flattened object has distinct keys and no object values. */
  lemma {:induction false} FlattenUniqueLeaves(obj: Json, n: nat, parent: string)
    requires obj.JObj? && n <= |obj.fields|
    ensures Dict.UniqueKeys(FlattenUpTo(obj, n, parent)) && LeafValues(FlattenUpTo(obj, n, parent))
    decreases obj, n
  {
    if n > 0 {
      var items := FlattenUpTo(obj, n - 1, parent);
      FlattenUniqueLeaves(obj, n - 1, parent);
      var (k, v) := obj.fields[n - 1];
      var key := EntryKey(parent, k);
      if v.JObj? {
        var inner := FlattenUpTo(v, |v.fields|, key);
        FlattenUniqueLeaves(v, |v.fields|, key);
        Dict.UniquePutAll(items, inner);
        PutAllLeaves(items, inner);
      } else {
        Dict.UniquePut(items, key, v);
        PutLeaf(items, key, v);
      }
    }
  }

  /** A flattened object's keys are the leaves' joined paths. */
  lemma {:induction false} FlattenKeys(obj: Json, n: nat, parent: string)
    requires obj.JObj? && n <= |obj.fields|
    ensures Dict.Keys(FlattenUpTo(obj, n, parent)) == LeafKeys(obj, n, parent)
    decreases obj, n
  {
    if n > 0 {
      var items := FlattenUpTo(obj, n - 1, parent);
      FlattenKeys(obj, n - 1, parent);
      var (k, v) := obj.fields[n - 1];
      var key := EntryKey(parent, k);
      if v.JObj? {
        FlattenKeys(v, |v.fields|, key);
        Dict.KeysPutAll(items, FlattenUpTo(v, |v.fields|, key));
      } else {
        Dict.KeysPut(items, key, v);
      }
    }
  }

  /** Under a '.'-free parent key every joined leaf path is '.'-free. */
  lemma {:induction false} LeafKeysDotFree(obj: Json, n: nat, parent: string)
    requires obj.JObj? && n <= |obj.fields|
    requires '.' !in parent
    ensures forall key | key in LeafKeys(obj, n, parent) :: '.' !in key
    decreases obj, n
  {
    if n > 0 {
      LeafKeysDotFree(obj, n - 1, parent);
      var (k, v) := obj.fields[n - 1];
      var key := EntryKey(parent, k);
      if v.JObj? {
        LeafKeysDotFree(v, |v.fields|, key);
      }
    }
  }

  /** Two objects that agree on their first `n` entries flatten those entries alike. */
  lemma {:induction false} FlattenPrefix(a: Json, b: Json, n: nat, parent: string)
    requires a.JObj? && b.JObj? && n <= |a.fields| && n <= |b.fields|
    requires a.fields[..n] == b.fields[..n]
    ensures FlattenUpTo(a, n, parent) == FlattenUpTo(b, n, parent)
    decreases n
  {
    if n > 0 {
      assert a.fields[..n - 1] == b.fields[..n - 1];
      assert a.fields[n - 1] == a.fields[..n][n - 1] == b.fields[n - 1];
      FlattenPrefix(a, b, n - 1, parent);
    }
  }

  /** Appending an entry to a dict flattens it on top of the flattened dict. */
  lemma FlattenAppend(d: Dict.Dict<Json>, k: string, v: Json, parent: string)
    ensures Flatten(d + [(k, v)], parent) ==
      if v.JObj? then Dict.PutAll(Flatten(d, parent), Flatten(v.fields, EntryKey(parent, k)))
      else Dict.Put(Flatten(d, parent), EntryKey(parent, k), v)
  {
    var e := d + [(k, v)];
    assert e[..|d|] == d[..|d|];
    FlattenPrefix(JObj(e), JObj(d), |d|, parent);
  }

  /** On a key collision the later entry wins: a trailing non-object entry is read back under its key. */
  lemma LaterEntryWins(d: Dict.Dict<Json>, k: string, v: Json, parent: string)
    requires !v.JObj?
    ensures Dict.Get(Flatten(d + [(k, v)], parent), EntryKey(parent, k)) == Some(v)
  {
    FlattenAppend(d, k, v, parent);
    Dict.GetPut(Flatten(d, parent), EntryKey(parent, k), v, EntryKey(parent, k));
  }

  /** An empty nested object contributes no key. */
  lemma EmptyObjectVanishes(d: Dict.Dict<Json>, k: string, parent: string)
    ensures Flatten(d + [(k, JObj([]))], parent) == Flatten(d, parent)
  {
    FlattenAppend(d, k, JObj([]), parent);
  }

  /** A nested leaf reads back under its parent's key and its own, joined with '_'. */
  lemma NestedLeafJoined(d: Dict.Dict<Json>, k: string, inner: string, v: Json, parent: string)
    requires !v.JObj?
    ensures Dict.Get(Flatten(d + [(k, JObj([(inner, v)]))], parent), JoinKey(EntryKey(parent, k), SanitizeKey(inner))) == Some(v)
  {
    var key := EntryKey(parent, k);
    FlattenAppend(d, k, JObj([(inner, v)]), parent);
    var nested := Flatten([(inner, v)], key);
    FlattenAppend([], inner, v, key);
    assert [] + [(inner, v)] == [(inner, v)];
    Dict.GetPut([], EntryKey(key, inner), v, EntryKey(key, inner));
    Dict.KeysPut([], EntryKey(key, inner), v);
    Dict.GetPutAll(Flatten(d, parent), nested, EntryKey(key, inner));
  }

  /**
   * A dict that is already flat (no object values, no '.' in any key)
   * comes back unchanged, order included.
   */
  lemma {:induction false} FlatUnchanged(d: Dict.Dict<Json>)
    requires Dict.UniqueKeys(d) && LeafValues(d)
    requires forall i | 0 <= i < |d| :: '.' !in d[i].0
    ensures Flatten(d, "") == d
    decreases |d|
  {
    if |d| > 0 {
      var front := d[..|d| - 1];
      var (k, v) := d[|d| - 1];
      assert d == front + [(k, v)];
      assert Dict.UniqueKeys(front) by {
        forall a, b | 0 <= a < b < |front|
          ensures front[a].0 != front[b].0
        {
          assert front[a] == d[a] && front[b] == d[b];
        }
      }
      assert LeafValues(front) by {
        forall i | 0 <= i < |front| ensures !front[i].1.JObj? { assert front[i] == d[i]; }
      }
      assert forall i | 0 <= i < |front| :: '.' !in front[i].0 by {
        forall i | 0 <= i < |front| ensures '.' !in front[i].0 { assert front[i] == d[i]; }
      }
      FlatUnchanged(front);
      FlattenAppend(front, k, v, "");
      assert k !in Dict.Keys(front) by {
        forall i | 0 <= i < |front| ensures front[i].0 != k { assert front[i] == d[i]; }
      }
    }
  }
}

=== FILE: text.dfy ===
/**
 * The handful of Python string operations the agent relies on, restricted to
 * ASCII: case mapping, whitespace stripping, splitting and joining on one
 * character, and the decimal rendering and parsing that str() and int() do.
 */
module Text {
  import opened Wrappers

  predicate IsUpper(c: char) { 'A' <= c <= 'Z' }
  predicate IsLower(c: char) { 'a' <= c <= 'z' }

  /** The lower-case letter of an upper-case one: 32 code points further on. */
  function ToLower(c: char): (r: char)
    ensures !IsUpper(r)
    ensures IsUpper(c) ==> IsLower(r) && r as int == c as int + 32
    ensures !IsUpper(c) ==> r == c
  {
    if IsUpper(c) then (c as int + 32) as char else c
  }

  /** The upper-case letter of a lower-case one: 32 code points back. */
  function ToUpper(c: char): (r: char)
    ensures !IsLower(r)
    ensures IsLower(c) ==> IsUpper(r) && r as int == c as int - 32
    ensures !IsLower(c) ==> r == c
  {
    if IsLower(c) then (c as int - 32) as char else c
  }

  /** str.lower() on ASCII letters: each upper-case letter becomes its lower-case one, everything else is kept. */
  function Lower(s: string): (r: string)
    ensures |r| == |s|
    ensures forall i | 0 <= i < |s| :: r[i] == ToLower(s[i])
  {
    seq(|s|, i requires 0 <= i < |s| => ToLower(s[i]))
  }

  /** str.upper() on ASCII letters: each lower-case letter becomes its upper-case one, everything else is kept. */
  function Upper(s: string): (r: string)
    ensures |r| == |s|
    ensures forall i | 0 <= i < |s| :: r[i] == ToUpper(s[i])
  {
    seq(|s|, i requires 0 <= i < |s| => ToUpper(s[i]))
  }

  /** Lower-casing changes nothing in a string without upper-case letters. */
  lemma LowerUnchanged(s: string)
    requires forall i | 0 <= i < |s| :: !IsUpper(s[i])
    ensures Lower(s) == s
  {
  }

  lemma LowerNoUpper(s: string)
    ensures forall i | 0 <= i < |Lower(s)| :: !IsUpper(Lower(s)[i])
  {
  }

  lemma UpperNoLower(s: string)
    ensures forall i | 0 <= i < |Upper(s)| :: !IsLower(Upper(s)[i])
  {
  }

  /** Upper-casing changes nothing in a string without lower-case letters. */
  lemma UpperUnchanged(s: string)
    requires forall i | 0 <= i < |s| :: !IsLower(s[i])
    ensures Upper(s) == s
  {
  }

  /**
   * Case folding ignores case: lower-casing gives the same string whether
   * or not the input was upper-cased first, and lower-casing twice is
   * lower-casing once; symmetrically for upper-casing.
   */
  lemma CaseFolding(s: string)
    ensures Lower(Upper(s)) == Lower(s) && Lower(Lower(s)) == Lower(s)
    ensures Upper(Lower(s)) == Upper(s) && Upper(Upper(s)) == Upper(s)
  {
    assert forall i | 0 <= i < |s| :: Lower(Upper(s))[i] == Lower(s)[i];
    assert forall i | 0 <= i < |s| :: Upper(Lower(s))[i] == Upper(s)[i];
  }

  /** The ASCII characters for which Python's str.isspace() holds. */
  predicate IsSpace(c: char) {
    c == ' ' || (9 <= c as int <= 13) || (28 <= c as int <= 31)
  }

  function StripLeft(s: string): (r: string)
    ensures |r| <= |s| && r == s[|s| - |r|..]
    ensures |r| > 0 ==> !IsSpace(r[0])
  {
    if |s| > 0 && IsSpace(s[0]) then StripLeft(s[1..]) else s
  }

  function StripRight(s: string): (r: string)
    ensures |r| <= |s| && r == s[..|r|]
    ensures |r| > 0 ==> !IsSpace(r[|r| - 1])
  {
    if |s| > 0 && IsSpace(s[|s| - 1]) then StripRight(s[..|s| - 1]) else s
  }

  /** str.strip(): leading and trailing whitespace removed. */
  function Strip(s: string): (r: string)
    ensures |r| > 0 ==> !IsSpace(r[0]) && !IsSpace(r[|r| - 1])
  {
    StripRight(StripLeft(s))
  }

  /** What StripLeft drops is whitespace. */
  lemma {:induction false} StripLeftSpaces(s: string)
    ensures forall k | 0 <= k < |s| - |StripLeft(s)| :: IsSpace(s[k])
    decreases |s|
  {
    if |s| > 0 && IsSpace(s[0]) {
      StripLeftSpaces(s[1..]);
      forall k | 1 <= k < |s| - |StripLeft(s)| ensures IsSpace(s[k]) {
        assert s[k] == s[1..][k - 1];
      }
    }
  }

  /** What StripRight drops is whitespace. */
  lemma {:induction false} StripRightSpaces(s: string)
    ensures forall k | |StripRight(s)| <= k < |s| :: IsSpace(s[k])
    decreases |s|
  {
    if |s| > 0 && IsSpace(s[|s| - 1]) {
      StripRightSpaces(s[..|s| - 1]);
      forall k | |StripRight(s)| <= k < |s| - 1 ensures IsSpace(s[k]) {
        assert s[k] == s[..|s| - 1][k];
      }
    }
  }

  /** What strip() removes is whitespace at the two ends and nothing else: the result is a slice of the input. */
  lemma StripTrims(s: string)
    ensures exists i, j | 0 <= i <= j <= |s| ::
              && Strip(s) == s[i..j]
              && (forall k | 0 <= k < i :: IsSpace(s[k]))
              && (forall k | j <= k < |s| :: IsSpace(s[k]))
  {
    var left := StripLeft(s);
    var r := StripRight(left);
    StripLeftSpaces(s);
    StripRightSpaces(left);
    var i := |s| - |left|;
    var j := i + |r|;
    assert r == s[i..j] by {
      assert left == s[i..];
      assert r == left[..|r|];
    }
    forall k | j <= k < |s| ensures IsSpace(s[k]) {
      assert s[k] == left[k - i];
    }
  }

  /** Stripping a string that neither starts nor ends with whitespace changes nothing. */
  lemma StripUnchanged(s: string)
    requires |s| > 0 && !IsSpace(s[0]) && !IsSpace(s[|s| - 1])
    ensures Strip(s) == s
  {
  }

  /** str.replace(from, to) for one-character `from` and `to`. */
  function ReplaceChar(s: string, from: char, to: char): (r: string)
    ensures |r| == |s|
    ensures forall i | 0 <= i < |s| :: r[i] == (if s[i] == from then to else s[i])
  {
    seq(|s|, i requires 0 <= i < |s| => if s[i] == from then to else s[i])
  }

  /** str.split(sep) for a one-character separator. */
  function Split(s: string, sep: char): (parts: seq<string>)
    ensures |parts| > 0
    ensures forall i | 0 <= i < |parts| :: sep !in parts[i]
    decreases |s|
  {
    if sep !in s then [s]
    else
      var i := FirstIndex(s, sep);
      [s[..i]] + Split(s[i + 1..], sep)
  }

  /** `s.split(sep)[0]`: the part of `s` before its first `sep`, all of `s` when there is none. */
  lemma SplitHead(s: string, sep: char)
    ensures var h := Split(s, sep)[0];
      h <= s && sep !in h && (|h| == |s| || s[|h|] == sep)
  {
  }

  function FirstIndex(s: string, c: char): (i: nat)
    requires c in s
    ensures i < |s| && s[i] == c && c !in s[..i]
  {
    if s[0] == c then 0 else 1 + FirstIndex(s[1..], c)
  }

  /** sep.join(parts). */
  function Join(parts: seq<string>, sep: string): string {
    if |parts| == 0 then ""
    else if |parts| == 1 then parts[0]
    else parts[0] + sep + Join(parts[1..], sep)
  }

  /** Splitting and joining again on the same character gives the string back. */
  lemma {:induction false} JoinSplit(s: string, sep: char)
    ensures Join(Split(s, sep), [sep]) == s
    decreases |s|
  {
    if sep in s {
      var i := FirstIndex(s, sep);
      var rest := Split(s[i + 1..], sep);
      JoinSplit(s[i + 1..], sep);
      assert s == s[..i] + [sep] + s[i + 1..];
    }
  }

  /** A separator-free last segment is split off as its own part. */
  lemma {:induction false} SplitAppend(a: string, sep: char, b: string)
    requires sep !in b
    ensures Split(a + [sep] + b, sep) == Split(a, sep) + [b]
    decreases |a|
  {
    if sep in a {
      var i := FirstIndex(a, sep);
      var tail := a[i + 1..];
      assert a == a[..i] + [sep] + tail;
      calc {
        Split(a + [sep] + b, sep);
      == { assert a + [sep] + b == a[..i] + [sep] + (tail + [sep] + b);
           SplitPrepend(a[..i], sep, tail + [sep] + b); }
        [a[..i]] + Split(tail + [sep] + b, sep);
      == { SplitAppend(tail, sep, b); }
        [a[..i]] + (Split(tail, sep) + [b]);
      == { SplitPrepend(a[..i], sep, tail); }
        Split(a, sep) + [b];
      }
    } else {
      SplitPrepend(a, sep, b);
    }
  }

  /** A separator-free first segment is split off as its own part. */
  lemma SplitPrepend(a: string, sep: char, b: string)
    requires sep !in a
    ensures Split(a + [sep] + b, sep) == [a] + Split(b, sep)
  {
    var s := a + [sep] + b;
    assert FirstIndex(s, sep) == |a| by { FirstIndexAfter(a, [sep] + b, sep); assert s == a + ([sep] + b); }
    assert s[..|a|] == a;
    assert s[|a| + 1..] == b;
  }

  /** Joining separator-free parts and splitting again gives the parts back. */
  lemma {:induction false} SplitJoin(parts: seq<string>, sep: char)
    requires |parts| > 0
    requires forall i | 0 <= i < |parts| :: sep !in parts[i]
    ensures Split(Join(parts, [sep]), sep) == parts
    decreases |parts|
  {
    if |parts| > 1 {
      SplitJoin(parts[1..], sep);
      SplitPrepend(parts[0], sep, Join(parts[1..], [sep]));
      assert parts == [parts[0]] + parts[1..];
    }
  }

  /** Python's `a in s` on strings: `a` occurs in `s` as a contiguous substring. */
  predicate IsSubstring(a: string, s: string)
    decreases |s|
  {
    a <= s || (|s| > 0 && IsSubstring(a, s[1..]))
  }

  /** A string occurs in itself framed by anything. */
  lemma {:induction false} SubstringFramed(a: string, p: string, q: string)
    ensures IsSubstring(a, p + a + q)
    decreases |p|
  {
    if |p| == 0 {
      assert p + a + q == a + q;
      assert a <= a + q;
    } else {
      assert (p + a + q)[1..] == p[1..] + a + q;
      SubstringFramed(a, p[1..], q);
    }
  }

  /** Each part of a join occurs in the joined string. */
  lemma {:induction false} JoinContains(parts: seq<string>, sep: string, i: nat)
    requires i < |parts|
    ensures IsSubstring(parts[i], Join(parts, sep))
    decreases |parts|
  {
    if |parts| == 1 {
      SubstringFramed(parts[0], "", "");
      assert "" + parts[0] + "" == parts[0];
    } else if i == 0 {
      SubstringFramed(parts[0], "", sep + Join(parts[1..], sep));
      assert "" + parts[0] + (sep + Join(parts[1..], sep)) == Join(parts, sep);
    } else {
      assert parts[1..][i - 1] == parts[i];
      JoinContains(parts[1..], sep, i - 1);
      SubstringPrepend(parts[i], parts[0] + sep, Join(parts[1..], sep));
    }
  }

  /** Text in front of a string keeps every substring of it. */
  lemma {:induction false} SubstringPrepend(a: string, p: string, s: string)
    requires IsSubstring(a, s)
    ensures IsSubstring(a, p + s)
    decreases |p|
  {
    if |p| > 0 {
      assert (p + s)[1..] == p[1..] + s;
      SubstringPrepend(a, p[1..], s);
    } else {
      assert p + s == s;
    }
  }

  lemma FirstIndexAfter(a: string, b: string, c: char)
    requires c !in a && |b| > 0 && b[0] == c
    ensures c in a + b && FirstIndex(a + b, c) == |a|
  {
    assert (a + b)[|a|] == c;
    assert (a + b)[..|a|] == a;
  }

  function DigitChar(d: nat): char
    requires d < 10
  {
    ('0' as int + d) as char
  }

  /** str(n) for a non-negative integer. */
  function NatToString(n: nat): (r: string)
    ensures |r| > 0 && forall i | 0 <= i < |r| :: '0' <= r[i] <= '9'
  {
    if n < 10 then [DigitChar(n)] else NatToString(n / 10) + [DigitChar(n % 10)]
  }

  /** str(i) for any integer. */
  function IntToString(i: int): string {
    if i < 0 then "-" + NatToString(-i) else NatToString(i)
  }

  predicate IsDigit(c: char) { '0' <= c <= '9' }

  /** The value of a run of decimal digits; None once a character is not a digit. */
  function DigitsValue(s: string): (r: Option<nat>)
    ensures r.Some? && |s| > 0 ==> IsDigit(s[|s| - 1])
  {
    if |s| == 0 then Some(0)
    else if !IsDigit(s[|s| - 1]) then None
    else
      match DigitsValue(s[..|s| - 1])
      case None => None
      case Some(v) => Some(v * 10 + (s[|s| - 1] as int - '0' as int))
  }

  /** int(s) on a string: optional sign and decimal digits, surrounding whitespace allowed. */
  function ParseInt(s: string): (r: Option<int>)
    ensures r.Some? ==> |Strip(s)| > 0
  {
    ParseSigned(Strip(s))
  }

  /** At least one digit and nothing else. */
  function Unsigned(b: string): (r: Option<nat>)
    ensures r.Some? ==> |b| > 0
  {
    if |b| == 0 then None else DigitsValue(b)
  }

  /** int() once the whitespace is stripped: an optional sign, then at least one digit and nothing else. */
  function ParseSigned(t: string): (r: Option<int>)
    ensures r.Some? ==> |t| > 0
  {
    if |t| == 0 then None
    else if t[0] == '-' then
      match Unsigned(t[1..])
      case None => None
      case Some(v) => Some(-(v as int))
    else if t[0] == '+' then
      match Unsigned(t[1..])
      case None => None
      case Some(v) => Some(v as int)
    else
      match Unsigned(t)
      case None => None
      case Some(v) => Some(v as int)
  }

  /** A run of digits parses to its value. */
  lemma ParseSignedDigits(t: string, v: nat)
    requires |t| > 0 && IsDigit(t[0]) && DigitsValue(t) == Some(v)
    ensures ParseSigned(t) == Some(v)
  {
  }

  /** '-' followed by a run of digits parses to minus its value. */
  lemma ParseSignedMinus(t: string, v: nat)
    requires |t| > 0 && DigitsValue(t) == Some(v)
    ensures ParseSigned("-" + t) == Some(-(v as int))
  {
    var s := "-" + t;
    assert s[0] == '-' && s[1..] == t;
    assert Unsigned(s[1..]) == Some(v);
  }

  /** int() reads back what str() writes, for every integer. */
  lemma ParseIntOfString(i: int)
    ensures ParseInt(IntToString(i)) == Some(i)
  {
    var n: nat := if i < 0 then -i else i;
    var t := NatToString(n);
    var s := IntToString(i);
    DigitsOfNat(n);
    if i < 0 {
      assert s == "-" + t;
      assert s[|s| - 1] == t[|t| - 1];
      StripUnchanged(s);
      ParseSignedMinus(t, n);
    } else {
      assert s == t;
      StripUnchanged(s);
      ParseSignedDigits(t, n);
    }
  }

  /** Decimal rendering and parsing are inverse on non-negative integers. */
  lemma {:induction false} DigitsOfNat(n: nat)
    ensures DigitsValue(NatToString(n)) == Some(n)
  {
    if n >= 10 {
      DigitsOfNat(n / 10);
      var s := NatToString(n);
      assert s[..|s| - 1] == NatToString(n / 10);
    }
  }
}

=== FILE: wrappers.dfy ===
/** The option type shared by every module of the model. */
module Wrappers {

  datatype Option<+T> = None | Some(value: T) {

    /** The wrapped value, or `default` when there is none. */
    function GetOr(default: T): T {
      match this
      case Some(v) => v
      case None => default
    }
  }
}
